=== FILE: README.md ===
# vscode-phpfmt in Dafny

A model of the logic the phpfmt extension for Visual Studio Code runs around
the external PHP formatter (`fmt.phar`), with proofs about that logic. The
formatter binary and everything the extension learns from the outside enter
as inputs. Of what the extension does to the outside, each result records the
error or text it returns, the status it shows, the messages it pops up, the
temporary file and command of a format, and the settings it writes; the log
lines and status-bar flashes inside `format` are not recorded (see "Left out").
Outside inputs include process outcomes, the file system, the active editor,
`detect-indent`, `Math.random` and the clock.

The modules follow the extension's own parts:

| module | file | models |
|---|---|---|
| `Wrappers` | wrappers.dfy | `Option` and `Result` |
| `Strings` | strings.dfy | the JavaScript string operations the extension leans on: `trim`, `split` on one character, `join`, `String(n)`, double quotes |
| `Config` | config.dfy | the `phpfmt.*` settings record |
| `Flags` | flags.dfy | `loadSettings` and `getArgs`, and the fixed order of the flags |
| `FlagDecoding` | decode.dfy | an independent reader that turns a flag list back into the switches it requests |
| `FlagRoundTrip` | roundtrip.dfy | the proof that reading `loadSettings`' flags back gives the settings |
| `Catalog` | catalog.dfy | the `--list-simple` parser, the example call, the base commands and the `mem` cache of `Transformation` and the older `Transformations` |
| `Versions` | versions.dfy | the `php -v` banner token, `compare-versions` on numeric versions, and the version window |
| `Errors` | errors.dfy | `PHPFmtError` and its `phpfmt: ` prefix |
| `Pipeline` | pipeline.dfy | `format`: pass validation, the PSR-2 indentation rule, the version check, the ignore list, the temporary file and the formatter command |
| `Widget` | widget.dfy | the status-bar item and the leveled output channel |
| `Provider` | provider.dfy | the quick-pick toggles and the document and range formatting providers |
| `Legacy` | legacy.dfy | the first version of the extension, `extension.js` |
| `Docs` | docs.dfy | the README/schema generators `scripts/docs.ts` and `scripts/generate.ts` |

The central results:

- `FlagRoundTrip.LoadSettingsDecodes`: decoding the flags of `loadSettings` gives exactly the switches the settings request.
- `Flags.LoadSettingsOrdered`: those flags are in the fixed order, each at most once.
- `Legacy.LegacyMatchesCurrent` and `Legacy.LegacyDiffersOnFalse`: where the old flag builder agrees with the current one, and where it does not.
- `Catalog.ParseListing`: parsing a well-formed listing gives one item per pass.
- `Docs.ReplaceBlockIdempotent`: regenerating a README block a second time changes nothing.
- `Provider.RangeUnchangedNoEdit` and `Provider.RangeNoOpEditAsWritten`: a formatter that changes nothing yields no range edit in the corrected provider, but an edit in the provider as written.

## Model

| member | source | states |
|---|---|---|
| Flags.LoadSettings | src/PHPFmt.ts:47-52 | a non-empty `custom_arguments` is the entire flag list, and the list is rebuilt from the settings alone |
| Flags.IndentSlot | src/PHPFmt.ts:70-77 | under `detect_indent` no indentation flag is pushed |
| Flags.GetArgs | src/PHPFmt.ts:122-126 | the stored flags are kept in order, with the double-quoted file name as one extra last argument |
| Flags.KindRender | src/PHPFmt.ts:54-107 | every flag text `loadSettings` can push is recognised as the flag it was built from, so the flag texts are pairwise distinct |
| Flags.PlanKnown | src/PHPFmt.ts:54-107 | every flag `loadSettings` pushes is one of the formatter's known flags |
| Flags.LoadSettingsOrdered | src/PHPFmt.ts:54-107 | without custom arguments, flags appear in the fixed order psr1, psr1-naming, psr2, wp, indent, auto-align, visibility order, passes, exclude, smart linebreak, yoda, cakephp, each at most once |
| FlagRoundTrip.LoadSettingsDecodes | src/PHPFmt.ts:47-107 | decoding the flag list gives each boolean switch exactly as its setting, the indentation choice of the indentation rules, the pass and exclude lists unchanged, and no stray flag |
| FlagRoundTrip.ReadPrefix | src/PHPFmt.ts:54-107 | after reading the first i guarded pushes, exactly the first i settings are reflected |
| FlagRoundTrip.StepPsr1 | src/PHPFmt.ts:54-56 | `--psr1` is present iff `psr1` is on |
| FlagRoundTrip.StepPsr1Naming | src/PHPFmt.ts:58-60 | `--psr1-naming` is present iff `psr1_naming` is on |
| FlagRoundTrip.StepPsr2 | src/PHPFmt.ts:62-64 | `--psr2` is present iff `psr2` is on |
| FlagRoundTrip.StepWp | src/PHPFmt.ts:66-68 | `--wp` is present iff `wp` is on |
| FlagRoundTrip.StepIndent | src/PHPFmt.ts:70-77 | the indentation flag reads back as no flag, the bare flag for `true`, or width N for a positive number N, and only without indent detection |
| FlagRoundTrip.ReadIndentFlag | src/PHPFmt.ts:72-73 | a boolean `indent_with_space` gives the bare flag exactly when it is `true` |
| FlagRoundTrip.ReadNoWidth | src/PHPFmt.ts:74 | a width of zero or less, or indent detection, gives no indentation flag |
| FlagRoundTrip.ReadIndentWidth | src/PHPFmt.ts:74-76 | a positive width N gives `--indent_with_space=N`, which reads back as N |
| FlagRoundTrip.StepAutoAlign | src/PHPFmt.ts:79-81 | `--enable_auto_align` is present iff its setting is on |
| FlagRoundTrip.StepVisibilityOrder | src/PHPFmt.ts:83-85 | `--visibility_order` is present iff its setting is on |
| FlagRoundTrip.StepPasses | src/PHPFmt.ts:87-90 | `--passes=` is present iff `passes` is non-empty, and splitting its value on commas gives the list back |
| FlagRoundTrip.StepExclude | src/PHPFmt.ts:92-95 | `--exclude=` is present iff `exclude` is non-empty, and splitting its value on commas gives the list back |
| FlagRoundTrip.SplitNames | src/PHPFmt.ts:89 | comma-joining pass names that hold no comma can be undone |
| FlagRoundTrip.StepSmartLinebreak | src/PHPFmt.ts:97-99 | `--smart_linebreak_after_curly` is present iff its setting is on |
| FlagRoundTrip.StepYoda | src/PHPFmt.ts:101-103 | `--yoda` is present iff `yoda` is on |
| FlagRoundTrip.StepCakephp | src/PHPFmt.ts:105-107 | `--cakephp` is present iff `cakephp` is on |
| Pipeline.Unrecognised | src/PHPFmt.ts:132-142 | the offending names are exactly the configured names that are neither a listing key nor a known pass |
| Pipeline.Validate | src/PHPFmt.ts:129-149 | validation fails iff some name in `passes` followed by `exclude` is unrecognised, and the error lists the offenders in order |
| Pipeline.IndentStep | src/PHPFmt.ts:151-165 | without detection, PSR-2 fails unless the width is exactly 4 (`true` included); with detection, one flag is appended to the stored list, or none for tabs |
| Pipeline.DetectedFlagReads | src/PHPFmt.ts:152-158 | the flag detection appends reads back as the bare flag when nothing was detected and as the detected width for spaces |
| Pipeline.IniPath | src/PHPFmt.ts:167-186 | a `.php.tools.ini` is used iff there is an editor, a workspace and a found file whose path starts with a workspace folder |
| Pipeline.RandomPart | src/PHPFmt.ts:226-229 | the random part is the first at most ten lower-case letters of the base-36 number |
| Pipeline.Basename | src/PHPFmt.ts:232 | the base name holds no slash and is the last segment of the path once trailing slashes are dropped; it is empty iff the path is all slashes |
| Pipeline.BasenameTrailingSlash | src/PHPFmt.ts:232 | a trailing slash does not change the base name, as `path.basename("a/b/")` is `b` |
| Pipeline.IgnoredBy | src/PHPFmt.ts:233-244 | entries are tried in order: no result iff every entry compiles and fails to match, otherwise the first entry that matches or the first that is not a valid pattern, with every earlier entry compiling and not matching |
| Pipeline.TempName | src/PHPFmt.ts:224-250 | the temporary file lies in the temporary directory, starts with `temp-` and at most ten random letters, and ends in `-<basename>` for a named file or `.php` otherwise |
| Pipeline.IniOverridesFlags | src/PHPFmt.ts:275-282 | with a configuration file, the command does not depend on the stored flags at all |
| Pipeline.CommandCarriesFlags | src/PHPFmt.ts:271-276 | without one, the command is the binary, the quoted phar, every stored flag in order and the quoted temporary file |
| Pipeline.RunFile | src/PHPFmt.ts:250-300 | the temporary file exists iff it could be written, and it is the named file; a failed write raises "Cannot create tmp file in ..."; a failed lint after a good write, and only that, gives the skip error; a command runs iff the write and lint passed, and it is the formatter command for this phar, these flags, this file and this configuration; a failed command raises "Execute phpfmt failed"; success iff write, lint, command and read all passed, and it returns what was read back; the file is removed iff formatting succeeded |
| Pipeline.RunAfterProbe | src/PHPFmt.ts:224-250 | a file whose basename an ignore entry matches returns the empty text, reports that entry, and writes no temporary file and runs no command; a file is reported as ignored only then; an invalid ignore pattern rejects with a `SyntaxError` foreign error before any file is written; a file not ignored, or an untitled editor, goes on to the temporary file named after the basename (or `.php`), with the configuration file found for the workspace; every raised error carries the prefix |
| Pipeline.PharPath | src/PHPFmt.ts:114-116 | the phar is one of the two versions', and for distinct phars it is v1's iff `use_old_phpfmt` |
| Pipeline.FormatCommand | src/PHPFmt.ts:270-282 | without a configuration file, the binary then the quoted phar, the stored flags and the quoted file, space-separated; with one, the binary, then only the quoted phar, `--config=<ini>` and the quoted file |
| Pipeline.Format | src/PHPFmt.ts:128-301 | invalid passes fail before anything else, and an indentation conflict before PHP is probed; a version check that fails rejects with its message, with no temporary file, no command and no ignore test; a version check that passes hands on to the ignore list and the temporary file with the flags the indentation step produced; a temporary file or an ignore report needs a passed version check, and an ignore report is the ignore list's answer for the file; every error raised carries the `phpfmt: ` prefix |
| Pipeline.Psr2BeforeProbe | src/PHPFmt.ts:159-165 | a PSR-2 indentation conflict fails before PHP is probed and before any file is written |
| Pipeline.IgnoredFile | src/PHPFmt.ts:231-242 | once the settings, indentation and version pass, a named file whose basename the ignore list matches at `entry` is reported as ignored by `entry` and yields `''`, with no temporary file and no command |
| Pipeline.OnlyListedIgnored | src/PHPFmt.ts:231-242 | conversely, a file is reported as ignored only when every earlier step passed, the editor has a named file, and the ignore list's answer for its basename is that entry |
| Pipeline.BannerGatesFormat | src/PHPFmt.ts:188-222 | with the usual `PHP <version>` banner, a version outside the window fails with no temporary file and no command, and one inside it goes on to the ignore list and the temporary file |
| Pipeline.TempFileKeptOnFailure | src/PHPFmt.ts:252-298 | once the temporary file is written, it is removed exactly when formatting succeeded |
| Pipeline.FormattedIsReadBack | src/PHPFmt.ts:293-300 | a successful format returns the temporary file's content after a formatter command ran |
| Pipeline.DetectAccumulates | src/PHPFmt.ts:151-158 | with detection and no detectable indentation, each format appends one more bare indentation flag to the stored list |
| Pipeline.LoadForgets | src/PHPFmt.ts:40-47 | reloading the settings drops every flag earlier formats appended |
| Versions.FindVersion | src/PHPFmt.ts:197-201 | no version iff the output has no `PHP <digits or dots>` anywhere; otherwise the token is the whole run of digits and dots after the leftmost match |
| Versions.FindVersionAtStart | src/PHPFmt.ts:197-201 | output that opens with `PHP <version>` yields exactly that version |
| Versions.ParseVersion | src/PHPFmt.ts:203-214 | a token is a comparable version iff it has one to four numeric dot-separated parts |
| Versions.ParseRender | src/PHPFmt.ts:203-214 | a rendered version of one to four parts parses back to itself |
| Versions.Cmp | src/PHPFmt.ts:205-211 | the comparison is -1, 0 or 1, and 0 exactly when the versions agree component by component, missing components counting as zero |
| Versions.CmpSwap | src/PHPFmt.ts:205-211 | swapping the arguments of the comparison negates it |
| Versions.CmpTrans | src/PHPFmt.ts:205-211 | the version order is transitive |
| Versions.CmpZeroPadding | src/PHPFmt.ts:205-211 | missing components count as zero, so `5.6` equals `5.6.0` |
| Versions.InWindow | src/PHPFmt.ts:203-214 | anything below 5.6.0 is refused, and with `use_old_phpfmt` anything above 8.0.0 too; without it, acceptance is exactly "not below 5.6.0" |
| Versions.WindowModes | src/PHPFmt.ts:203-214 | every version the old-phpfmt mode accepts, the current mode accepts too |
| Versions.WindowUpward | src/PHPFmt.ts:210-213 | in the current mode, every version above an accepted one is accepted |
| Versions.WindowConvex | src/PHPFmt.ts:203-209 | in the `use_old_phpfmt` mode, every version between two accepted ones is accepted |
| Versions.ProbeVersion | src/PHPFmt.ts:188-222 | a failed call or a token compare-versions refuses gives "Error getting php version", a non-zero code and a banner without a version give their own errors, and a parsed version is accepted iff it lies in the window, otherwise giving the mode's message |
| Versions.ProbeBanner | src/PHPFmt.ts:188-222 | for a `PHP <version> ...` banner, the check accepts exactly the versions in the window and reports that version |
| Errors.Raise | src/PHPFmtError.ts:2-6 | an extension error's message is its text behind `phpfmt: ` |
| Errors.RaiseInjective | src/PHPFmtError.ts:3 | different texts give different errors |
| Catalog.ParseLine | src/Transformation.ts:43-51 | the key holds no space and is the whole line or the text before its first space; a line without spaces is a key with an empty description |
| Catalog.ParseListSimple | src/Transformation.ts:39-52 | one item per line of the trimmed output, in order |
| Catalog.BlankListing | src/Transformation.ts:39-42 | blank output yields exactly one item with an empty key and description |
| Catalog.DescriptionSingleSpaced | src/Transformation.ts:47-50 | a description never holds two spaces in a row |
| Catalog.ParseListingLine | src/Transformation.ts:43-51 | a printed `name word word...` line parses back to the name and the single-spaced words |
| Catalog.SpacedWords | src/Transformation.ts:47-49 | splitting a description whose words are separated by runs of spaces, with spaces trailing, and dropping the empty pieces leaves exactly its words |
| Catalog.ParseSpacedLine | src/Transformation.ts:43-51 | a line `name` followed by words each preceded by one or more spaces, and any trailing spaces, parses to the name and the words joined by single spaces |
| Catalog.CollapsedExample | src/Transformation.ts:43-51 | `k  a   b  ` parses to the name `k` and the description `a b` |
| Catalog.ParseListing | src/Transformation.ts:37-52 | parsing the listing of well-formed passes gives each pass back, in order |
| Catalog.GetTransformations | src/Transformation.ts:35-56 | the listing is empty iff the call failed; otherwise it is the parsed output |
| Catalog.IsExists | src/Transformation.ts:76-78 | a name exists iff it is one of the passes the formatter reports |
| Catalog.GetExample | src/Transformation.ts:58-70 | the example is the output verbatim, or `''` when the call failed |
| Catalog.BaseCmd | src/Transformation.ts:27-29 | the command starts with the PHP binary and `-d` and ends with the double-quoted phar path |
| Catalog.LegacyBaseCmd | src/Transformations.ts:13-15 | the older prefix is the binary, one space and the quoted phar, with nothing else |
| Catalog.BaseCmdsDiffer | src/Transformations.ts:13-15 | the older prefix is the binary and the quoted phar; the newer one inserts the `-d` setting between them |
| Catalog.LegacyGetTransformations | src/Transformations.ts:17-34 | the older class parses exactly as the newer one, but a failed call propagates instead of giving `[]` |
| Catalog.LegacyGetExample | src/Transformations.ts:36-42 | the older example is the trimmed output, with no white space at either end; a failed call propagates |
| Catalog.Memo | src/Transformation.ts:16-24 | a cached key returns its stored value and keeps the cache; a new key stores the computed value; no entry is lost |
| Catalog.MemoTransparent | src/Transformation.ts:31-33 | when the method is a function of the phar and the arguments, memoising changes no answer |
| Catalog.MemoSticks | src/Transformation.ts:16-18 | once a key is cached its answer never changes, so a listing that failed once stays empty |
| Widget.Icon | src/Widget.ts:4-11 | each codicon name is non-empty with no space and no closing parenthesis, so it fits inside `$(…)` |
| Widget.StatusOfIcon | src/Widget.ts:4-11 | a codicon name read back as a status shows that codicon |
| Widget.IconRoundTrip | src/Widget.ts:4-11 | every status has its own codicon |
| Widget.Colour | src/Widget.ts:45-62 | the warning colour exactly for Ignore and Warn, the error colour exactly for Error, the default for the rest |
| Widget.StatusText | src/Widget.ts:44 | the item's text opens with `$(`, then the status's codicon, then ends with `) phpfmt` |
| Widget.StatusTextInjective | src/Widget.ts:44 | the item's text tells which status it shows |
| Widget.Update | src/Widget.ts:43-64 | the status's text and colour, the item shown, the level and the channel untouched |
| Widget.Toggle | src/Widget.ts:31-41 | no editor changes nothing, a PHP editor shows Ready, any other language hides the item |
| Widget.Init | src/Widget.ts:15-29 | level INFO, an empty channel, and the item shown (as Ready) iff the active editor is PHP |
| Widget.SetOutputLevel | src/Widget.ts:70-72 | the level changes and nothing else does |
| Widget.LogLine | src/Widget.ts:74-77 | a channel line opens with the timestamp and ` [`, then the level's name, `] ` and the message |
| Widget.DataLines | src/Widget.ts:79-92 | data is logged as one line iff it is truthy, and that line is its `JSON.stringify` text |
| Widget.LogInfo | src/Widget.ts:85-94 | writes only under INFO: the timestamped line, then the data if truthy; nothing else changes |
| Widget.LogWarning | src/Widget.ts:96-105 | writes only under INFO and WARN; nothing else changes |
| Widget.ErrorLines | src/Widget.ts:112-123 | a string is written verbatim, an `Error` adds an ERROR line iff its message is non-empty, a falsy value adds nothing |
| Widget.LogError | src/Widget.ts:107-125 | writes unless the level is NONE; nothing else changes |
| Widget.ThresholdMonotone | src/Widget.ts:85-111 | the level is a threshold: what shows under a stricter level shows under every laxer one |
| Widget.WhatEachLevelShows | src/Widget.ts:85-111 | errors show under every level but NONE, warnings under INFO and WARN, information only under INFO |
| Widget.LoggingLeavesItem | src/Widget.ts:74-125 | logging never touches the status item or the level, and only appends to the channel |
| Provider.Items | src/PHPFmtProvider.ts:45-52 | one quick-pick item per listed pass, labelled by its key, in order |
| Provider.OtherLabels | src/PHPFmtProvider.ts:128 | the labels kept are exactly the labels other than "All" |
| Provider.ChooseAllIsListing | src/PHPFmtProvider.ts:117-128 | choosing "All" selects exactly the listed passes, in listing order |
| Provider.StatePrompt | src/PHPFmtProvider.ts:131-140 | Enable is marked current iff the state is on, Disable iff it is off |
| Provider.TargetOf | src/PHPFmtProvider.ts:79-91 | settings go to Global iff "Global" was picked, to Workspace otherwise, even when dismissed |
| Provider.Without | src/PHPFmtProvider.ts:145 | every occurrence of the name is removed and nothing else is |
| Provider.ToggleList | src/PHPFmtProvider.ts:115-151 | a dismissed pick writes nothing; "All" writes every listed pass; Enable appends an absent pass at the end; Disable removes a present one; otherwise the setting is written unchanged |
| Provider.EnableThenDisable | src/PHPFmtProvider.ts:141-146 | enabling an absent pass and then disabling it restores the setting |
| Provider.EnableIdempotent | src/PHPFmtProvider.ts:142-143 | a second Enable of the same pass writes what the first did |
| Provider.ToggleBoolean | src/PHPFmtProvider.ts:176-195 | a dismissed prompt writes nothing; otherwise the value written is true iff Enable was picked |
| Provider.ToggleIndent | src/PHPFmtProvider.ts:200-218 | `tabs` writes `false`, a digit choice writes that number |
| Provider.IndentChoiceUnderPsr2 | src/PHPFmtProvider.ts:204-215 | with PSR-2 on and no detection, every indentation choice but 4 makes the next format fail |
| Provider.Failed | src/PHPFmtProvider.ts:239-245 | a failure gives no edit and the Error status, and shows a message unless formatting was skipped |
| Provider.DocumentFormat | src/PHPFmtProvider.ts:225-247 | one edit iff the formatted text is non-empty and differs from the document; success sets the Success status |
| Provider.IgnoredShowsSuccess | src/PHPFmtProvider.ts:234-235 | a named file the ignore list matches, once the earlier steps pass, ends with the Success status and no edit |
| Provider.Unwrap | src/PHPFmtProvider.ts:271 | one leading `<?php` line, with either line ending, is stripped, and nothing else |
| Provider.UnwrapWrap | src/PHPFmtProvider.ts:264-272 | stripping the added tag line gives the fragment back |
| Provider.RangeInput | src/PHPFmtProvider.ts:263-267 | the tag line is added iff the fragment does not open with a PHP tag |
| Provider.RangeFormatAsWritten | src/PHPFmtProvider.ts:256-285 | a blank range gives no edit and no status change; otherwise a failure is the shared catch block, and a success sets the Success status and gives at most one edit, the unwrapped result, exactly when that result is non-empty and differs from the text handed to the formatter (with its added tag line) |
| Provider.RangeAgreesWhenTagged | src/PHPFmtProvider.ts:256-285 | for a blank range or one that opens with a PHP tag, the provider as written and the corrected one give the same response, so the two differ only where the tag line was added |
| Provider.RangeNoOpEditAsWritten | src/PHPFmtProvider.ts:269-276 | as written, a formatter that changes nothing still produces an edit for a fragment without a tag |
| Provider.RangeFormat | src/PHPFmtProvider.ts:256-285 | at most one edit, never empty and never equal to the selection, otherwise as the document provider |
| Provider.RangeUnchangedNoEdit | src/PHPFmtProvider.ts:269-276 | with the corrected comparison, a formatter that changes nothing yields no edit |
| Legacy.LegacyIndent | extension.js:43-48 | an indentation flag is always pushed: `=N` for a positive number N, the literal `=true` for `true`, and the bare flag for `false` or a non-positive number |
| Legacy.LegacyLoad | extension.js:22-70 | the flags are appended to the stored ones, and format-on-save is only ever switched on |
| Legacy.LegacyNew | extension.js:16-20 | a new object holds exactly one round of flags, and format-on-save iff the setting is on |
| Legacy.LegacyGetArgs | extension.js:72-76 | the stored flags with the unquoted file name appended |
| Legacy.LegacyOrdered | extension.js:31-69 | the old flags follow the fixed order, each at most once, with exactly one indentation flag |
| Legacy.IndentPresent | extension.js:43-48 | the indentation flag is always among the old flags |
| Legacy.LegacyReloadRepeats | extension.js:15-70 | a second `loadSettings` on the same object would repeat every flag; the extension never does this, since each request builds a fresh object |
| Legacy.LegacyMatchesCurrent | extension.js:22-70 | for a positive width, the old builder pushes the same flags as the current one |
| Legacy.LegacyDiffersOnFalse | extension.js:43-48 | for `indent_with_space: false`, the old builder asks for space indentation and the current one does not |
| Legacy.TooOld | extension.js:82 | `Number(...) < 70000`: never true for NaN, otherwise exactly below 70000 |
| Legacy.TooOldIds | extension.js:81-82 | a printed `PHP_VERSION_ID` is refused exactly when it is below 70000 |
| Legacy.ToNumber | extension.js:82 | blank output reads as 0 and only non-blank output can be NaN |
| Legacy.VersionIdReads | extension.js:81-82 | a printed `PHP_VERSION_ID`, with white space around it, is read back exactly |
| Legacy.LegacyTempName | extension.js:91-98 | the old temporary name is the current one for an untitled file, ending in `.php` |
| Legacy.LegacyFormat | extension.js:78-147 | a missing PHP or an old version rejects before any file is written; a failed write rejects with no message and no file; it resolves iff exit code 0 and a non-empty read, returning what was read; a failed read leaves the promise unsettled; the file is removed iff the formatter exited and the promise settled |
| Legacy.LegacyEdits | extension.js:173-196 | an edit iff formatting resolved with a different text; rejected and unsettled runs give none |
| Docs.DefaultCell | scripts/docs.ts:32-43 | the default renders unless it is of another kind, which raises `uncovered type` |
| Docs.TypeCell | scripts/docs.ts:25-29 | the type is backticked, and no type gives an empty cell |
| Docs.TypeInRow | scripts/generate.ts:19-24 | the second cell of a row is the type cell |
| Docs.Row | scripts/docs.ts:21-46 | a row fails iff its default is uncovered |
| Docs.RowShape | scripts/docs.ts:23-45 | a row opens with its key in the first cell and ends with the line ending |
| Docs.RowOpens | scripts/docs.ts:23 | a row opens with `| <key> | ` |
| Docs.RowEnds | scripts/docs.ts:45 | a row ends with the line ending |
| Docs.Rows | scripts/docs.ts:21-46 | the rows render iff every default is covered, one row per property, in order |
| Docs.RowsAppend | scripts/docs.ts:21-46 | the rows of two lists of properties are the rows of the first, then those of the second |
| Docs.Table | scripts/docs.ts:15-46 | the table is the header line and the rule line, then the rows; it renders iff every default is covered |
| Docs.RowIsOneLine | scripts/docs.ts:23-45 | a row of single-line fields is one line |
| Docs.RowsLines | scripts/docs.ts:21-46 | the rows hold exactly one line per property |
| Docs.FirstFrom | scripts/docs.ts:50 | what is found is an occurrence of the marker |
| Docs.FirstFromFirst | scripts/docs.ts:50 | no occurrence before the one found is skipped |
| Docs.LastFrom | scripts/docs.ts:50 | what is found is an occurrence of the marker |
| Docs.LastFromLast | scripts/docs.ts:50 | no occurrence after the one found is skipped |
| Docs.Locate | scripts/docs.ts:49-50 | the greedy match runs from a start marker to an end marker that begins after the start marker ends |
| Docs.LocateIs | scripts/docs.ts:49-50 | the match is exactly the first start marker and the last end marker, when those are in order |
| Docs.ReplaceBlock | scripts/docs.ts:48-60 | without a located span the content is unchanged; with one, the text before it is kept and the new block starts where the span started |
| Docs.ReplaceBlockFrame | scripts/docs.ts:48-60 | the matched span is replaced by the block, and everything outside it is kept |
| Docs.ReplaceBlockIdempotent | scripts/docs.ts:48-60 | replacing a marked block a second time changes nothing |
| Docs.LocateAgain | scripts/docs.ts:49-59 | after a replacement, the span found again is exactly the block written |
| Docs.MarkersUnbordered | scripts/docs.ts:50 | none of the four markers can overlap itself |
| Docs.UpdateReadme | scripts/docs.ts:48-88 | the README is rewritten iff every default is covered |
| Docs.TransformationsBody | scripts/docs.ts:66-88 | the block opens with the table's header and rule lines, and an empty listing leaves nothing after them |
| Docs.PassTableLines | scripts/docs.ts:66-88 | read line by line, the transformations block is its two header lines and then one row per listed pass, in order |
| Docs.Find | scripts/docs.ts:92 | the first listed item with the key, and none iff the key is not listed |
| Docs.Enums | scripts/docs.ts:91-97 | one enum per known pass, in order, described by the listing or as "Core pass" |
| Docs.SchemaEnums | scripts/docs.ts:99-108 | the enum values are the passes themselves, and their descriptions are the enums' descriptions |
| Docs.ReplaceFirst | scripts/generate.ts:42 | a template without the placeholder is returned unchanged |
| Docs.ExpandPlain | scripts/generate.ts:42 | a replacement without a dollar sign is inserted as it is |
| Docs.GenerateReadmeAsWritten | scripts/generate.ts:42 | the README is generated iff every default is covered |
| Docs.GenerateReadme | scripts/generate.ts:15-42 | the rows replace the first placeholder only, verbatim |
| Docs.GenerateAgrees | scripts/generate.ts:42 | as written and corrected agree whenever the rows hold no dollar sign |
| Docs.AsWrittenShape | scripts/generate.ts:42 | as written, a description `$&` becomes the placeholder again |
| Docs.VerbatimShape | scripts/generate.ts:42 | corrected, a description `$&` stays `$&` |
| Docs.DollarAmpersandAsWritten | scripts/generate.ts:42 | a description `$&` makes the as-written output differ from the verbatim one |

## Left out

- Processes and files are inputs, not modelled. This covers `php -v`, `php -l`, the formatter run, the `cp.spawn` events, and reading, writing and removing the temporary file, the README and `package.json`. Their success or failure enters as parameters. A failed removal of the temporary file is caught and logged by the source and is not modelled.
- Side effects of `format` that do not change its result are not recorded: the log lines (`src/PHPFmt.ts:237`, 255, 278, 284, 297), the Ignore status set for an ignored file (line 240, overwritten by the provider), the status-bar message at line 264, and the output channel shown at line 289. In `extension.js` the status-bar message after a failed lint (line 105) and the `console.log` calls on the spawned process (lines 115-123) are likewise not recorded. `src/utils.ts` is not part of this model.
- External libraries enter as parameters or inputs:
  - `detect-indent` (the detected indentation);
  - `find-up` (the `.php.tools.ini` found);
  - `phpfmt.parser.getPasses` (the known passes);
  - `Math.random` (its base-36 text);
  - `Date` (the log timestamp);
  - `JSON.stringify` for log data;
  - ignore-pattern regular expressions (a match predicate that is `None` for an invalid pattern).
- `os.EOL` is a parameter in the docs script. The catalog parser and the range wrapper use `\n`. Windows line endings are not modelled.
- Pipeline.Basename: POSIX path semantics only; Windows separators (`\`) and drive letters are not modelled, so a Windows path is treated as one segment.
- `path.normalize` and `path.dirname` are not modelled. The temporary file name is the name before normalisation.
- JavaScript numbers are integers here. A fractional `indent_with_space`, and `Number` on fractions, exponents or hexadecimal, are not modelled.
- Versions.ParseVersion: models `compare-versions` only for tokens of digits and dots. Pre-release and build suffixes cannot occur after the `[\d.]+` capture.
- Docs.DefaultCell: `JSON.stringify` of a default is modelled for booleans and for arrays of strings without characters that need escaping, not for arbitrary arrays.
- The `mem` cache is modelled as one map per method. Its expiry and the promise caching of `mem` are not modelled.
- The source imports `PHPFmtSkipError`, but `src/PHPFmtError.ts` declares `PHPFmtIgnoreError`. The model has one skip error that the providers treat as `PHPFmtSkipError`.
- The code removes the temporary file only when formatting succeeds. After a lint, command or read failure the file stays. The model follows the code, not the extension's documented promise that every path cleans up.
- An ignored file sets the Ignore status. The document provider immediately overwrites it with Success (`Provider.IgnoredShowsSuccess`). The model follows the code.
- The `code !== 0` branch after `php -v` is modelled. With the `exec` of `src/utils.ts` it may be unreachable, since that wrapper is not part of this model.
- Which phar `Transformation` is built on (`phpfmt.v1` or `v2`) is not modelled. `docs.ts` always uses `v2`, and the phar path is an input.
- Registration of commands and providers, the quick-pick UI itself, `config.update`, `src/extension.ts` and `src/subscriptions.ts` are editor plumbing and are not modelled. Their answers are inputs.
- Docs.UpdateReadme: states only when the rewrite succeeds. Idempotence is proved for each block replacement (`Docs.ReplaceBlockIdempotent`), not for the two replacements in sequence.
- Docs.ReplaceBlockIdempotent: requires markers whose first character does not recur in them (`Docs.MarkersUnbordered` shows the four markers qualify). It is not proved for arbitrary markers.
- FlagRoundTrip.LoadSettingsDecodes: requires pass and exclude names without commas. With a comma, the comma-joined list cannot be split back.
- Docs.PassTableLines: requires keys and descriptions without line feeds. A parsed listing never has any, since the listing is split on line feeds.
- Versions.FindVersion: the `i` flag of the banner regex is modelled as ASCII case-insensitivity of `PHP`.
- Idempotence of the formatter itself lives in the PHP binary and is out of reach.

## Findings

| source | as written | input that shows it | evidently intended | confidence | as-written member | corrected member |
|---|---|---|---|---|---|---|
| src/PHPFmtProvider.ts:269-276 | the range provider strips the added `<?php` line from the result but compares the result with the wrapped input | the selection `$a = 1;` with a formatter that changes nothing gives an edit rewriting the selection to itself | compare with the selected text, so an unchanged range gives no edit, as the document provider does | medium; not executed | Provider.RangeNoOpEditAsWritten | Provider.RangeFormat |
| scripts/generate.ts:42 | the rows are passed to `String.prototype.replace` as a replacement string, so `$&`, `$$`, `` $` `` and `$'` in a description are expanded | a property whose description is `$&` puts `%CONFIG%` back into the README where the description belongs | insert the rows verbatim, as `scripts/docs.ts` does with a replacer function | medium; not executed | Docs.DollarAmpersandAsWritten | Docs.GenerateReadme |

=== FILE: catalog.dfy ===
/**
 * The transformation catalog (src/Transformation.ts and the older
 * src/Transformations.ts): the `--list-simple` output of the formatter is
 * parsed into key/description items, the example of one pass is fetched, and
 * pass names are checked against the formatter's own list. Running the
 * formatter is an input here: its outcome is either the text it printed or a
 * failure.
 */
module Catalog {
  import opened Strings
  import opened Wrappers

  /** `os.EOL` on the platforms modelled here. */
  const EOL: char := '\n'

  datatype TransformationItem = TransformationItem(key: string, description: string)

  /** The outcome of one call of the formatter binary. */
  datatype ExecResult = ExecOk(stdout: string) | ExecFailed

  /** No two spaces in a row. */
  predicate SingleSpaced(s: string) {
    forall i :: 0 <= i < |s| - 1 ==> !(s[i] == ' ' && s[i + 1] == ' ')
  }

  /**
   * One line of the listing: the key is the text before the first space,
   * the description the remaining non-empty space-separated tokens joined by
   * single spaces and trimmed.
   */
  function ParseLine(line: string): (item: TransformationItem)
    ensures ' ' !in item.key
    ensures item.key == line || StartsWith(line, item.key + " ")
    ensures ' ' !in line ==> item == TransformationItem(line, "")
  {
    var tokens := Split(line, ' ');
    KeyOfLine(line);
    TransformationItem(tokens[0], Trim(Join(NonEmpty(tokens[1..]), " ")))
  }

  lemma KeyOfLine(line: string)
    ensures var key := Split(line, ' ')[0];
      key == line || StartsWith(line, key + " ")
    ensures ' ' !in line ==> Split(line, ' ') == [line]
  {
    var tokens := Split(line, ' ');
    assert " " == [' '];
    if |tokens| > 1 {
      assert line == tokens[0] + " " + Join(tokens[1..], " ");
      assert line[..|tokens[0] + " "|] == tokens[0] + " ";
    }
    if ' ' !in line {
      SplitNoSeparator(line, ' ');
    }
  }

  /**
   * The `--list-simple` parser: the output is trimmed and split on the line
   * separator, and every resulting line becomes one item, in order.
   */
  function ParseListSimple(stdout: string): (items: seq<TransformationItem>)
    ensures |items| == |Split(Trim(stdout), EOL)| >= 1
    ensures forall i :: 0 <= i < |items| ==> items[i] == ParseLine(Split(Trim(stdout), EOL)[i])
  {
    var lines := Split(Trim(stdout), EOL);
    seq(|lines|, i requires 0 <= i < |lines| => ParseLine(lines[i]))
  }

  /** Blank output still yields one item, with an empty key and description. */
  lemma BlankListing(stdout: string)
    requires IsBlank(stdout)
    ensures ParseListSimple(stdout) == [TransformationItem("", "")]
  {
    assert Trim(stdout) == "";
    assert Split("", EOL) == [""];
    assert Split("", ' ') == [""];
    assert NonEmpty([]) == [];
    TrimKeeps("");
  }

  // ---------------------------------------------------------------- descriptions are single-spaced

  lemma {:induction false} JoinSingleSpaced(parts: seq<string>)
    requires forall i :: 0 <= i < |parts| ==> parts[i] != "" && ' ' !in parts[i]
    ensures SingleSpaced(Join(parts, " "))
  {
    if |parts| > 1 {
      JoinSingleSpaced(parts[1..]);
      var rest := Join(parts[1..], " ");
      var s := parts[0] + " " + rest;
      assert Join(parts, " ") == s;
      assert |rest| > 0 && rest[0] == parts[1][0] by {
        JoinHead(parts[1..], " ");
      }
      forall i | 0 <= i < |s| - 1
        ensures !(s[i] == ' ' && s[i + 1] == ' ')
      {
        if i < |parts[0]| - 1 {
          assert s[i] == parts[0][i];
        } else if i == |parts[0]| - 1 {
          assert s[i] == parts[0][i];
        } else if i == |parts[0]| {
          assert s[i + 1] == rest[0];
        } else {
          assert s[i] == rest[i - |parts[0]| - 1] && s[i + 1] == rest[i - |parts[0]|];
        }
      }
    }
  }

  lemma InfixSingleSpaced(s: string, a: nat, b: nat)
    requires a <= b <= |s| && SingleSpaced(s)
    ensures SingleSpaced(s[a..b])
  {
    forall i | 0 <= i < b - a - 1
      ensures !(s[a..b][i] == ' ' && s[a..b][i + 1] == ' ')
    {
      assert s[a..b][i] == s[a + i] && s[a..b][i + 1] == s[a + i + 1];
    }
  }

  lemma TrimSingleSpaced(s: string)
    requires SingleSpaced(s)
    ensures SingleSpaced(Trim(s))
  {
    if !IsBlank(s) {
      InfixSingleSpaced(s, LeadingSpaces(s), |s| - TrailingSpaces(s));
    }
  }

  lemma WordsOfLine(line: string)
    ensures var words := NonEmpty(Split(line, ' ')[1..]);
      forall i :: 0 <= i < |words| ==> words[i] != "" && ' ' !in words[i]
  {
    var tokens := Split(line, ' ');
    var words := NonEmpty(tokens[1..]);
    forall i | 0 <= i < |words|
      ensures words[i] != "" && ' ' !in words[i]
    {
      var j :| 0 <= j < |tokens[1..]| && tokens[1..][j] == words[i];
      assert tokens[j + 1] == words[i];
    }
  }

  /** Runs of spaces between the words of a description collapse to one. */
  lemma DescriptionSingleSpaced(line: string)
    ensures SingleSpaced(ParseLine(line).description)
  {
    var words := NonEmpty(Split(line, ' ')[1..]);
    WordsOfLine(line);
    JoinSingleSpaced(words);
    TrimSingleSpaced(Join(words, " "));
  }

  // ---------------------------------------------------------------- rendering a listing back

  /** A non-empty run of characters none of which is white space. */
  predicate Word(w: string) {
    |w| > 0 && forall i :: 0 <= i < |w| ==> !IsSpace(w[i])
  }

  predicate Words(ws: seq<string>) {
    forall i :: 0 <= i < |ws| ==> Word(ws[i])
  }

  /** The line the formatter prints for a pass: its name, then its description words. */
  function ListingLine(key: string, words: seq<string>): string {
    if |words| == 0 then key else key + " " + Join(words, " ")
  }

  lemma WordsTrimmed(words: seq<string>)
    requires |words| > 0 && Words(words)
    ensures Trim(Join(words, " ")) == Join(words, " ")
  {
    JoinHead(words, " ");
    JoinLast(words, " ");
    assert Word(words[0]) && Word(words[|words| - 1]);
    TrimKeeps(Join(words, " "));
  }

  /** Parsing a printed line gives back the pass name and its single-spaced description. */
  lemma ParseListingLine(key: string, words: seq<string>)
    requires Word(key) && Words(words)
    ensures ParseLine(ListingLine(key, words)) == TransformationItem(key, Join(words, " "))
  {
    assert " " == [' '];
    assert ' ' !in key by {
      assert forall i :: 0 <= i < |key| ==> !IsSpace(key[i]);
    }
    if |words| == 0 {
      SplitNoSeparator(key, ' ');
      assert NonEmpty([]) == [];
      TrimKeeps("");
    } else {
      forall i | 0 <= i < |words|
        ensures ' ' !in words[i] && words[i] != ""
      {
        assert Word(words[i]);
      }
      SplitAfterPiece(key, Join(words, " "), ' ');
      SplitJoin(words, ' ');
      var tokens := Split(ListingLine(key, words), ' ');
      assert tokens == [key] + words;
      assert tokens[1..] == words;
      NonEmptyKeeps(words);
      WordsTrimmed(words);
    }
  }

  // ---------------------------------------------------------------- runs of spaces

  /** `n` spaces. */
  function Spaces(n: nat): (s: string)
    ensures |s| == n && forall i :: 0 <= i < n ==> s[i] == ' '
  {
    if n == 0 then "" else " " + Spaces(n - 1)
  }

  /**
   * A description as a line may carry it: each word preceded by a run of at
   * least one space (`gaps[i]` of them before `words[i]`), and `trail`
   * spaces at the end.
   */
  function Spaced(words: seq<string>, gaps: seq<nat>, trail: nat): (s: string)
    requires |gaps| == |words| && forall i :: 0 <= i < |gaps| ==> gaps[i] >= 1
    ensures s == "" || s[0] == ' '
  {
    if |words| == 0 then Spaces(trail)
    else Spaces(gaps[0]) + words[0] + Spaced(words[1..], gaps[1..], trail)
  }

  /** A leading space splits off an empty piece, which the filter drops. */
  lemma WordsAfterSpace(x: string)
    ensures NonEmpty(Split(" " + x, ' ')) == NonEmpty(Split(x, ' '))
  {
    assert (" " + x)[1..] == x;
    assert ([""] + Split(x, ' '))[1..] == Split(x, ' ');
  }

  lemma {:induction false} WordsAfterSpaces(g: nat, x: string)
    ensures NonEmpty(Split(Spaces(g) + x, ' ')) == NonEmpty(Split(x, ' '))
  {
    if g > 0 {
      assert Spaces(g) + x == " " + (Spaces(g - 1) + x);
      WordsAfterSpace(Spaces(g - 1) + x);
      WordsAfterSpaces(g - 1, x);
    } else {
      assert Spaces(g) + x == x;
    }
  }

  /** A word followed by nothing, or by a space, is one token. */
  lemma WordThenRest(w: string, rest: string)
    requires Word(w) && (rest == "" || rest[0] == ' ')
    ensures NonEmpty(Split(w + rest, ' ')) == [w] + NonEmpty(Split(rest, ' '))
  {
    assert ' ' !in w by {
      assert forall i :: 0 <= i < |w| ==> !IsSpace(w[i]);
    }
    if rest == "" {
      assert w + rest == w;
      SplitNoSeparator(w, ' ');
      assert NonEmpty([w]) == [w] + NonEmpty([]);
      assert NonEmpty([""]) == NonEmpty([]);
    } else {
      assert w + rest == w + [' '] + rest[1..];
      SplitAfterPiece(w, rest[1..], ' ');
      assert ([w] + Split(rest[1..], ' '))[1..] == Split(rest[1..], ' ');
      assert rest == " " + rest[1..];
      WordsAfterSpace(rest[1..]);
    }
  }

  /** Splitting a spaced description on ' ' and dropping the empty pieces leaves exactly its words. */
  lemma {:induction false} SpacedWords(words: seq<string>, gaps: seq<nat>, trail: nat)
    requires Words(words)
    requires |gaps| == |words| && forall i :: 0 <= i < |gaps| ==> gaps[i] >= 1
    ensures NonEmpty(Split(Spaced(words, gaps, trail), ' ')) == words
    decreases |words|
  {
    if |words| == 0 {
      WordsAfterSpaces(trail, "");
      assert Spaces(trail) + "" == Spaces(trail);
      assert NonEmpty([""]) == NonEmpty([]);
    } else {
      SpacedStep(words, gaps, trail);
      SpacedWords(words[1..], gaps[1..], trail);
      assert [words[0]] + words[1..] == words;
    }
  }

  /** The first word of a spaced description is its first token; the rest is a spaced description again. */
  lemma SpacedStep(words: seq<string>, gaps: seq<nat>, trail: nat)
    requires |words| > 0 && Words(words)
    requires |gaps| == |words| && forall i :: 0 <= i < |gaps| ==> gaps[i] >= 1
    ensures Words(words[1..]) && forall i :: 0 <= i < |gaps[1..]| ==> gaps[1..][i] >= 1
    ensures NonEmpty(Split(Spaced(words, gaps, trail), ' '))
      == [words[0]] + NonEmpty(Split(Spaced(words[1..], gaps[1..], trail), ' '))
  {
    var w, ws, gs := words[0], words[1..], gaps[1..];
    assert Word(w);
    assert Words(ws) by {
      forall i | 0 <= i < |ws| ensures Word(ws[i]) {
        assert ws[i] == words[i + 1];
      }
    }
    assert forall i :: 0 <= i < |gs| ==> gs[i] >= 1 by {
      forall i | 0 <= i < |gs| ensures gs[i] >= 1 {
        assert gs[i] == gaps[i + 1];
      }
    }
    var rest := Spaced(ws, gs, trail);
    assert Spaced(words, gaps, trail) == Spaces(gaps[0]) + (w + rest);
    WordsAfterSpaces(gaps[0], w + rest);
    WordThenRest(w, rest);
  }

  /**
   * A line whose description words are separated by runs of spaces, with
   * spaces trailing, parses to the name and the words joined by single
   * spaces: the empty pieces that the runs leave are dropped and the rest
   * is trimmed.
   */
  lemma ParseSpacedLine(key: string, words: seq<string>, gaps: seq<nat>, trail: nat)
    requires Word(key) && Words(words)
    requires |gaps| == |words| && forall i :: 0 <= i < |gaps| ==> gaps[i] >= 1
    ensures ParseLine(key + Spaced(words, gaps, trail)) == TransformationItem(key, Join(words, " "))
  {
    assert ' ' !in key by {
      assert forall i :: 0 <= i < |key| ==> !IsSpace(key[i]);
    }
    KeyThenRest(key, Spaced(words, gaps, trail));
    SpacedWords(words, gaps, trail);
    if |words| > 0 {
      WordsTrimmed(words);
    } else {
      TrimKeeps("");
    }
  }

  lemma NoWordsInEmpty()
    ensures NonEmpty(Split("", ' ')) == [] && NonEmpty([]) == []
  {
    assert Split("", ' ') == [""];
    assert [""][1..] == [];
  }

  /** A name followed by nothing, or by a space, is the first token, and the rest yields the other tokens. */
  lemma KeyThenRest(key: string, rest: string)
    requires ' ' !in key && (rest == "" || rest[0] == ' ')
    ensures Split(key + rest, ' ')[0] == key
    ensures NonEmpty(Split(key + rest, ' ')[1..]) == NonEmpty(Split(rest, ' '))
  {
    if rest == "" {
      assert key + rest == key;
      KeyAlone(key);
    } else {
      var x := rest[1..];
      assert rest == " " + x;
      assert key + rest == key + " " + x;
      KeyThenSpace(key, x);
    }
  }

  lemma KeyAlone(key: string)
    requires ' ' !in key
    ensures Split(key, ' ')[0] == key
    ensures NonEmpty(Split(key, ' ')[1..]) == NonEmpty(Split("", ' '))
  {
    SplitNoSeparator(key, ' ');
    assert [key][1..] == [];
    NoWordsInEmpty();
  }

  lemma KeyThenSpace(key: string, x: string)
    requires ' ' !in key
    ensures Split(key + " " + x, ' ')[0] == key
    ensures NonEmpty(Split(key + " " + x, ' ')[1..]) == NonEmpty(Split(" " + x, ' '))
  {
    assert key + " " + x == key + [' '] + x;
    SplitAfterPiece(key, x, ' ');
    WordsAfterSpace(x);
  }

  /** For instance, `k  a   b  ` parses to the name `k` and the description `a b`. */
  lemma CollapsedExample(line: string)
    requires line == "k  a   b  "
    ensures ParseLine(line) == TransformationItem("k", "a b")
  {
    SpacedExample(line);
    ExampleWords();
    ParseSpacedLine("k", ["a", "b"], [2, 3], 2);
  }

  lemma ExampleWords()
    ensures Word("k") && Words(["a", "b"]) && Join(["a", "b"], " ") == "a b"
  {
    assert Word("a") && Word("b");
    JoinCons("a", ["b"], " ");
  }

  lemma SpacedExample(line: string)
    requires line == "k  a   b  "
    ensures line == "k" + Spaced(["a", "b"], [2, 3], 2)
  {
    assert Spaces(1) == " ";
    assert Spaces(2) == "  ";
    assert Spaces(3) == "   ";
    assert ["b"][1..] == [] && [3][1..] == [];
    assert Spaced(["b"], [3], 2) == "   b  ";
    assert ["a", "b"][1..] == ["b"] && [2, 3][1..] == [3];
  }

  /** A pass as the formatter lists it: a one-word name and the words of its description. */
  datatype ListedPass = ListedPass(key: string, words: seq<string>)

  predicate WellListed(p: ListedPass) {
    Word(p.key) && Words(p.words)
  }

  /** The whole `--list-simple` output for the given passes, one line each. */
  function Listing(ps: seq<ListedPass>): string {
    Join(seq(|ps|, i requires 0 <= i < |ps| => ListingLine(ps[i].key, ps[i].words)), [EOL])
  }

  lemma {:induction false} JoinWordsNoEol(words: seq<string>)
    requires Words(words)
    ensures EOL !in Join(words, " ")
  {
    if |words| > 1 {
      JoinWordsNoEol(words[1..]);
      assert Word(words[0]);
      assert Join(words, " ") == words[0] + " " + Join(words[1..], " ");
    } else if |words| == 1 {
      assert Word(words[0]);
    }
  }

  lemma ListingLineShape(p: ListedPass)
    requires WellListed(p)
    ensures var line := ListingLine(p.key, p.words);
      EOL !in line && |line| > 0 && !IsSpace(line[0]) && !IsSpace(line[|line| - 1])
  {
    var line := ListingLine(p.key, p.words);
    JoinWordsNoEol(p.words);
    if |p.words| > 0 {
      JoinLast(p.words, " ");
      assert Word(p.words[|p.words| - 1]);
      assert line[|line| - 1] == Join(p.words, " ")[|Join(p.words, " ")| - 1];
    }
  }

  /**
   * Parsing the listing of well-formed passes gives one item per pass, in
   * order, each with the pass name and its description words single-spaced.
   */
  lemma ParseListing(ps: seq<ListedPass>)
    requires |ps| > 0
    requires forall i :: 0 <= i < |ps| ==> WellListed(ps[i])
    ensures |ParseListSimple(Listing(ps))| == |ps|
    ensures forall i :: 0 <= i < |ps| ==>
      ParseListSimple(Listing(ps))[i] == TransformationItem(ps[i].key, Join(ps[i].words, " "))
  {
    var lines := seq(|ps|, i requires 0 <= i < |ps| => ListingLine(ps[i].key, ps[i].words));
    forall i | 0 <= i < |ps|
      ensures EOL !in lines[i] && |lines[i]| > 0 && !IsSpace(lines[i][0]) && !IsSpace(lines[i][|lines[i]| - 1])
    {
      ListingLineShape(ps[i]);
    }
    JoinHead(lines, [EOL]);
    JoinLast(lines, [EOL]);
    TrimKeeps(Listing(ps));
    SplitJoin(lines, EOL);
    forall i | 0 <= i < |ps|
      ensures ParseListSimple(Listing(ps))[i] == TransformationItem(ps[i].key, Join(ps[i].words, " "))
    {
      ParseListingLine(ps[i].key, ps[i].words);
    }
  }

  // ---------------------------------------------------------------- the two catalog classes

  /** `Transformation.getTransformations`: the parsed listing, or the empty list when the call fails. */
  function GetTransformations(run: ExecResult): (items: seq<TransformationItem>)
    ensures items == [] <==> run.ExecFailed?
    ensures run.ExecOk? ==> items == ParseListSimple(run.stdout)
  {
    match run
    case ExecFailed => []
    case ExecOk(stdout) => ParseListSimple(stdout)
  }

  /** The pass names of a listing, in order. */
  function Keys(listing: seq<TransformationItem>): (keys: seq<string>)
    ensures |keys| == |listing|
    ensures forall i :: 0 <= i < |listing| ==> keys[i] == listing[i].key
  {
    seq(|listing|, i requires 0 <= i < |listing| => listing[i].key)
  }

  /** `Transformation.getExample`: the printed example verbatim, or `''` when the call fails. */
  function GetExample(run: ExecResult): (example: string)
    ensures run.ExecFailed? ==> example == ""
    ensures run.ExecOk? ==> example == run.stdout
  {
    match run
    case ExecFailed => ""
    case ExecOk(stdout) => stdout
  }

  /** `isExists`: the name is one of the passes the formatter reports. */
  function IsExists(passes: seq<string>, name: string): (found: bool)
    ensures found <==> exists i :: 0 <= i < |passes| && passes[i] == name
  {
    name in passes
  }

  /** The PHP `-d` setting that keeps deprecation notices out of the catalog output. */
  const QuietReporting := "error_reporting=E_ALL & ~E_DEPRECATED & ~E_USER_DEPRECATED"

  /** The command prefix of `Transformation`: PHP with deprecation notices silenced, then the quoted phar. */
  function BaseCmd(phpBin: string, pharPath: string): (cmd: string)
    ensures StartsWith(cmd, phpBin + " -d ")
    ensures |cmd| >= |Quote(pharPath)| && cmd[|cmd| - |Quote(pharPath)|..] == Quote(pharPath)
  {
    var prefix := phpBin + " -d " + Quote(QuietReporting) + " ";
    assert (prefix + Quote(pharPath))[|prefix|..] == Quote(pharPath);
    assert (prefix + Quote(pharPath))[..|phpBin + " -d "|] == phpBin + " -d ";
    prefix + Quote(pharPath)
  }

  /** The older `Transformations` class runs PHP on the quoted phar directly. */
  function LegacyBaseCmd(phpBin: string, pharPath: string): (cmd: string)
    ensures StartsWith(cmd, phpBin + " ")
    ensures |cmd| == |phpBin| + 1 + |Quote(pharPath)| && cmd[|cmd| - |Quote(pharPath)|..] == Quote(pharPath)
  {
    phpBin + " " + Quote(pharPath)
  }

  /**
   * The two prefixes differ only in the `-d` setting: the newer one is the
   * older one with `-d "<setting>"` inserted after the PHP binary.
   */
  lemma BaseCmdsDiffer(phpBin: string, pharPath: string)
    ensures LegacyBaseCmd(phpBin, pharPath)[..|phpBin|] == phpBin
    ensures BaseCmd(phpBin, pharPath)
      == phpBin + " -d " + Quote(QuietReporting) + LegacyBaseCmd(phpBin, pharPath)[|phpBin|..]
  {
    var legacy := LegacyBaseCmd(phpBin, pharPath);
    assert legacy == phpBin + (" " + Quote(pharPath));
    assert legacy[|phpBin|..] == " " + Quote(pharPath);
  }

  /**
   * `Transformations.getTransformations` parses exactly as the newer class
   * does, but a failing call is not caught: the error propagates.
   */
  function LegacyGetTransformations(run: ExecResult): (r: Result<seq<TransformationItem>, ExecResult>)
    ensures r.Failure? <==> run.ExecFailed?
    ensures r.Success? ==> r.value == GetTransformations(run) && |r.value| >= 1
  {
    match run
    case ExecFailed => Failure(run)
    case ExecOk(stdout) => Success(ParseListSimple(stdout))
  }

  /** `Transformations.getExample`: the printed example with surrounding white space trimmed; a failure propagates. */
  function LegacyGetExample(run: ExecResult): (r: Result<string, ExecResult>)
    ensures r.Failure? <==> run.ExecFailed?
    ensures r.Success? ==> r.value == Trim(GetExample(run))
    ensures r.Success? && |r.value| > 0 ==> !IsSpace(r.value[0]) && !IsSpace(r.value[|r.value| - 1])
  {
    match run
    case ExecFailed => Failure(run)
    case ExecOk(stdout) => Success(Trim(stdout))
  }

  // ---------------------------------------------------------------- memoisation

  /** The `mem` cache key: the phar path and the method's arguments. */
  datatype CacheKey = CacheKey(pharPath: string, args: seq<string>)

  /**
   * A `mem`-wrapped call: a cached key returns its stored value and leaves
   * the cache alone; a new key stores and returns the freshly computed value.
   */
  function Memo<V(==)>(cache: map<CacheKey, V>, key: CacheKey, computed: V): (r: (V, map<CacheKey, V>))
    ensures key in r.1 && r.1[key] == r.0
    ensures key in cache ==> r.0 == cache[key] && r.1 == cache
    ensures key !in cache ==> r.0 == computed && r.1.Keys == cache.Keys + {key}
    ensures forall k :: k in cache ==> k in r.1 && r.1[k] == cache[k]
  {
    if key in cache then (cache[key], cache) else (computed, cache[key := computed])
  }

  /** Every entry of the cache holds what `f` gives for its key. */
  predicate Agrees<V(==,!new)>(cache: map<CacheKey, V>, f: CacheKey -> V) {
    forall k :: k in cache ==> cache[k] == f(k)
  }

  /**
   * When the wrapped method is a function of (phar, arguments), memoising
   * changes no answer, and the cache keeps agreeing with the function.
   */
  lemma MemoTransparent<V(!new)>(cache: map<CacheKey, V>, f: CacheKey -> V, key: CacheKey)
    requires Agrees(cache, f)
    ensures Memo(cache, key, f(key)).0 == f(key)
    ensures Agrees(Memo(cache, key, f(key)).1, f)
  {
  }

  /**
   * Once a key is cached its answer never changes, whatever a later call
   * would compute: a listing that failed once stays the empty list.
   */
  lemma MemoSticks<V>(cache: map<CacheKey, V>, key: CacheKey, first: V, later: V)
    ensures var (v, c) := Memo(cache, key, first); Memo(c, key, later).0 == v
  {
  }
}

=== FILE: config.dfy ===
/**
 * The `phpfmt.*` settings the extension reads, as one immutable record.
 * `indent_with_space` is declared `number | boolean` in the settings schema.
 */
module Config {

  datatype IndentSetting =
    | IndentFlag(on: bool)   // `true` or `false`
    | IndentWidth(width: int) // a number (integers only)

  datatype PHPFmtConfig = PHPFmtConfig(
    phpBin: string,
    useOldPhpfmt: bool,
    detectIndent: bool,
    psr1: bool,
    psr1Naming: bool,
    psr2: bool,
    wp: bool,
    indentWithSpace: IndentSetting,
    enableAutoAlign: bool,
    visibilityOrder: bool,
    ignore: seq<string>,
    passes: seq<string>,
    exclude: seq<string>,
    smartLinebreakAfterCurly: bool,
    yoda: bool,
    cakephp: bool,
    customArguments: string)
}

=== FILE: decode.dfy ===
/**
 * Reading a flag list back into the settings it expresses. This is the
 * independent description `LoadSettings` is checked against: every boolean
 * flag is present iff its setting is true, the indentation flag follows the
 * indentation rules, and the pass and exclude lists come back unchanged.
 */
module FlagDecoding {
  import opened Strings
  import opened Wrappers
  import opened Config
  import opened Flags
  datatype IndentChoice = NoIndentFlag | BareIndent | IndentOf(width: nat)

  /** What a flag list asks the formatter to do. */
  datatype Switches = Switches(
    psr1: bool,
    psr1Naming: bool,
    psr2: bool,
    wp: bool,
    indent: IndentChoice,
    enableAutoAlign: bool,
    visibilityOrder: bool,
    passes: seq<string>,
    exclude: seq<string>,
    smartLinebreakAfterCurly: bool,
    yoda: bool,
    cakephp: bool,
    unknown: seq<string>)

  const NoSwitches := Switches(false, false, false, false, NoIndentFlag, false, false, [], [], false, false, false, [])

  /** The effect of one flag on the switches read so far. */
  function ReadKind(sw: Switches, k: FlagKind): Switches {
    match k
    case Psr1 => sw.(psr1 := true)
    case Psr1Naming => sw.(psr1Naming := true)
    case Psr2 => sw.(psr2 := true)
    case Wp => sw.(wp := true)
    case IndentBare => sw.(indent := BareIndent)
    case IndentWidthText(t) =>
      if IsDigits(t) then sw.(indent := IndentOf(ParseDigits(t)))
      else sw.(unknown := sw.unknown + [IndentWidthPrefix + t])
    case AutoAlign => sw.(enableAutoAlign := true)
    case VisibilityOrder => sw.(visibilityOrder := true)
    case PassesList(t) => sw.(passes := Split(t, ','))
    case ExcludeList(t) => sw.(exclude := Split(t, ','))
    case SmartLinebreak => sw.(smartLinebreakAfterCurly := true)
    case Yoda => sw.(yoda := true)
    case Cakephp => sw.(cakephp := true)
    case Other(t) => sw.(unknown := sw.unknown + [t])
  }

  /** Reads a whole flag list, left to right. */
  function DecodeFlags(args: seq<string>): Switches {
    if |args| == 0 then NoSwitches
    else ReadKind(DecodeFlags(args[..|args| - 1]), Kind(args[|args| - 1]))
  }

  /** Reads flags that are not yet text, continuing from `sw`. */
  function ReadKinds(sw: Switches, ks: seq<FlagKind>): Switches {
    if |ks| == 0 then sw
    else ReadKind(ReadKinds(sw, ks[..|ks| - 1]), ks[|ks| - 1])
  }

  function ReadSlot(sw: Switches, s: Push): Switches {
    if s.on then ReadKind(sw, s.kind) else sw
  }

  /** Reads the filled positions of `slots`, continuing from `sw`. */
  function ReadSlots(sw: Switches, slots: seq<Push>): Switches {
    if |slots| == 0 then sw
    else ReadSlot(ReadSlots(sw, slots[..|slots| - 1]), slots[|slots| - 1])
  }

  /** What the settings ask for: each switch as its setting says, indentation only when not detected. */
  function Requested(c: PHPFmtConfig): Switches {
    Switches(
      c.psr1, c.psr1Naming, c.psr2, c.wp,
      if c.detectIndent then NoIndentFlag
      else match c.indentWithSpace
        case IndentFlag(on) => if on then BareIndent else NoIndentFlag
        case IndentWidth(n) => if n > 0 then IndentOf(n) else NoIndentFlag,
      c.enableAutoAlign, c.visibilityOrder, c.passes, c.exclude,
      c.smartLinebreakAfterCurly, c.yoda, c.cakephp, [])
  }

  predicate NoComma(names: seq<string>) {
    forall i :: 0 <= i < |names| ==> ',' !in names[i]
  }

  /** The switches after reading the first `i` slots of `c`'s flags. */
  function Partial(c: PHPFmtConfig, i: nat): Switches {
    Switches(
      i > 0 && c.psr1, i > 1 && c.psr1Naming, i > 2 && c.psr2, i > 3 && c.wp,
      if i > 4 then Requested(c).indent else NoIndentFlag,
      i > 5 && c.enableAutoAlign, i > 6 && c.visibilityOrder,
      if i > 7 then c.passes else [],
      if i > 8 then c.exclude else [],
      i > 9 && c.smartLinebreakAfterCurly, i > 10 && c.yoda, i > 11 && c.cakephp, [])
  }
}

=== FILE: docs.dfy ===
/**
 * The documentation scripts (scripts/docs.ts and scripts/generate.ts): the
 * settings schema is rendered as a Markdown table, the README's marked
 * blocks are replaced with the table and the transformation list, and the
 * pass enums of the schema are rebuilt. Reading and writing the files is
 * left to the caller; the file contents are values here.
 */
module Docs {
  import opened Strings
  import opened Wrappers
  import opened Catalog

  // ---------------------------------------------------------------- the settings table

  /** The `type` of a schema property: absent, one name, or a list of names. */
  datatype SchemaType = NoType | TypeName(name: string) | TypeUnion(names: seq<string>)

  /** The `default` of a schema property; `Uncovered` is anything but a string, number, boolean or array. */
  datatype DefaultValue =
    | DString(s: string)
    | DNumber(n: int)
    | DBool(b: bool)
    | DArray(items: seq<string>)
    | Uncovered

  /** One schema property; a missing description renders as `undefined`. */
  datatype Property = Property(key: string, ty: SchemaType, description: Option<string>, default: DefaultValue)

  const TableHeader := "| Key | Type | Description | Default |"
  const TableRule := "| -------- | ----------- | ----------- | ----------- |"

  /** The type column: a name or a union in backticks, the union's names joined by an escaped bar; nothing without a type. */
  function TypeCell(t: SchemaType): (cell: string)
    ensures cell == "" <==> t.NoType?
    ensures !t.NoType? ==> |cell| >= 2 && cell[0] == '`' && cell[|cell| - 1] == '`'
    ensures t.TypeName? ==> cell[1..|cell| - 1] == t.name
  {
    match t
    case NoType => ""
    case TypeName(n) => "`" + n + "`"
    case TypeUnion(ns) => "`" + Join(ns, " \\| ") + "`"
  }

  /** `JSON.stringify` of a string without quotes, backslashes or control characters. */
  function JsonString(s: string): string {
    "\"" + s + "\""
  }

  /** The members of a JSON array of strings, separated by commas. */
  function JsonItems(items: seq<string>): string {
    if |items| == 0 then ""
    else if |items| == 1 then JsonString(items[0])
    else JsonString(items[0]) + "," + JsonItems(items[1..])
  }

  function JsonArray(items: seq<string>): string {
    "[" + JsonItems(items) + "]"
  }

  /** The default column of a renderable default: strings quoted, numbers as digits, arrays and booleans as JSON. */
  function CellText(d: DefaultValue): string {
    match d
    case DString(s) => "\"" + s + "\""
    case DNumber(n) => IntToString(n)
    case DBool(b) => if b then "true" else "false"
    case DArray(items) => JsonArray(items)
    case Uncovered => ""
  }

  /** The default column; any other kind of default is an error. */
  function DefaultCell(d: DefaultValue): (r: Result<string, string>)
    ensures r.Failure? <==> d.Uncovered?
    ensures r.Failure? ==> r.error == "uncovered type"
  {
    if d.Uncovered? then Failure("uncovered type") else Success(CellText(d))
  }

  function DescriptionText(d: Option<string>): string {
    match d
    case Some(s) => s
    case None => "undefined"
  }

  /** The text of a row in front of its description. */
  function RowFront(p: Property): string {
    "| " + p.key + " | " + TypeCell(p.ty) + " | "
  }

  /** The text of a row after its description. */
  function RowBack(cell: string, eol: string): string {
    " | " + cell + " | " + eol
  }

  function RowText(p: Property, eol: string): string {
    RowFront(p) + DescriptionText(p.description) + RowBack(CellText(p.default), eol)
  }

  /** One row of the table, ended by `eol`. */
  function Row(p: Property, eol: string): (r: Result<string, string>)
    ensures r.Failure? <==> p.default.Uncovered?
  {
    var cell :- DefaultCell(p.default);
    Success(RowFront(p) + DescriptionText(p.description) + RowBack(cell, eol))
  }

  /** A row opens with its key in the first cell and ends with `eol`. */
  lemma RowShape(p: Property, eol: string)
    requires !p.default.Uncovered?
    ensures StartsWith(Row(p, eol).value, "| " + p.key + " | ")
    ensures |Row(p, eol).value| >= |eol| && Row(p, eol).value[|Row(p, eol).value| - |eol|..] == eol
  {
    RowOpens(p, eol);
    RowEnds(p, eol);
  }

  lemma RowOpens(p: Property, eol: string)
    requires !p.default.Uncovered?
    ensures StartsWith(Row(p, eol).value, "| " + p.key + " | ")
  {
    var front := "| " + p.key + " | ";
    var row := Row(p, eol).value;
    var rest := TypeCell(p.ty) + " | " + DescriptionText(p.description) + RowBack(DefaultCell(p.default).value, eol);
    assert row == front + rest;
    assert row[..|front|] == front;
  }

  lemma RowEnds(p: Property, eol: string)
    requires !p.default.Uncovered?
    ensures |Row(p, eol).value| >= |eol| && Row(p, eol).value[|Row(p, eol).value| - |eol|..] == eol
  {
    var row := Row(p, eol).value;
    var most := RowFront(p) + DescriptionText(p.description) + " | " + DefaultCell(p.default).value + " | ";
    assert row == most + eol;
    assert row[|most|..] == eol;
  }

  /** The second cell of a row is the type column. */
  lemma TypeInRow(p: Property, eol: string)
    requires !p.default.Uncovered?
    ensures var at := |"| " + p.key + " | "|;
      var row := Row(p, eol).value;
      |row| >= at + |TypeCell(p.ty) + " | "| && row[at..at + |TypeCell(p.ty) + " | "|] == TypeCell(p.ty) + " | "
  {
    var front := "| " + p.key + " | ";
    var cell := TypeCell(p.ty) + " | ";
    var row := Row(p, eol).value;
    var rest := DescriptionText(p.description) + RowBack(DefaultCell(p.default).value, eol);
    assert row == front + cell + rest;
    assert row[|front|..|front| + |cell|] == cell;
  }

  /** A union of one type renders as that type alone. */
  lemma SingleUnion(n: string)
    ensures TypeCell(TypeUnion([n])) == TypeCell(TypeName(n))
  {
  }

  /** Every default is one the table can render. */
  predicate Covered(ps: seq<Property>) {
    forall i :: 0 <= i < |ps| ==> !ps[i].default.Uncovered?
  }

  /** The parts one after the other. */
  function Concat(parts: seq<string>): string {
    if |parts| == 0 then "" else parts[0] + Concat(parts[1..])
  }

  lemma {:induction false} ConcatAppend(a: seq<string>, b: seq<string>)
    ensures Concat(a + b) == Concat(a) + Concat(b)
  {
    if |a| == 0 {
      assert a + b == b;
    } else {
      assert (a + b)[0] == a[0] && (a + b)[1..] == a[1..] + b;
      ConcatAppend(a[1..], b);
      assert a[0] + (Concat(a[1..]) + Concat(b)) == (a[0] + Concat(a[1..])) + Concat(b);
    }
  }

  function RowFn(eol: string): Property -> string {
    p => RowText(p, eol)
  }

  /** `f` of each property, in order. */
  function Texts(ps: seq<Property>, f: Property -> string): (r: seq<string>)
    ensures |r| == |ps|
    ensures forall i :: 0 <= i < |ps| ==> r[i] == f(ps[i])
  {
    seq(|ps|, i requires 0 <= i < |ps| => f(ps[i]))
  }

  lemma TextsAppend(a: seq<Property>, b: seq<Property>, f: Property -> string)
    ensures Texts(a + b, f) == Texts(a, f) + Texts(b, f)
  {
    var x, y := Texts(a, f), Texts(b, f);
    forall i | 0 <= i < |a + b|
      ensures Texts(a + b, f)[i] == (x + y)[i]
    {
      if i < |a| { assert (a + b)[i] == a[i]; } else { assert (a + b)[i] == b[i - |a|]; }
    }
  }

  /** The rows of all properties; an uncovered default anywhere aborts the whole table. */
  function Rows(ps: seq<Property>, eol: string): (r: Result<string, string>)
    ensures r.Success? <==> Covered(ps)
    ensures r.Failure? ==> r.error == "uncovered type"
    ensures r.Success? ==> r.value == Concat(Texts(ps, RowFn(eol)))
    ensures r.Success? ==> forall i :: 0 <= i < |ps| ==> Row(ps[i], eol) == Success(Texts(ps, RowFn(eol))[i])
  {
    if Covered(ps) then Success(Concat(Texts(ps, RowFn(eol)))) else Failure("uncovered type")
  }

  lemma CoveredAppend(a: seq<Property>, b: seq<Property>)
    requires Covered(a) && Covered(b)
    ensures Covered(a + b)
  {
    forall i | 0 <= i < |a + b|
      ensures !(a + b)[i].default.Uncovered?
    {
      if i < |a| { assert (a + b)[i] == a[i]; } else { assert (a + b)[i] == b[i - |a|]; }
    }
  }

  /** Rendering a concatenation renders the parts one after the other. */
  lemma RowsAppend(a: seq<Property>, b: seq<Property>, eol: string)
    requires Rows(a, eol).Success? && Rows(b, eol).Success?
    ensures Rows(a + b, eol) == Success(Rows(a, eol).value + Rows(b, eol).value)
  {
    CoveredAppend(a, b);
    TextsAppend(a, b, RowFn(eol));
    ConcatAppend(Texts(a, RowFn(eol)), Texts(b, RowFn(eol)));
  }

  /** `docs.ts`: the header, the rule, then one row per property. */
  function Table(ps: seq<Property>, eol: string): (r: Result<string, string>)
    ensures r.Success? <==> Covered(ps)
    ensures r.Success? ==> r.value == TableHeader + eol + TableRule + eol + Rows(ps, eol).value
  {
    var rows :- Rows(ps, eol);
    Success(TableHeader + eol + TableRule + eol + rows)
  }

  // ---------------------------------------------------------------- counting lines

  function Count(s: string, c: char): nat {
    if |s| == 0 then 0 else (if s[0] == c then 1 else 0) + Count(s[1..], c)
  }

  lemma {:induction false} CountAppend(a: string, b: string, c: char)
    ensures Count(a + b, c) == Count(a, c) + Count(b, c)
  {
    if |a| == 0 {
      assert a + b == b;
    } else {
      assert (a + b)[1..] == a[1..] + b;
      CountAppend(a[1..], b, c);
    }
  }

  /** No field of the property holds a line feed. */
  predicate SingleLine(p: Property) {
    && '\n' !in p.key
    && '\n' !in TypeCell(p.ty)
    && '\n' !in DescriptionText(p.description)
    && (DefaultCell(p.default).Success? ==> '\n' !in DefaultCell(p.default).value)
  }

  lemma NoLineFeedCount(s: string)
    requires '\n' !in s
    ensures Count(s, '\n') == 0
  {
    if |s| > 0 {
      NoLineFeedCount(s[1..]);
    }
  }

  lemma RowIsOneLine(p: Property)
    requires SingleLine(p) && Row(p, "\n").Success?
    ensures Count(Row(p, "\n").value, '\n') == 1
  {
    var front := "| " + p.key + " | ";
    var cell := DefaultCell(p.default).value;
    var body := front + TypeCell(p.ty) + " | " + DescriptionText(p.description) + " | " + cell + " | ";
    assert Row(p, "\n").value == body + "\n";
    assert '\n' !in body;
    NoLineFeedCount(body);
    CountAppend(body, "\n", '\n');
  }

  lemma {:induction false} ConcatLines(parts: seq<string>)
    requires forall i :: 0 <= i < |parts| ==> Count(parts[i], '\n') == 1
    ensures Count(Concat(parts), '\n') == |parts|
  {
    if |parts| > 0 {
      ConcatLines(parts[1..]);
      CountAppend(parts[0], Concat(parts[1..]), '\n');
    }
  }

  /** With single-line fields, the rows hold exactly one line per property. */
  lemma RowsLines(ps: seq<Property>)
    requires forall i :: 0 <= i < |ps| ==> SingleLine(ps[i])
    requires Rows(ps, "\n").Success?
    ensures Count(Rows(ps, "\n").value, '\n') == |ps|
  {
    var texts := Texts(ps, RowFn("\n"));
    forall i | 0 <= i < |ps|
      ensures Count(texts[i], '\n') == 1
    {
      RowIsOneLine(ps[i]);
    }
    ConcatLines(texts);
  }

  // ---------------------------------------------------------------- the marked README blocks

  predicate OccursAt(s: string, i: nat, m: string) {
    i + |m| <= |s| && s[i..i + |m|] == m
  }

  /** The first position at or after `from` where `m` occurs. */
  function FirstFrom(s: string, m: string, from: nat): (r: Option<nat>)
    requires from <= |s|
    ensures r.Some? ==> from <= r.value && OccursAt(s, r.value, m)
    decreases |s| - from
  {
    if OccursAt(s, from, m) then Some(from)
    else if from == |s| then None
    else FirstFrom(s, m, from + 1)
  }

  /** No occurrence is skipped: none lies between `from` and the one found. */
  lemma {:induction false} FirstFromFirst(s: string, m: string, from: nat, k: nat)
    requires from <= k <= |s|
    ensures OccursAt(s, k, m) ==> FirstFrom(s, m, from).Some? && FirstFrom(s, m, from).value <= k
    decreases |s| - from
  {
    if OccursAt(s, k, m) && !OccursAt(s, from, m) {
      FirstFromFirst(s, m, from + 1, k);
    }
  }

  /** The last position at or after `from` where `m` occurs. */
  function LastFrom(s: string, m: string, from: nat): (r: Option<nat>)
    requires from <= |s|
    ensures r.Some? ==> from <= r.value && OccursAt(s, r.value, m)
    decreases |s| - from
  {
    if from == |s| then (if OccursAt(s, from, m) then Some(from) else None)
    else
      var later := LastFrom(s, m, from + 1);
      if later.Some? then later
      else if OccursAt(s, from, m) then Some(from)
      else None
  }

  /** No occurrence is skipped: none lies after the one found. */
  lemma {:induction false} LastFromLast(s: string, m: string, from: nat, k: nat)
    requires from <= k <= |s|
    ensures OccursAt(s, k, m) ==> LastFrom(s, m, from).Some? && k <= LastFrom(s, m, from).value
    decreases |s| - from
  {
    if OccursAt(s, k, m) && from < k {
      LastFromLast(s, m, from + 1, k);
    }
  }

  lemma Pieces(p: string, m: string, q: string)
    ensures (p + m + q)[..|p|] == p
    ensures (p + m + q)[|p|..|p| + |m|] == m
    ensures (p + m + q)[|p| + |m|..] == q
  {
  }

  /** `s` with `s[i..k]` replaced by `block`. */
  function Splice(s: string, i: nat, k: nat, block: string): (r: string)
    requires i <= k <= |s|
    ensures |r| == |s| - (k - i) + |block|
    ensures r[..i] == s[..i]
    ensures r[i..i + |block|] == block
    ensures r[i + |block|..] == s[k..]
  {
    Pieces(s[..i], block, s[k..]);
    s[..i] + block + s[k..]
  }

  /** Where the greedy pattern matches: the first start marker at `lo`, the last end marker at `endAt`. */
  datatype Span = Span(lo: nat, endAt: nat)

  /**
   * The span `/START([\s\S]*)END/` matches: from the first start marker to
   * the end of the LAST end marker, which must begin after that start marker
   * ends; `None` when there is no such pair.
   */
  function Locate(content: string, start: string, end: string): (r: Option<Span>)
    ensures r.Some? ==> r.value.lo + |start| <= r.value.endAt && r.value.endAt + |end| <= |content|
    ensures r.Some? ==> OccursAt(content, r.value.lo, start) && OccursAt(content, r.value.endAt, end)
  {
    var f := FirstFrom(content, start, 0);
    var g := LastFrom(content, end, 0);
    if f.Some? && g.Some? && f.value + |start| <= g.value then Some(Span(f.value, g.value))
    else None
  }

  /** The span is exactly the first start marker and the last end marker, when they are in order. */
  lemma LocateIs(content: string, start: string, end: string, i: nat, j: nat)
    ensures Locate(content, start, end) == Some(Span(i, j)) <==>
      (FirstFrom(content, start, 0) == Some(i) && LastFrom(content, end, 0) == Some(j) && i + |start| <= j)
  {
    if Locate(content, start, end) == Some(Span(i, j)) {
      LocateMarkers(content, start, end, i, j);
    }
  }

  lemma LocateMarkers(content: string, start: string, end: string, i: nat, j: nat)
    requires Locate(content, start, end) == Some(Span(i, j))
    ensures FirstFrom(content, start, 0) == Some(i) && LastFrom(content, end, 0) == Some(j)
  {
  }

  /**
   * `content.replace(/START([\s\S]*)END/, () => START + eol + body + eol + END)`:
   * the located span is replaced by the block, and without one the content
   * is unchanged.
   */
  function ReplaceBlock(content: string, start: string, end: string, body: string, eol: string): (r: string)
    ensures Locate(content, start, end).None? ==> r == content
    ensures Locate(content, start, end).Some? ==>
      var span := Locate(content, start, end).value;
      span.lo <= |r| && r[..span.lo] == content[..span.lo] && StartsWith(r[span.lo..], start + eol + body + eol + end)
  {
    match Locate(content, start, end)
    case None => content
    case Some(span) => Splice(content, span.lo, span.endAt + |end|, start + eol + body + eol + end)
  }

  /** The block written replaces the located span, and nothing outside it changes. */
  lemma ReplaceBlockFrame(content: string, start: string, end: string, body: string, eol: string)
    ensures var r := ReplaceBlock(content, start, end, body, eol);
      var block := start + eol + body + eol + end;
      match Locate(content, start, end)
      case None => r == content
      case Some(span) =>
        && |r| == |content| - (span.endAt + |end| - span.lo) + |block|
        && r[..span.lo] == content[..span.lo]
        && r[span.lo..span.lo + |block|] == block
        && r[span.lo + |block|..] == content[span.endAt + |end|..]
  {
  }

  /**
   * A marker no proper suffix of which is also its prefix: its first
   * character appears nowhere else in it, so two of its occurrences
   * never overlap. The HTML-comment markers below have this shape.
   */
  predicate Unbordered(m: string) {
    |m| > 0 && forall k :: 0 < k < |m| ==> m[k] != m[0]
  }

  lemma NoOverlap(s: string, m: string, a: nat, b: nat)
    requires Unbordered(m) && a < b < a + |m|
    ensures !(OccursAt(s, a, m) && OccursAt(s, b, m))
  {
    if a + |m| <= |s| && b + |m| <= |s| {
      assert s[b] == s[a..a + |m|][b - a];
      assert s[b] == s[b..b + |m|][0];
    }
  }

  lemma FirstFromIs(s: string, m: string, from: nat, i: nat)
    requires from <= i <= |s| && OccursAt(s, i, m)
    requires forall k :: from <= k < i ==> !OccursAt(s, k, m)
    ensures FirstFrom(s, m, from) == Some(i)
  {
    FirstFromFirst(s, m, from, i);
  }

  lemma LastFromIs(s: string, m: string, from: nat, e: nat)
    requires from <= e <= |s| && OccursAt(s, e, m)
    requires forall k :: e < k <= |s| ==> !OccursAt(s, k, m)
    ensures LastFrom(s, m, from) == Some(e)
  {
    LastFromLast(s, m, from, e);
  }

  lemma SpliceSame(s: string, i: nat, block: string)
    requires i + |block| <= |s| && s[i..i + |block|] == block
    ensures Splice(s, i, i + |block|, block) == s
  {
    assert s == s[..i] + s[i..i + |block|] + s[i + |block|..];
  }

  /** Occurrences wholly inside a common prefix are the same in both strings. */
  lemma SamePrefix(s: string, t: string, i: nat, q: nat, m: string)
    requires i <= |s| && i <= |t| && s[..i] == t[..i] && q + |m| <= i
    ensures OccursAt(s, q, m) <==> OccursAt(t, q, m)
  {
    assert s[q..q + |m|] == s[..i][q..q + |m|];
    assert t[q..q + |m|] == t[..i][q..q + |m|];
  }

  /** `r` is `content` with `content[lo..hi]` replaced by `block`. */
  predicate Framed(content: string, r: string, lo: nat, hi: nat, block: string) {
    && lo <= hi <= |content|
    && |r| == |content| - (hi - lo) + |block|
    && r[..lo] == content[..lo]
    && r[lo..lo + |block|] == block
    && r[lo + |block|..] == content[hi..]
  }

  /** After a splice that starts with the marker, the first marker is the spliced one. */
  lemma StartFoundAgain(content: string, r: string, start: string, i: nat, k: nat, block: string)
    requires Unbordered(start) && Framed(content, r, i, k, block)
    requires FirstFrom(content, start, 0) == Some(i)
    requires |start| <= |block| && block[..|start|] == start
    ensures FirstFrom(r, start, 0) == Some(i)
  {
    assert r[i..i + |start|] == r[i..i + |block|][..|start|];
    assert OccursAt(r, i, start);
    forall q | 0 <= q < i
      ensures !OccursAt(r, q, start)
    {
      if q + |start| <= i {
        FirstFromFirst(content, start, 0, q);
        SamePrefix(content, r, i, q, start);
      } else {
        NoOverlap(r, start, q, i);
      }
    }
    FirstFromIs(r, start, 0, i);
  }

  /** After a splice that ends with the marker, the last marker is the spliced one. */
  lemma EndFoundAgain(content: string, r: string, end: string, i: nat, j: nat, block: string)
    requires Unbordered(end) && Framed(content, r, i, j + |end|, block)
    requires LastFrom(content, end, 0) == Some(j)
    requires |end| <= |block| && block[|block| - |end|..] == end
    ensures LastFrom(r, end, 0) == Some(i + |block| - |end|)
  {
    var e := i + |block| - |end|;
    assert r[e..e + |end|] == r[i..i + |block|][|block| - |end|..];
    forall q | e < q <= |r|
      ensures !OccursAt(r, q, end)
    {
      if q < e + |end| {
        NoOverlap(r, end, e, q);
      } else {
        SameSuffix(content, r, i + |block|, j + |end|, q, end);
        LastFromLast(content, end, 0, q - (i + |block|) + j + |end|);
      }
    }
    LastFromIs(r, end, 0, e);
  }

  /** Occurrences wholly inside a common suffix are the same in both strings. */
  lemma SameSuffix(s: string, t: string, a: nat, b: nat, q: nat, m: string)
    requires a <= |t| && b <= |s| && t[a..] == s[b..] && a <= q
    ensures OccursAt(t, q, m) <==> OccursAt(s, q - a + b, m)
  {
    var d := q - a;
    if q + |m| <= |t| {
      SliceShift(t, a, d, |m|);
      SliceShift(s, b, d, |m|);
    }
  }

  lemma SliceShift(s: string, a: nat, d: nat, n: nat)
    requires a + d + n <= |s|
    ensures s[a..][d..d + n] == s[a + d..a + d + n]
  {
  }

  /**
   * Regenerating the documentation twice changes nothing the first run did
   * not: the block written holds both markers, and it is found again as
   * the first start marker and the last end marker.
   */
  lemma ReplaceBlockIdempotent(content: string, start: string, end: string, body: string, eol: string)
    requires Unbordered(start) && Unbordered(end)
    ensures var r := ReplaceBlock(content, start, end, body, eol);
      ReplaceBlock(r, start, end, body, eol) == r
  {
    match Locate(content, start, end)
    case None =>
    case Some(span) =>
      ReplaceFramed(content, start, end, body, eol, span);
      SecondPass(content, ReplaceBlock(content, start, end, body, eol), start, end, body, eol, span);
  }

  lemma ReplaceFramed(content: string, start: string, end: string, body: string, eol: string, span: Span)
    requires Locate(content, start, end) == Some(span)
    ensures Framed(content, ReplaceBlock(content, start, end, body, eol), span.lo, span.endAt + |end|, start + eol + body + eol + end)
  {
  }

  /** Content with the located span replaced by the block, run through the replacement again, is unchanged. */
  lemma SecondPass(content: string, r: string, start: string, end: string, body: string, eol: string, span: Span)
    requires Unbordered(start) && Unbordered(end)
    requires Locate(content, start, end) == Some(span)
    requires Framed(content, r, span.lo, span.endAt + |end|, start + eol + body + eol + end)
    ensures ReplaceBlock(r, start, end, body, eol) == r
  {
    var block := start + eol + body + eol + end;
    var i := span.lo;
    BlockEnds(start, eol, body, end);
    LocateAgain(content, r, start, end, block, span);
    ReplaceAgain(r, start, end, body, eol, i);
  }

  /** The span located again is the block written. */
  lemma LocateAgain(content: string, r: string, start: string, end: string, block: string, span: Span)
    requires Unbordered(start) && Unbordered(end)
    requires |start| + |end| <= |block| && block[..|start|] == start && block[|block| - |end|..] == end
    requires Locate(content, start, end) == Some(span)
    requires Framed(content, r, span.lo, span.endAt + |end|, block)
    ensures Locate(r, start, end) == Some(Span(span.lo, span.lo + |block| - |end|))
  {
    var i := span.lo;
    var j := span.endAt;
    LocateIs(content, start, end, i, j);
    StartFoundAgain(content, r, start, i, j + |end|, block);
    EndFoundAgain(content, r, end, i, j, block);
    LocateIs(r, start, end, i, i + |block| - |end|);
  }

  /** Content whose located span is already the block written is left as it is. */
  lemma ReplaceAgain(r: string, start: string, end: string, body: string, eol: string, i: nat)
    requires Locate(r, start, end) == Some(Span(i, i + |start + eol + body + eol + end| - |end|))
    requires r[i..i + |start + eol + body + eol + end|] == start + eol + body + eol + end
    ensures ReplaceBlock(r, start, end, body, eol) == r
  {
    SpliceSame(r, i, start + eol + body + eol + end);
  }

  lemma BlockEnds(start: string, eol: string, body: string, end: string)
    ensures (start + eol + body + eol + end)[..|start|] == start
    ensures (start + eol + body + eol + end)[|start + eol + body + eol + end| - |end|..] == end
  {
  }

  const ConfigStart := "<!-- Configuration START -->"
  const ConfigEnd := "<!-- Configuration END -->"
  const PassesStart := "<!-- Transformations START -->"
  const PassesEnd := "<!-- Transformations END -->"

  /** The four markers never overlap themselves, so each block replacement is idempotent. */
  lemma MarkersUnbordered()
    ensures Unbordered(ConfigStart) && Unbordered(ConfigEnd)
    ensures Unbordered(PassesStart) && Unbordered(PassesEnd)
  {
  }

  const PassHeader := "| Key | Description |"
  const PassRule := "| -------- | ----------- |"

  /** One row of the transformations table. */
  function PassRow(item: TransformationItem): string {
    "| " + item.key + " | " + item.description + " |"
  }

  function PassRows(items: seq<TransformationItem>): (rows: seq<string>)
    ensures |rows| == |items|
    ensures forall i :: 0 <= i < |items| ==> rows[i] == PassRow(items[i])
  {
    seq(|items|, i requires 0 <= i < |items| => PassRow(items[i]))
  }

  /** The transformations block: a two-column table, one row per listed pass, joined by `eol`. */
  function TransformationsBody(items: seq<TransformationItem>, eol: string): (body: string)
    ensures StartsWith(body, PassHeader + eol + PassRule + eol)
    ensures |items| == 0 ==> body == PassHeader + eol + PassRule + eol
  {
    PassHeader + eol + PassRule + eol + Join(PassRows(items), eol)
  }

  /** The lines of the transformations block; an empty listing leaves one empty line. */
  function PassLines(items: seq<TransformationItem>): seq<string> {
    [PassHeader, PassRule] + (if |items| == 0 then [""] else PassRows(items))
  }

  /** No field of the item holds a line feed. */
  predicate OneLineItem(item: TransformationItem) {
    '\n' !in item.key && '\n' !in item.description
  }

  /**
   * Read back line by line, the transformations block is its two header
   * lines and then one row per listed pass, in order, provided no key or
   * description holds a line feed.
   */
  lemma PassTableLines(items: seq<TransformationItem>)
    requires forall i :: 0 <= i < |items| ==> OneLineItem(items[i])
    ensures Split(TransformationsBody(items, "\n"), '\n') == PassLines(items)
  {
    PassBodyJoins(items);
    PassLinesOneLine(items);
    SplitJoin(PassLines(items), '\n');
  }

  lemma PassBodyJoins(items: seq<TransformationItem>)
    ensures TransformationsBody(items, "\n") == Join(PassLines(items), ['\n'])
  {
    var rows := PassRows(items);
    var tail := if |items| == 0 then [""] else rows;
    assert Join(tail, "\n") == Join(rows, "\n");
    JoinCons(PassRule, tail, "\n");
    JoinCons(PassHeader, [PassRule] + tail, "\n");
    assert [PassHeader] + ([PassRule] + tail) == PassLines(items);
    assert "\n" == ['\n'];
  }

  lemma PassLinesOneLine(items: seq<TransformationItem>)
    requires forall i :: 0 <= i < |items| ==> OneLineItem(items[i])
    ensures forall i :: 0 <= i < |PassLines(items)| ==> '\n' !in PassLines(items)[i]
  {
    var lines := PassLines(items);
    forall i | 0 <= i < |lines|
      ensures '\n' !in lines[i]
    {
      if 2 <= i && |items| > 0 {
        PassRowOneLine(items[i - 2]);
      }
    }
  }

  lemma PassRowOneLine(item: TransformationItem)
    requires OneLineItem(item)
    ensures '\n' !in PassRow(item)
  {
  }

  /** `docs.ts` on the README: the settings table into its block, then the pass table into its block. */
  function UpdateReadme(readme: string, ps: seq<Property>, items: seq<TransformationItem>, eol: string): (r: Result<string, string>)
    ensures r.Success? <==> Covered(ps)
  {
    var table :- Table(ps, eol);
    var withConfig := ReplaceBlock(readme, ConfigStart, ConfigEnd, table, eol);
    Success(ReplaceBlock(withConfig, PassesStart, PassesEnd, TransformationsBody(items, eol), eol))
  }

  // ---------------------------------------------------------------- the pass enums

  /** The position of the first listed item with the key, or the length of the listing. */
  function FindIndex(items: seq<TransformationItem>, key: string): (i: nat)
    ensures i <= |items|
    ensures forall k :: 0 <= k < i ==> items[k].key != key
    ensures i < |items| ==> items[i].key == key
  {
    if |items| == 0 then 0
    else if items[0].key == key then 0
    else 1 + FindIndex(items[1..], key)
  }

  /** The first listed item with the key, as `Array.prototype.find` returns it. */
  function Find(items: seq<TransformationItem>, key: string): (r: Option<TransformationItem>)
    ensures r.None? <==> key !in Keys(items)
    ensures r.Some? ==> r.value == items[FindIndex(items, key)] && r.value.key == key
  {
    var i := FindIndex(items, key);
    if i < |items| then Some(items[i]) else None
  }

  datatype EnumEntry = EnumEntry(pass: string, description: string)

  /**
   * One enum entry per pass the formatter knows, described by the listing;
   * a pass the listing lacks is a "Core pass" (an empty description stays
   * empty, since `??` only replaces a missing item).
   */
  function Enums(passes: seq<string>, items: seq<TransformationItem>): (r: seq<EnumEntry>)
    ensures |r| == |passes|
    ensures forall i :: 0 <= i < |passes| ==> r[i].pass == passes[i]
    ensures forall i :: 0 <= i < |passes| ==>
      (passes[i] in Keys(items) ==> r[i].description == Find(items, passes[i]).value.description)
      && (passes[i] !in Keys(items) ==> r[i].description == "Core pass")
  {
    seq(|passes|, i requires 0 <= i < |passes| =>
      EnumEntry(passes[i], match Find(items, passes[i]) case Some(t) => t.description case None => "Core pass"))
  }

  /** The enum values and descriptions written into the schema; `passes` and `exclude` get the same lists. */
  function SchemaEnums(passes: seq<string>, items: seq<TransformationItem>): (r: (seq<string>, seq<string>))
    ensures r.0 == passes
    ensures |r.1| == |passes|
    ensures forall i :: 0 <= i < |passes| ==> r.1[i] == Enums(passes, items)[i].description
  {
    var es := Enums(passes, items);
    (seq(|es|, i requires 0 <= i < |es| => es[i].pass), seq(|es|, i requires 0 <= i < |es| => es[i].description))
  }

  // ---------------------------------------------------------------- generate.ts

  /**
   * The `$` patterns of `String.prototype.replace` with a string pattern and
   * no capture groups: `$$` is a dollar, `$&` the match, `` $` `` the text
   * before it and `$'` the text after it; any other `$` stays as it is.
   */
  function Expand(r: string, before: string, matched: string, after: string): string {
    if |r| == 0 then ""
    else if r[0] == '$' && |r| > 1 && r[1] == '$' then "$" + Expand(r[2..], before, matched, after)
    else if r[0] == '$' && |r| > 1 && r[1] == '&' then matched + Expand(r[2..], before, matched, after)
    else if r[0] == '$' && |r| > 1 && r[1] == '`' then before + Expand(r[2..], before, matched, after)
    else if r[0] == '$' && |r| > 1 && r[1] == '\'' then after + Expand(r[2..], before, matched, after)
    else [r[0]] + Expand(r[1..], before, matched, after)
  }

  /** Without a dollar sign the replacement text is inserted as it is. */
  lemma {:induction false} ExpandPlain(r: string, before: string, matched: string, after: string)
    requires '$' !in r
    ensures Expand(r, before, matched, after) == r
  {
    if |r| > 0 {
      ExpandPlain(r[1..], before, matched, after);
      assert r == [r[0]] + r[1..];
    }
  }

  /** `s.replace(pattern, replacement)` with a string pattern: the first occurrence only. */
  function ReplaceFirst(s: string, pattern: string, replacement: string): (r: string)
    ensures FirstFrom(s, pattern, 0).None? ==> r == s
  {
    match FirstFrom(s, pattern, 0)
    case None => s
    case Some(i) =>
      s[..i] + Expand(replacement, s[..i], pattern, s[i + |pattern|..]) + s[i + |pattern|..]
  }

  const ConfigPlaceholder := "%CONFIG%"

  /** `generate.ts` as written: the rows go through `replace`, so `$` patterns in them are expanded. */
  function GenerateReadmeAsWritten(template: string, ps: seq<Property>): (r: Result<string, string>)
    ensures r.Success? <==> Covered(ps)
  {
    var rows :- Rows(ps, "\n");
    Success(ReplaceFirst(template, ConfigPlaceholder, rows))
  }

  /** The template at its first placeholder, with `text` in the placeholder's place. */
  function Fill(template: string, text: string): (r: string)
    ensures FirstFrom(template, ConfigPlaceholder, 0).None? ==> r == template
    ensures FirstFrom(template, ConfigPlaceholder, 0).Some? ==>
      var i := FirstFrom(template, ConfigPlaceholder, 0).value;
      r == template[..i] + text + template[i + |ConfigPlaceholder|..]
  {
    match FirstFrom(template, ConfigPlaceholder, 0)
    case None => template
    case Some(i) => template[..i] + text + template[i + |ConfigPlaceholder|..]
  }

  /** `generate.ts` with the rows inserted verbatim, as `docs.ts` does it with a replacer function. */
  function GenerateReadme(template: string, ps: seq<Property>): (r: Result<string, string>)
    ensures r.Success? <==> Covered(ps)
    ensures r.Success? ==> Rows(ps, "\n").Success? && r.value == Fill(template, Rows(ps, "\n").value)
  {
    var rows :- Rows(ps, "\n");
    Success(Fill(template, rows))
  }

  /** The two agree whenever the rows hold no dollar sign. */
  lemma GenerateAgrees(template: string, ps: seq<Property>)
    requires Rows(ps, "\n").Success? && '$' !in Rows(ps, "\n").value
    ensures GenerateReadmeAsWritten(template, ps) == GenerateReadme(template, ps)
  {
    var rows := Rows(ps, "\n").value;
    var f := FirstFrom(template, ConfigPlaceholder, 0);
    if f.Some? {
      var i := f.value;
      ExpandPlain(rows, template[..i], ConfigPlaceholder, template[i + |ConfigPlaceholder|..]);
      assert ReplaceFirst(template, ConfigPlaceholder, rows) == Fill(template, rows);
    }
  }

  lemma RowAroundDescription(p: Property, d: string)
    requires p.description == Some(d) && !p.default.Uncovered?
    ensures Rows([p], "\n") == Success(RowFront(p) + d + RowBack(DefaultCell(p.default).value, "\n"))
  {
    assert DescriptionText(p.description) == d;
    var row := RowFront(p) + d + RowBack(DefaultCell(p.default).value, "\n");
    assert Covered([p]);
    assert RowFn("\n")(p) == row;
    assert Texts([p], RowFn("\n")) == [row];
    assert [row][1..] == [];
    assert Concat([row]) == row + "";
    assert row + "" == row;
  }

  lemma ExpandAmpersand(a: string, b: string, before: string, matched: string, after: string)
    requires '$' !in a
    ensures Expand(a + "$&" + b, before, matched, after) == a + matched + Expand(b, before, matched, after)
  {
    assert a + "$&" + b == a + ("$&" + b);
    ExpandSplit(a, "$&" + b, before, matched, after);
    assert ("$&" + b)[0] == '$' && ("$&" + b)[1] == '&' && ("$&" + b)[2..] == b;
  }

  /** What the placeholder is replaced with, as written, when the only description is `$&`. */
  lemma AsWrittenShape(template: string, p: Property)
    requires FirstFrom(template, ConfigPlaceholder, 0).Some?
    requires p.description == Some("$&") && !p.default.Uncovered?
    requires '$' !in p.key && '$' !in TypeCell(p.ty)
    ensures var i := FirstFrom(template, ConfigPlaceholder, 0).value;
      var before, after := template[..i], template[i + |ConfigPlaceholder|..];
      var back := RowBack(DefaultCell(p.default).value, "\n");
      GenerateReadmeAsWritten(template, [p])
        == Success((before + RowFront(p)) + ConfigPlaceholder + (Expand(back, before, ConfigPlaceholder, after) + after))
  {
    var i := FirstFrom(template, ConfigPlaceholder, 0).value;
    var before, after := template[..i], template[i + |ConfigPlaceholder|..];
    var front, back := RowFront(p), RowBack(DefaultCell(p.default).value, "\n");
    RowAroundDescription(p, "$&");
    assert '$' !in front;
    ExpandAmpersand(front, back, before, ConfigPlaceholder, after);
    Regroup(before, front, ConfigPlaceholder, Expand(back, before, ConfigPlaceholder, after), after);
  }

  lemma Regroup(a: string, b: string, c: string, d: string, e: string)
    ensures a + (b + c + d) + e == (a + b) + c + (d + e)
  {
  }

  lemma VerbatimShape(template: string, p: Property)
    requires FirstFrom(template, ConfigPlaceholder, 0).Some?
    requires p.description == Some("$&") && !p.default.Uncovered?
    ensures var i := FirstFrom(template, ConfigPlaceholder, 0).value;
      var before, after := template[..i], template[i + |ConfigPlaceholder|..];
      var back := RowBack(DefaultCell(p.default).value, "\n");
      GenerateReadme(template, [p]) == Success((before + RowFront(p)) + "$&" + (back + after))
  {
    var i := FirstFrom(template, ConfigPlaceholder, 0).value;
    var before, after := template[..i], template[i + |ConfigPlaceholder|..];
    var front, back := RowFront(p), RowBack(DefaultCell(p.default).value, "\n");
    RowAroundDescription(p, "$&");
    Regroup(before, front, "$&", back, after);
  }

  /**
   * A description `$&` brings the placeholder back where the description
   * belongs, so the generated README differs from the verbatim one.
   */
  lemma DollarAmpersandAsWritten(template: string, p: Property)
    requires FirstFrom(template, ConfigPlaceholder, 0).Some?
    requires p.description == Some("$&") && !p.default.Uncovered?
    requires '$' !in p.key && '$' !in TypeCell(p.ty)
    ensures var at := FirstFrom(template, ConfigPlaceholder, 0).value + |RowFront(p)|;
      && GenerateReadmeAsWritten(template, [p]).Success?
      && GenerateReadme(template, [p]).Success?
      && |GenerateReadmeAsWritten(template, [p]).value| >= at + |ConfigPlaceholder|
      && |GenerateReadme(template, [p]).value| >= at + 2
      && GenerateReadmeAsWritten(template, [p]).value[at..at + |ConfigPlaceholder|] == ConfigPlaceholder
      && GenerateReadme(template, [p]).value[at..at + 2] == "$&"
      && GenerateReadmeAsWritten(template, [p]) != GenerateReadme(template, [p])
  {
    var i := FirstFrom(template, ConfigPlaceholder, 0).value;
    var before, after := template[..i], template[i + |ConfigPlaceholder|..];
    var back := RowBack(DefaultCell(p.default).value, "\n");
    var head := before + RowFront(p);
    var tail := Expand(back, before, ConfigPlaceholder, after) + after;
    AsWrittenShape(template, p);
    VerbatimShape(template, p);
    Pieces(head, ConfigPlaceholder, tail);
    Pieces(head, "$&", back + after);
    assert (head + ConfigPlaceholder + tail)[|head|] == '%';
    assert (head + "$&" + (back + after))[|head|] == '$';
  }

  lemma {:induction false} ExpandSplit(a: string, b: string, before: string, matched: string, after: string)
    requires '$' !in a
    ensures Expand(a + b, before, matched, after) == a + Expand(b, before, matched, after)
  {
    if |a| > 0 {
      assert (a + b)[0] == a[0] && (a + b)[1..] == a[1..] + b;
      ExpandSplit(a[1..], b, before, matched, after);
    } else {
      assert a + b == b;
    }
  }
}

=== FILE: errors.dfy ===
/**
 * The errors `format` raises (src/PHPFmtError.ts): a `PHPFmtError` carries
 * its message behind a `phpfmt: ` prefix; the skip error marks a file the
 * formatter should leave alone without a message; anything else that
 * escapes (a failed read of the formatted file) is a foreign error.
 */
module Errors {
  import opened Strings

  const Prefix := "phpfmt: "

  datatype FormatError =
    | PHPFmtError(message: string)
    | PHPFmtSkipError
    | ForeignError(what: string)

  /** `new PHPFmtError(message)`: the message behind the extension's prefix. */
  function Raise(message: string): (e: FormatError)
    ensures e.PHPFmtError?
    ensures StartsWith(e.message, Prefix) && e.message[|Prefix|..] == message
  {
    PHPFmtError(Prefix + message)
  }

  /** Different messages give different errors. */
  lemma RaiseInjective(a: string, b: string)
    requires Raise(a) == Raise(b)
    ensures a == b
  {
    assert a == Raise(a).message[|Prefix|..];
  }
}

=== FILE: flags.dfy ===
/**
 * `PHPFmt.loadSettings` and `PHPFmt.getArgs` (src/PHPFmt.ts): the settings
 * record becomes the ordered list of command-line flags for the formatter.
 *
 * Two independent descriptions sit beside the builder: `Rank` gives every
 * flag its fixed slot (so "in this order, each at most once" is a property
 * of the list), and `DecodeFlags` reads a flag list back into the settings
 * it expresses (so "present iff its setting asks for it" is a round trip).
 */
module Flags {
  import opened Strings
  import opened Wrappers
  import opened Config

  const IndentFlagName := "--indent_with_space"
  const IndentWidthPrefix := "--indent_with_space="
  const PassesPrefix := "--passes="
  const ExcludePrefix := "--exclude="
  const Psr1Flag := "--psr1"
  const Psr1NamingFlag := "--psr1-naming"
  const Psr2Flag := "--psr2"
  const WpFlag := "--wp"
  const AutoAlignFlag := "--enable_auto_align"
  const VisibilityOrderFlag := "--visibility_order"
  const SmartLinebreakFlag := "--smart_linebreak_after_curly"
  const YodaFlag := "--yoda"
  const CakephpFlag := "--cakephp"


  /** A flag of the formatter's command line, before it is written out as text. */
  datatype FlagKind =
    | Psr1 | Psr1Naming | Psr2 | Wp
    | IndentBare | IndentWidthText(width: string)
    | AutoAlign | VisibilityOrder
    | PassesList(passes: string) | ExcludeList(exclude: string)
    | SmartLinebreak | Yoda | Cakephp
    | Other(text: string)

  /** The text of a flag as `loadSettings` pushes it. */
  function Render(k: FlagKind): string {
    match k
    case Psr1 => Psr1Flag
    case Psr1Naming => Psr1NamingFlag
    case Psr2 => Psr2Flag
    case Wp => WpFlag
    case IndentBare => IndentFlagName
    case IndentWidthText(t) => IndentWidthPrefix + t
    case AutoAlign => AutoAlignFlag
    case VisibilityOrder => VisibilityOrderFlag
    case PassesList(t) => PassesPrefix + t
    case ExcludeList(t) => ExcludePrefix + t
    case SmartLinebreak => SmartLinebreakFlag
    case Yoda => YodaFlag
    case Cakephp => CakephpFlag
    case Other(t) => t
  }

  function RenderAll(ks: seq<FlagKind>): (r: seq<string>)
    ensures |r| == |ks|
    ensures forall i :: 0 <= i < |ks| ==> r[i] == Render(ks[i])
  {
    seq(|ks|, i requires 0 <= i < |ks| => Render(ks[i]))
  }

  /**
   * The indentation flag `loadSettings` derives: none under indent
   * detection; `true` gives the bare flag, a positive number N gives `=N`,
   * anything else (`false`, zero, a negative number) gives nothing.
   */
  function IndentSlot(c: PHPFmtConfig): (r: Push)
    ensures c.detectIndent ==> !r.on
  {
    match c.indentWithSpace
    case IndentFlag(on) => Push(!c.detectIndent && on, IndentBare)
    case IndentWidth(n) => Push(!c.detectIndent && n > 0, IndentWidthText(IntToString(n)))
  }

  /** One guarded `push` of `loadSettings`: `kind` is pushed exactly when `on` holds. */
  datatype Push = Push(on: bool, kind: FlagKind)

  /**
   * The twelve guarded pushes of `loadSettings` after the `custom_arguments`
   * check, in source order.
   */
  function Slots(c: PHPFmtConfig): (s: seq<Push>)
    ensures |s| == 12
  {
    [ Push(c.psr1, Psr1),
      Push(c.psr1Naming, Psr1Naming),
      Push(c.psr2, Psr2),
      Push(c.wp, Wp),
      IndentSlot(c),
      Push(c.enableAutoAlign, AutoAlign),
      Push(c.visibilityOrder, VisibilityOrder),
      Push(|c.passes| > 0, PassesList(Join(c.passes, ","))),
      Push(|c.exclude| > 0, ExcludeList(Join(c.exclude, ","))),
      Push(c.smartLinebreakAfterCurly, SmartLinebreak),
      Push(c.yoda, Yoda),
      Push(c.cakephp, Cakephp) ]
  }

  /** The filled positions, in order. */
  function Present(slots: seq<Push>): (r: seq<FlagKind>)
    ensures |r| <= |slots|
  {
    if |slots| == 0 then []
    else (if slots[0].on then [slots[0].kind] else []) + Present(slots[1..])
  }

  function Plan(c: PHPFmtConfig): seq<FlagKind> {
    Present(Slots(c))
  }

  /**
   * `loadSettings`: the list is rebuilt from nothing on every call, so no
   * flag of an earlier configuration survives. A non-empty
   * `custom_arguments` is the whole list.
   */
  function LoadSettings(c: PHPFmtConfig): (args: seq<string>)
    ensures c.customArguments != "" ==> args == [c.customArguments]
  {
    if c.customArguments != "" then [c.customArguments]
    else RenderAll(Plan(c))
  }

  /**
   * `getArgs`: a copy of the stored flags with the double-quoted file name
   * appended. The stored list is a value here, so it cannot change.
   */
  function GetArgs(args: seq<string>, fileName: string): (r: seq<string>)
    ensures |r| == |args| + 1
    ensures r[..|args|] == args
    ensures r[|args|] == Quote(fileName)
  {
    args + [Quote(fileName)]
  }

  // ---------------------------------------------------------------- recognising a flag

  /** Which flag of the formatter's command line `flag` is. */
  function Kind(flag: string): FlagKind {
    if flag == IndentFlagName then IndentBare
    else if StartsWith(flag, IndentWidthPrefix) then IndentWidthText(flag[|IndentWidthPrefix|..])
    else if StartsWith(flag, PassesPrefix) then PassesList(flag[|PassesPrefix|..])
    else if StartsWith(flag, ExcludePrefix) then ExcludeList(flag[|ExcludePrefix|..])
    else if flag == Psr1Flag then Psr1
    else if flag == Psr1NamingFlag then Psr1Naming
    else if flag == Psr2Flag then Psr2
    else if flag == WpFlag then Wp
    else if flag == AutoAlignFlag then AutoAlign
    else if flag == VisibilityOrderFlag then VisibilityOrder
    else if flag == SmartLinebreakFlag then SmartLinebreak
    else if flag == YodaFlag then Yoda
    else if flag == CakephpFlag then Cakephp
    else Other(flag)
  }

  lemma Differ(s: string, p: string, k: nat)
    requires k < |s| && k < |p| && s[k] != p[k]
    ensures !StartsWith(s, p) && s != p
  {
  }

  lemma LiteralKinds()
    ensures Kind(Psr1Flag) == Psr1
    ensures Kind(Psr1NamingFlag) == Psr1Naming
    ensures Kind(Psr2Flag) == Psr2
    ensures Kind(WpFlag) == Wp
    ensures Kind(IndentFlagName) == IndentBare
    ensures Kind(AutoAlignFlag) == AutoAlign
    ensures Kind(VisibilityOrderFlag) == VisibilityOrder
    ensures Kind(SmartLinebreakFlag) == SmartLinebreak
    ensures Kind(YodaFlag) == Yoda
    ensures Kind(CakephpFlag) == Cakephp
  {
    Differ(Psr1NamingFlag, PassesPrefix, 3);
    Differ(Psr1NamingFlag, ExcludePrefix, 2);
    Differ(Psr2Flag, Psr1Flag, 5);
    Differ(AutoAlignFlag, IndentFlagName, 2);
    Differ(AutoAlignFlag, PassesPrefix, 2);
    Differ(AutoAlignFlag, ExcludePrefix, 3);
    Differ(VisibilityOrderFlag, PassesPrefix, 2);
    Differ(VisibilityOrderFlag, ExcludePrefix, 2);
    Differ(SmartLinebreakFlag, IndentWidthPrefix, 2);
    Differ(SmartLinebreakFlag, PassesPrefix, 2);
    Differ(SmartLinebreakFlag, ExcludePrefix, 2);
    Differ(YodaFlag, Psr1Flag, 2);
    Differ(YodaFlag, Psr2Flag, 2);
    Differ(CakephpFlag, PassesPrefix, 2);
  }

  lemma PrefixedKinds(rest: string)
    ensures Kind(IndentWidthPrefix + rest) == IndentWidthText(rest)
    ensures Kind(PassesPrefix + rest) == PassesList(rest)
    ensures Kind(ExcludePrefix + rest) == ExcludeList(rest)
  {
    var w := IndentWidthPrefix + rest;
    assert w[..|IndentWidthPrefix|] == IndentWidthPrefix && w[|IndentWidthPrefix|..] == rest;
    var p := PassesPrefix + rest;
    assert p[..|PassesPrefix|] == PassesPrefix && p[|PassesPrefix|..] == rest;
    Differ(p, IndentFlagName, 2);
    Differ(p, IndentWidthPrefix, 2);
    var e := ExcludePrefix + rest;
    assert e[..|ExcludePrefix|] == ExcludePrefix && e[|ExcludePrefix|..] == rest;
    Differ(e, IndentFlagName, 2);
    Differ(e, IndentWidthPrefix, 2);
    Differ(e, PassesPrefix, 2);
  }

  /** Reading a rendered flag gives the flag back. */
  lemma KindRender(k: FlagKind)
    requires !k.Other?
    ensures Kind(Render(k)) == k
  {
    match k
    case IndentWidthText(t) => PrefixedKinds(t);
    case PassesList(t) => PrefixedKinds(t);
    case ExcludeList(t) => PrefixedKinds(t);
    case _ => LiteralKinds();
  }

  /** Every flag of the plan is one the formatter's command line knows. */
  lemma {:induction false} PresentKnown(slots: seq<Push>)
    requires forall i :: 0 <= i < |slots| ==> slots[i].on ==> !slots[i].kind.Other?
    ensures forall i :: 0 <= i < |Present(slots)| ==> !Present(slots)[i].Other?
  {
    if |slots| > 0 {
      PresentKnown(slots[1..]);
    }
  }

  /** Position `i` of the slots holds, if anything, a known flag of slot `i`. */
  lemma SlotAtLow(c: PHPFmtConfig, i: nat)
    requires i < 6
    ensures !Slots(c)[i].kind.Other? && Slot(Slots(c)[i].kind) == i
  {
    var s := Slots(c);
    if i == 0 { assert s[0] == Push(c.psr1, Psr1); }
    else if i == 1 { assert s[1] == Push(c.psr1Naming, Psr1Naming); }
    else if i == 2 { assert s[2] == Push(c.psr2, Psr2); }
    else if i == 3 { assert s[3] == Push(c.wp, Wp); }
    else if i == 4 { assert s[4] == IndentSlot(c); }
    else { assert s[5] == Push(c.enableAutoAlign, AutoAlign); }
  }

  lemma SlotAtHigh(c: PHPFmtConfig, i: nat)
    requires 6 <= i < 12
    ensures !Slots(c)[i].kind.Other? && Slot(Slots(c)[i].kind) == i
  {
    var s := Slots(c);
    if i == 6 { assert s[6] == Push(c.visibilityOrder, VisibilityOrder); }
    else if i == 7 { assert s[7] == Push(|c.passes| > 0, PassesList(Join(c.passes, ","))); }
    else if i == 8 { assert s[8] == Push(|c.exclude| > 0, ExcludeList(Join(c.exclude, ","))); }
    else if i == 9 { assert s[9] == Push(c.smartLinebreakAfterCurly, SmartLinebreak); }
    else if i == 10 { assert s[10] == Push(c.yoda, Yoda); }
    else { assert s[11] == Push(c.cakephp, Cakephp); }
  }

  /** Every position of the list holds a known flag whose slot is that position. */
  lemma SlotAt(c: PHPFmtConfig, i: nat)
    requires i < 12
    ensures !Slots(c)[i].kind.Other? && Slot(Slots(c)[i].kind) == i
  {
    if i < 6 {
      SlotAtLow(c, i);
    } else {
      SlotAtHigh(c, i);
    }
  }

  lemma SlotsKnown(c: PHPFmtConfig)
    ensures forall i :: 0 <= i < |Slots(c)| ==> Slots(c)[i].on ==> !Slots(c)[i].kind.Other?
  {
    forall i | 0 <= i < 12
      ensures Slots(c)[i].on ==> !Slots(c)[i].kind.Other?
    {
      SlotAt(c, i);
    }
  }

  lemma PlanKnown(c: PHPFmtConfig)
    ensures forall i :: 0 <= i < |Plan(c)| ==> !Plan(c)[i].Other?
  {
    SlotsKnown(c);
    PresentKnown(Slots(c));
  }

  // ---------------------------------------------------------------- fixed order

  function Slot(k: FlagKind): nat {
    match k
    case Psr1 => 0
    case Psr1Naming => 1
    case Psr2 => 2
    case Wp => 3
    case IndentBare => 4
    case IndentWidthText(_) => 4
    case AutoAlign => 5
    case VisibilityOrder => 6
    case PassesList(_) => 7
    case ExcludeList(_) => 8
    case SmartLinebreak => 9
    case Yoda => 10
    case Cakephp => 11
    case Other(_) => 12
  }

  /** The slot of a flag in the fixed order; 12 for anything `loadSettings` never emits. */
  function Rank(flag: string): nat {
    Slot(Kind(flag))
  }

  /** Strictly increasing slots: the fixed order, and no flag twice. */
  predicate Ordered(args: seq<string>) {
    forall i, j :: 0 <= i < j < |args| ==> Rank(args[i]) < Rank(args[j])
  }

  predicate SlotsIncrease(ks: seq<FlagKind>) {
    forall i, j :: 0 <= i < j < |ks| ==> Slot(ks[i]) < Slot(ks[j])
  }

  /** Position `i` of `slots` holds only a flag of slot `base + i`. */
  predicate InPlace(slots: seq<Push>, base: nat) {
    forall i :: 0 <= i < |slots| ==> slots[i].on ==> Slot(slots[i].kind) == base + i
  }

  lemma {:induction false} PresentIncreases(slots: seq<Push>, base: nat)
    requires InPlace(slots, base)
    ensures SlotsIncrease(Present(slots))
    ensures forall i :: 0 <= i < |Present(slots)| ==> Slot(Present(slots)[i]) >= base
  {
    if |slots| > 0 {
      assert InPlace(slots[1..], base + 1);
      PresentIncreases(slots[1..], base + 1);
    }
  }

  lemma SlotsInPlace(c: PHPFmtConfig)
    ensures InPlace(Slots(c), 0)
  {
    forall i | 0 <= i < 12
      ensures Slots(c)[i].on ==> Slot(Slots(c)[i].kind) == 0 + i
    {
      SlotAt(c, i);
    }
  }

  /** Without `custom_arguments`, the flags follow the fixed order, each at most once. */
  lemma LoadSettingsOrdered(c: PHPFmtConfig)
    requires c.customArguments == ""
    ensures Ordered(LoadSettings(c))
  {
    var plan := Plan(c);
    SlotsInPlace(c);
    PresentIncreases(Slots(c), 0);
    PlanKnown(c);
    forall i | 0 <= i < |plan|
      ensures Rank(LoadSettings(c)[i]) == Slot(plan[i])
    {
      KindRender(plan[i]);
    }
  }
}

=== FILE: legacy.dfy ===
/**
 * The first version of the extension (extension.js): a formatter object is
 * built afresh for every request, its flags come from a shorter list of
 * settings, the PHP version is checked through `PHP_VERSION_ID`, and the
 * formatter runs as a spawned process whose exit code decides the outcome.
 */
module Legacy {
  import opened Strings
  import opened Wrappers
  import opened Config
  import opened Flags
  import Pipeline

  /** The settings extension.js reads. `indent_with_space` may be a number or a boolean. */
  datatype LegacyConfig = LegacyConfig(
    phpBin: string,
    formatOnSave: bool,
    psr1: bool,
    psr1Naming: bool,
    psr2: bool,
    indentWithSpace: IndentSetting,
    enableAutoAlign: bool,
    visibilityOrder: bool,
    passes: seq<string>,
    smartLinebreakAfterCurly: bool,
    yoda: bool)

  datatype LegacyPHPFmt = LegacyPHPFmt(phpBin: string, formatOnSave: bool, args: seq<string>)

  /**
   * The indentation flag: always one. `spaces > 0` holds for a positive
   * number and, by JavaScript's comparison, for `true`, which is written out
   * as `=true`; anything else gives the bare flag.
   */
  function LegacyIndent(s: IndentSetting): (k: FlagKind)
    ensures k == IndentBare || k.IndentWidthText?
    ensures k == IndentBare <==> s == IndentFlag(false) || (s.IndentWidth? && s.width <= 0)
    ensures s == IndentFlag(true) ==> k == IndentWidthText("true")
    ensures s.IndentWidth? && s.width > 0 ==> k == IndentWidthText(IntToString(s.width))
  {
    match s
    case IndentFlag(on) => if on then IndentWidthText("true") else IndentBare
    case IndentWidth(n) => if n > 0 then IndentWidthText(IntToString(n)) else IndentBare
  }

  /** The nine guarded pushes of the old `loadSettings`, in source order. */
  function LegacySlots(c: LegacyConfig): (s: seq<Push>)
    ensures |s| == 9
  {
    [ Push(c.psr1, Psr1),
      Push(c.psr1Naming, Psr1Naming),
      Push(c.psr2, Psr2),
      Push(true, LegacyIndent(c.indentWithSpace)),
      Push(c.enableAutoAlign, AutoAlign),
      Push(c.visibilityOrder, VisibilityOrder),
      Push(|c.passes| > 0, PassesList(Join(c.passes, ","))),
      Push(c.smartLinebreakAfterCurly, SmartLinebreak),
      Push(c.yoda, Yoda) ]
  }

  /** The flags one `loadSettings` call pushes. */
  function LegacyFlags(c: LegacyConfig): seq<string> {
    RenderAll(Present(LegacySlots(c)))
  }

  /**
   * `loadSettings`: the flags are APPENDED to whatever the object holds (the
   * list is never cleared), and `formatOnSave` is only ever switched on.
   */
  function LegacyLoad(st: LegacyPHPFmt, c: LegacyConfig): (r: LegacyPHPFmt)
    ensures r.phpBin == c.phpBin
    ensures r.formatOnSave <==> st.formatOnSave || c.formatOnSave
    ensures r.args == st.args + LegacyFlags(c)
  {
    LegacyPHPFmt(c.phpBin, st.formatOnSave || c.formatOnSave, st.args + LegacyFlags(c))
  }

  /** The constructor: no flags, format-on-save off, then one `loadSettings`. */
  function LegacyNew(c: LegacyConfig): (r: LegacyPHPFmt)
    ensures r.args == LegacyFlags(c) && (r.formatOnSave <==> c.formatOnSave)
  {
    LegacyLoad(LegacyPHPFmt("", false, []), c)
  }

  /** `getArgs`: the stored flags and the file name, which is NOT quoted here. */
  function LegacyGetArgs(args: seq<string>, fileName: string): (r: seq<string>)
    ensures |r| == |args| + 1 && r[..|args|] == args && r[|args|] == fileName
  {
    args + [fileName]
  }

  // ---------------------------------------------------------------- the flags

  /** Every flag appears at most once and in the fixed order; there is always exactly one indentation flag. */
  lemma LegacyOrdered(c: LegacyConfig)
    ensures Ordered(LegacyFlags(c))
    ensures exists i :: 0 <= i < |LegacyFlags(c)| && Rank(LegacyFlags(c)[i]) == 4
  {
    var plan := Present(LegacySlots(c));
    LegacyRising(c);
    PresentRising(LegacySlots(c), 0);
    LegacyKnown(c);
    RenderedOrdered(plan);
    IndentPresent(c);
    var k :| 0 <= k < |plan| && plan[k] == LegacyIndent(c.indentWithSpace);
    KindRender(plan[k]);
  }

  lemma LegacyRising(c: LegacyConfig)
    ensures Rising(LegacySlots(c))
  {
    var slots := LegacySlots(c);
    forall i | 0 <= i < 9
      ensures Slot(slots[i].kind) == LegacyOrder[i]
    {
    }
  }

  lemma LegacyKnown(c: LegacyConfig)
    ensures forall i :: 0 <= i < |Present(LegacySlots(c))| ==> !Present(LegacySlots(c))[i].Other?
  {
    var slots := LegacySlots(c);
    forall i | 0 <= i < |slots|
      ensures slots[i].on ==> !slots[i].kind.Other?
    {
    }
    PresentKnown(slots);
  }

  /** Known kinds in increasing slots render to flags in the fixed order. */
  lemma RenderedOrdered(plan: seq<FlagKind>)
    requires SlotsIncrease(plan)
    requires forall i :: 0 <= i < |plan| ==> !plan[i].Other?
    ensures Ordered(RenderAll(plan))
  {
    forall i | 0 <= i < |plan|
      ensures Rank(RenderAll(plan)[i]) == Slot(plan[i])
    {
      KindRender(plan[i]);
    }
  }

  /**
   * The old list is never cleared, so a second `loadSettings` on the same
   * object would repeat every flag. This is a latent hazard of the class
   * rather than reachable behaviour: extension.js builds a fresh object for
   * every request and calls `loadSettings` only from the constructor.
   */
  lemma LegacyReloadRepeats(c: LegacyConfig)
    ensures !Ordered(LegacyLoad(LegacyNew(c), c).args)
  {
    var f := LegacyFlags(c);
    IndentPresent(c);
    assert |f| > 0;
    assert LegacyLoad(LegacyNew(c), c).args == f + f;
    RepeatNotOrdered(f);
  }

  lemma RepeatNotOrdered(f: seq<string>)
    requires |f| > 0
    ensures !Ordered(f + f)
  {
    assert (f + f)[0] == (f + f)[|f|];
  }

  const LegacyOrder: seq<nat> := [0, 1, 2, 4, 5, 6, 7, 9, 10]

  predicate Rising(slots: seq<Push>) {
    forall i, j :: 0 <= i < j < |slots| ==> Slot(slots[i].kind) < Slot(slots[j].kind)
  }

  lemma {:induction false} PresentRising(slots: seq<Push>, lo: nat)
    requires Rising(slots)
    requires forall i :: 0 <= i < |slots| ==> Slot(slots[i].kind) >= lo
    ensures SlotsIncrease(Present(slots))
    ensures forall i :: 0 <= i < |Present(slots)| ==> Slot(Present(slots)[i]) >= lo
  {
    if |slots| > 0 {
      var next := Slot(slots[0].kind) + 1;
      assert forall i :: 0 <= i < |slots[1..]| ==> Slot(slots[1..][i].kind) >= next by {
        forall i | 0 <= i < |slots[1..]|
          ensures Slot(slots[1..][i].kind) >= next
        {
          assert slots[1..][i] == slots[i + 1];
        }
      }
      PresentRising(slots[1..], next);
    }
  }

  /** The indentation flag is always among the pushed flags. */
  lemma IndentPresent(c: LegacyConfig)
    ensures exists k :: 0 <= k < |Present(LegacySlots(c))| && Present(LegacySlots(c))[k] == LegacyIndent(c.indentWithSpace)
  {
    var slots := LegacySlots(c);
    PresentSplit(slots[..3], slots[3..]);
    assert slots == slots[..3] + slots[3..];
    assert Present(slots[3..])[0] == LegacyIndent(c.indentWithSpace);
    var k := |Present(slots[..3])|;
    assert Present(slots)[k] == LegacyIndent(c.indentWithSpace);
  }

  lemma {:induction false} PresentSplit(a: seq<Push>, b: seq<Push>)
    ensures Present(a + b) == Present(a) + Present(b)
  {
    if |a| > 0 {
      assert (a + b)[1..] == a[1..] + b;
      PresentSplit(a[1..], b);
    } else {
      assert a + b == b;
    }
  }

  /** The current extension's settings that correspond to an old configuration. */
  function Current(c: LegacyConfig): PHPFmtConfig {
    PHPFmtConfig(
      c.phpBin, false, false, c.psr1, c.psr1Naming, c.psr2, false, c.indentWithSpace,
      c.enableAutoAlign, c.visibilityOrder, [], c.passes, [], c.smartLinebreakAfterCurly,
      c.yoda, false, "")
  }

  /**
   * For a positive indentation width the old and the current `loadSettings`
   * push the same flags; they part only on `true`, `false` and widths up to
   * zero, where the old code still pushes an indentation flag.
   */
  lemma LegacyMatchesCurrent(c: LegacyConfig)
    requires c.indentWithSpace.IndentWidth? && c.indentWithSpace.width > 0
    ensures LegacyFlags(c) == LoadSettings(Current(c))
  {
    var x0, x1, x2 := Head(c), Middle(c), Tail(c);
    var w, e, k := Push(false, Wp), Push(false, ExcludeList("")), Push(false, Cakephp);
    LegacyPieces(c);
    CurrentPieces(c);
    PresentSkipsOff(x0, w, x1 + [e] + x2 + [k]);
    assert x0 + [w] + (x1 + [e] + x2 + [k]) == x0 + [w] + x1 + [e] + x2 + [k];
    PresentSkipsOff(x0 + x1, e, x2 + [k]);
    assert x0 + (x1 + [e] + x2 + [k]) == x0 + x1 + [e] + (x2 + [k]);
    PresentSkipsOff(x0 + x1 + x2, k, []);
    assert x0 + x1 + (x2 + [k]) == x0 + x1 + x2 + [k] + [];
    assert x0 + x1 + x2 + [] == LegacySlots(c);
  }

  /** The three runs of old positions, between which the current list has positions of its own. */
  function Head(c: LegacyConfig): seq<Push> {
    [Push(c.psr1, Psr1), Push(c.psr1Naming, Psr1Naming), Push(c.psr2, Psr2)]
  }

  function Middle(c: LegacyConfig): seq<Push> {
    [ Push(true, LegacyIndent(c.indentWithSpace)),
      Push(c.enableAutoAlign, AutoAlign),
      Push(c.visibilityOrder, VisibilityOrder),
      Push(|c.passes| > 0, PassesList(Join(c.passes, ","))) ]
  }

  function Tail(c: LegacyConfig): seq<Push> {
    [Push(c.smartLinebreakAfterCurly, SmartLinebreak), Push(c.yoda, Yoda)]
  }

  lemma LegacyPieces(c: LegacyConfig)
    ensures LegacySlots(c) == Head(c) + Middle(c) + Tail(c)
  {
  }

  /** The current slots of the corresponding settings: the old ones, with Wp, exclude and CakePHP off in between. */
  lemma CurrentPieces(c: LegacyConfig)
    requires c.indentWithSpace.IndentWidth? && c.indentWithSpace.width > 0
    ensures Slots(Current(c))
      == Head(c) + [Push(false, Wp)] + Middle(c) + [Push(false, ExcludeList(""))] + Tail(c) + [Push(false, Cakephp)]
  {
    CurrentListed(c);
  }

  function CurrentList(c: LegacyConfig): seq<Push> {
    [ Push(c.psr1, Psr1), Push(c.psr1Naming, Psr1Naming), Push(c.psr2, Psr2), Push(false, Wp),
      Push(true, LegacyIndent(c.indentWithSpace)), Push(c.enableAutoAlign, AutoAlign),
      Push(c.visibilityOrder, VisibilityOrder), Push(|c.passes| > 0, PassesList(Join(c.passes, ","))),
      Push(false, ExcludeList("")), Push(c.smartLinebreakAfterCurly, SmartLinebreak), Push(c.yoda, Yoda),
      Push(false, Cakephp) ]
  }

  lemma CurrentListed(c: LegacyConfig)
    requires c.indentWithSpace.IndentWidth? && c.indentWithSpace.width > 0
    ensures Slots(Current(c)) == CurrentList(c)
  {
    assert IndentSlot(Current(c)) == Push(true, LegacyIndent(c.indentWithSpace));
    assert Join([], ",") == "";
  }

  /** A position whose guard fails pushes nothing. */
  lemma PresentSkipsOff(a: seq<Push>, k: Push, b: seq<Push>)
    requires !k.on
    ensures Present(a + [k] + b) == Present(a + b)
  {
    PresentSplit(a + [k], b);
    PresentSplit(a, [k]);
    PresentSplit(a, b);
    assert Present([k]) == [];
  }

  /** Every pushed flag comes from a position whose guard held. */
  lemma {:induction false} PresentFrom(slots: seq<Push>, k: nat)
    requires k < |Present(slots)|
    ensures exists i :: 0 <= i < |slots| && slots[i].on && slots[i].kind == Present(slots)[k]
  {
    if slots[0].on && k == 0 {
      assert slots[0].kind == Present(slots)[0];
    } else {
      var k' := if slots[0].on then k - 1 else k;
      PresentFrom(slots[1..], k');
      var i :| 0 <= i < |slots[1..]| && slots[1..][i].on && slots[1..][i].kind == Present(slots[1..])[k'];
      assert slots[i + 1] == slots[1..][i];
    }
  }

  /**
   * `indent_with_space: false` is where the two versions part: the old code
   * still asks for space indentation, the current one leaves the flag out.
   */
  lemma LegacyDiffersOnFalse(c: LegacyConfig)
    requires c.indentWithSpace == IndentFlag(false)
    ensures IndentFlagName in LegacyFlags(c)
    ensures IndentFlagName !in LoadSettings(Current(c))
  {
    IndentPresent(c);
    var k :| 0 <= k < |Present(LegacySlots(c))| && Present(LegacySlots(c))[k] == IndentBare;
    assert LegacyFlags(c)[k] == IndentFlagName;
    CurrentHasNoIndent(Current(c));
  }

  /** With the indentation position off, no flag of the current `loadSettings` is an indentation flag. */
  lemma CurrentHasNoIndent(m: PHPFmtConfig)
    requires m.customArguments == "" && !Slots(m)[4].on
    ensures IndentFlagName !in LoadSettings(m)
  {
    PlanKnown(m);
    LiteralKinds();
    forall j | 0 <= j < |LoadSettings(m)|
      ensures LoadSettings(m)[j] != IndentFlagName
    {
      KindRender(Plan(m)[j]);
      PresentFrom(Slots(m), j);
      var i :| 0 <= i < |Slots(m)| && Slots(m)[i].on && Slots(m)[i].kind == Plan(m)[j];
      SlotAt(m, i);
      assert Slot(Plan(m)[j]) != 4;
    }
  }

  // ---------------------------------------------------------------- format

  /** What `Number(text)` gives for the version output: an integer, or NaN. */
  datatype JsNumber = Num(n: int) | NaN

  /**
   * `Number` on a string: surrounding white space is ignored, the empty
   * string is 0, an optional sign and decimal digits are that integer, and
   * anything else is NaN (fractions, exponents and hexadecimal are not
   * modelled).
   */
  function ToNumber(s: string): (r: JsNumber)
    ensures IsBlank(s) ==> r == Num(0)
    ensures r.NaN? ==> !IsBlank(s)
  {
    var t := Trim(s);
    if t == "" then Num(0) else Numeral(t)
  }

  /** A trimmed, non-empty numeral. */
  function Numeral(t: string): JsNumber
    requires t != ""
  {
    if t[0] == '-' && IsDigits(t[1..]) then Num(-(ParseDigits(t[1..]) as int))
    else if t[0] == '+' && IsDigits(t[1..]) then Num(ParseDigits(t[1..]))
    else if IsDigits(t) then Num(ParseDigits(t))
    else NaN
  }

  lemma DigitsNumeral(t: string)
    requires IsDigits(t)
    ensures Numeral(t) == Num(ParseDigits(t))
  {
    assert IsDigit(t[0]);
  }

  /** `Number(x) < 70000`: false for NaN, so output that is not a number passes the check. */
  function TooOld(v: JsNumber): (tooOld: bool)
    ensures v.NaN? ==> !tooOld
    ensures v.Num? ==> (tooOld <==> v.n < 70000)
  {
    v.Num? && v.n < 70000
  }

  /** A printed PHP_VERSION_ID is refused exactly when it is below 70000, that is, before PHP 7.0. */
  lemma TooOldIds(id: nat)
    ensures TooOld(ToNumber(NatToString(id))) <==> id < 70000
  {
    VersionIdReads(id, "", "");
    assert "" + NatToString(id) + "" == NatToString(id);
  }

  /** A PHP_VERSION_ID printed in decimal is read back exactly. */
  lemma VersionIdReads(id: nat, before: string, after: string)
    requires IsBlank(before) && IsBlank(after)
    ensures ToNumber(before + NatToString(id) + after) == Num(id)
  {
    var s := NatToString(id);
    assert |s| > 0 by {
      assert s != [];
    }
    assert !IsSpace(s[0]) && !IsSpace(s[|s| - 1]);
    TrimMargins(before, s, after);
    DigitsNumeral(s);
    ParseNatToString(id);
  }

  datatype LegacyEnv = LegacyEnv(
    versionOutput: Option<string>,  // `php -r "echo PHP_VERSION_ID;"`, if it ran
    tmpDir: string,
    random: string,
    writeOk: bool,                  // whether `fs.writeFileSync` of the temporary file succeeded
    lintOk: bool,
    spawn: Spawn,
    readBack: Option<string>)       // `fs.readFileSync` of the temporary file, `None` if it threw

  /** The spawned formatter: an `error` event, or an exit with a code (`None` when a signal ended it). */
  datatype Spawn = SpawnFailed | Exited(code: Option<int>)

  /**
   * How the promise `format` returns ends: resolved with a text, rejected,
   * or never settled, which happens when reading the result throws inside
   * the `exit` listener, after which neither callback is ever called.
   */
  datatype Settlement = Resolved(text: string) | Rejected | Unsettled

  datatype LegacyRun = LegacyRun(
    result: Settlement,
    shown: Option<string>,
    tempFile: Option<string>,
    argv: Option<seq<string>>,
    unlinked: bool)

  /** The old temporary name is the current one for an untitled file: no base name, `.php` at the end. */
  function LegacyTempName(tmpDir: string, random: string): (name: string)
    ensures name == Pipeline.TempName(tmpDir, random, None)
    ensures |name| >= 4 && name[|name| - 4..] == ".php"
  {
    tmpDir + "/temp-" + Pipeline.RandomPart(random) + ".php"
  }

  /** The version check passed: PHP ran and printed an id of at least 70000. */
  predicate RecentPhp(env: LegacyEnv) {
    env.versionOutput.Some? && !TooOld(ToNumber(env.versionOutput.value))
  }

  /**
   * The old `format`. The write of the temporary file is outside every
   * `try`, so a failed write rejects the promise with no message; the
   * read-back runs inside the `exit` listener, so a failed read leaves the
   * promise unsettled and the file in place.
   */
  function LegacyFormat(st: LegacyPHPFmt, env: LegacyEnv, extensionPath: string): (run: LegacyRun)
    ensures env.versionOutput.None? ==> run == LegacyRun(Rejected, Some("phpfmt: cannot find php bin"), None, None, false)
    ensures env.versionOutput.Some? && TooOld(ToNumber(env.versionOutput.value)) ==>
      run == LegacyRun(Rejected, Some("phpfmt: php version < 7.0"), None, None, false)
    ensures RecentPhp(env) && !env.writeOk ==> run == LegacyRun(Rejected, None, None, None, false)
    ensures run.tempFile.Some? <==> RecentPhp(env) && env.writeOk
    ensures run.argv.Some? <==> RecentPhp(env) && env.writeOk && env.lintOk
    ensures run.result.Resolved? <==>
      run.argv.Some? && env.spawn == Exited(Some(0)) && env.readBack.Some? && env.readBack.value != ""
    ensures run.result.Resolved? ==> Some(run.result.text) == env.readBack
    ensures run.result.Unsettled? <==> run.argv.Some? && env.spawn == Exited(Some(0)) && env.readBack.None?
    ensures run.unlinked <==> run.argv.Some? && env.spawn.Exited? && !run.result.Unsettled?
    ensures run.argv.Some? ==> run.argv.value == [extensionPath + "/fmt.phar"] + LegacyGetArgs(st.args, LegacyTempName(env.tmpDir, env.random))
  {
    match env.versionOutput
    case None => LegacyRun(Rejected, Some("phpfmt: cannot find php bin"), None, None, false)
    case Some(out) =>
      if TooOld(ToNumber(out)) then LegacyRun(Rejected, Some("phpfmt: php version < 7.0"), None, None, false)
      else if !env.writeOk then LegacyRun(Rejected, None, None, None, false)
      else
        var file := LegacyTempName(env.tmpDir, env.random);
        if !env.lintOk then LegacyRun(Rejected, None, Some(file), None, false)
        else
          var argv := [extensionPath + "/fmt.phar"] + LegacyGetArgs(st.args, file);
          match env.spawn
          case SpawnFailed => LegacyRun(Rejected, Some("phpfmt: run phpfmt failed"), Some(file), Some(argv), false)
          case Exited(code) =>
            if code == Some(0) then
              match env.readBack
              case None => LegacyRun(Unsettled, None, Some(file), Some(argv), false)
              case Some(formatted) =>
                if |formatted| > 0 then LegacyRun(Resolved(formatted), None, Some(file), Some(argv), true)
                else LegacyRun(Rejected, None, Some(file), Some(argv), true)
            else LegacyRun(Rejected, Some("phpfmt: fmt.phar returns an invalid code"), Some(file), Some(argv), true)
  }

  /**
   * The old document provider: an edit exactly when formatting resolved with
   * a different text. An unsettled format leaves the provider's own promise
   * unsettled, so it too yields no edit.
   */
  function LegacyEdits(original: string, run: LegacyRun): (edits: Option<seq<string>>)
    ensures edits.Some? <==> run.result.Resolved? && run.result.text != original
    ensures edits.Some? ==> edits.value == [run.result.text]
  {
    if run.result.Resolved? && run.result.text != original then Some([run.result.text]) else None
  }
}

=== FILE: pipeline.dfy ===
/**
 * `PHPFmt.format` (src/PHPFmt.ts): the pass names are checked against the
 * formatter's catalog, the indentation rule is applied, the PHP version is
 * probed, ignored files are skipped, the text goes through a temporary
 * file, and the formatter command is assembled and run.
 *
 * Everything `format` learns from outside (the catalog listing, the
 * detected indentation, the active editor and workspace, the `.php.tools.ini`
 * search, `php -v`, `Math.random`, the file system and the child processes)
 * is an `Environment` value; what it does to the outside is recorded in a
 * `Run`. The flags list the extension keeps between calls is state, and
 * `format` can append to it.
 */
module Pipeline {
  import opened Strings
  import opened Wrappers
  import opened Config
  import opened Flags
  import opened Catalog
  import opened Versions
  import opened Errors

  /** The extension's formatter object: the settings it loaded and its stored flags. */
  datatype PHPFmt = PHPFmt(config: PHPFmtConfig, args: seq<string>)

  /** `loadSettings` on a configuration, whatever flags were stored before. */
  function Load(c: PHPFmtConfig): PHPFmt {
    PHPFmt(c, LoadSettings(c))
  }

  /** What `detect-indent` reports for the text. */
  datatype IndentInfo = Undetermined | SpaceIndent(amount: nat) | TabIndent

  datatype Environment = Environment(
    listing: seq<TransformationItem>,        // `getTransformations()`, already `[]` on failure
    knownPasses: seq<string>,                // `getPasses()`, what `isExists` looks in
    indent: IndentInfo,                      // `detectIndent(text)`
    editorFile: Option<string>,              // the active editor's file name, if there is an editor
    workspaceFolders: Option<seq<string>>,   // the folders' file-system paths, if a workspace is open
    foundIni: Option<string>,                // what `findUp('.php.tools.ini')` found
    probe: Probe,                            // `php -v`
    pharPaths: (string, string),             // the phars of phpfmt v1 and v2
    tmpDir: string,                          // `os.tmpdir()`
    random: string,                          // `Math.random().toString(36)`
    writeOk: bool,                           // writing the temporary file succeeds
    lintOk: bool,                            // `php -l` succeeds
    execOk: bool,                            // the formatter command succeeds
    readBack: Option<string>)                // reading the temporary file back, if it succeeds

  /** What one call of `format` did. */
  datatype Run = Run(
    result: Result<string, FormatError>,
    args: seq<string>,         // the stored flags afterwards
    probed: bool,              // `php -v` was run
    ignoredBy: Option<string>, // the ignore entry that matched the file
    tempFile: Option<string>,  // the temporary file that was written
    command: Option<string>,   // the formatter command that was run
    unlinked: bool)            // removing the temporary file was attempted

  // ---------------------------------------------------------------- pass validation

  /** A name the listing or the formatter's pass list knows. */
  predicate Recognised(name: string, listing: seq<TransformationItem>, known: seq<string>) {
    name in Keys(listing) || IsExists(known, name)
  }

  /** The configured names neither source knows, in configuration order. */
  function Unrecognised(names: seq<string>, listing: seq<TransformationItem>, known: seq<string>): (bad: seq<string>)
    ensures |bad| <= |names|
    ensures forall x :: x in bad <==> x in names && !Recognised(x, listing, known)
  {
    if |names| == 0 then []
    else
      var rest := Unrecognised(names[1..], listing, known);
      assert forall x :: x in names <==> x == names[0] || x in names[1..];
      if Recognised(names[0], listing, known) then rest else [names[0]] + rest
  }

  /**
   * The pass check: every name in `passes` and `exclude` must be a key of
   * the listing or one of the formatter's passes; otherwise the error lists
   * the others.
   */
  function Validate(c: PHPFmtConfig, listing: seq<TransformationItem>, known: seq<string>): (r: Result<(), FormatError>)
    ensures r.Failure? <==> exists x :: x in c.passes + c.exclude && !Recognised(x, listing, known)
    ensures r.Failure? ==>
      r.error == Raise("passes or exclude invalid: " + Join(Unrecognised(c.passes + c.exclude, listing, known), ", "))
  {
    var bad := Unrecognised(c.passes + c.exclude, listing, known);
    if |bad| > 0 then
      assert bad[0] in bad;
      Failure(Raise("passes or exclude invalid: " + Join(bad, ", ")))
    else
      Success(())
  }

  // ---------------------------------------------------------------- indentation

  const Psr2IndentMessage := "For PSR2, code MUST use 4 spaces for indenting, not tabs."

  /**
   * The indentation step. With `detect_indent` the detected indentation is
   * appended to the STORED flags (a bare flag when nothing was detected, the
   * width for spaces, nothing for tabs); otherwise PSR-2 demands exactly the
   * number 4, and `true` does not count.
   */
  function IndentStep(c: PHPFmtConfig, args: seq<string>, info: IndentInfo): (r: Result<seq<string>, FormatError>)
    ensures r.Failure? <==> !c.detectIndent && c.psr2 && c.indentWithSpace != IndentWidth(4)
    ensures r.Failure? ==> r.error == Raise(Psr2IndentMessage)
    ensures r.Success? && !c.detectIndent ==> r.value == args
    ensures r.Success? && c.detectIndent ==> |args| <= |r.value| <= |args| + 1 && r.value[..|args|] == args
    ensures c.detectIndent ==> (|r.value| == |args| <==> info.TabIndent?)
  {
    if c.detectIndent then
      match info
      case Undetermined => Success(args + [IndentFlagName])
      case SpaceIndent(n) => Success(args + [IndentWidthPrefix + NatToString(n)])
      case TabIndent => Success(args)
    else if c.indentWithSpace != IndentWidth(4) && c.psr2 then
      Failure(Raise(Psr2IndentMessage))
    else
      Success(args)
  }

  /** The flag a detection appends reads back as the indentation the text uses. */
  lemma DetectedFlagReads(c: PHPFmtConfig, args: seq<string>, info: IndentInfo)
    requires c.detectIndent && !info.TabIndent?
    ensures var added := IndentStep(c, args, info).value[|args|];
      Kind(added) == (if info.Undetermined? then IndentBare else IndentWidthText(NatToString(info.amount)))
  {
    LiteralKinds();
    if info.SpaceIndent? {
      PrefixedKinds(NatToString(info.amount));
    }
  }

  // ---------------------------------------------------------------- the configuration file

  /**
   * The `.php.tools.ini` in use: only with an active editor and an open
   * workspace, and only when the file found lies under one of the folders
   * (a path-prefix test).
   */
  function IniPath(editorFile: Option<string>, folders: Option<seq<string>>, found: Option<string>): (ini: Option<string>)
    ensures ini.Some? <==> (editorFile.Some? && folders.Some? && found.Some?
      && exists i :: 0 <= i < |folders.value| && StartsWith(found.value, folders.value[i]))
    ensures ini.Some? ==> ini == found
  {
    if editorFile.None? || folders.None? || found.None? then None
    else if exists i :: 0 <= i < |folders.value| && StartsWith(found.value, folders.value[i]) then found
    else None
  }

  // ---------------------------------------------------------------- the temporary file

  predicate IsLowerLetter(c: char) {
    'a' <= c <= 'z'
  }

  function LowerLetters(s: string): (r: string)
    ensures |r| <= |s|
    ensures forall i :: 0 <= i < |r| ==> IsLowerLetter(r[i])
    ensures (forall i :: 0 <= i < |s| ==> IsLowerLetter(s[i])) ==> r == s
  {
    if |s| == 0 then ""
    else (if IsLowerLetter(s[0]) then [s[0]] else "") + LowerLetters(s[1..])
  }

  /** `.replace(/[^a-z]+/g, '').substring(0, 10)` on the base-36 random number. */
  function RandomPart(random: string): (r: string)
    ensures |r| <= 10
    ensures forall i :: 0 <= i < |r| ==> IsLowerLetter(r[i])
    ensures |r| <= |LowerLetters(random)| && r == LowerLetters(random)[..|r|]
    ensures |r| < 10 ==> r == LowerLetters(random)
  {
    var letters := LowerLetters(random);
    if |letters| <= 10 then letters else letters[..10]
  }

  /** The path without its trailing slashes: `path.basename` ignores them. */
  function TrimSlashes(path: string): (t: string)
    ensures |t| <= |path| && path[..|t|] == t
    ensures forall i :: |t| <= i < |path| ==> path[i] == '/'
    ensures t == "" || t[|t| - 1] != '/'
  {
    if |path| == 0 || path[|path| - 1] != '/' then path
    else TrimSlashes(path[..|path| - 1])
  }

  /** The part of `path` after its last slash. */
  function LastSegment(path: string): (b: string)
    ensures '/' !in b
    ensures |b| <= |path| && path[|path| - |b|..] == b
    ensures b == path || path[|path| - |b| - 1] == '/'
  {
    if |path| == 0 then ""
    else if path[|path| - 1] == '/' then ""
    else
      var b := LastSegment(path[..|path| - 1]) + [path[|path| - 1]];
      assert path[..|path| - 1][|path| - 1 - (|b| - 1)..] + [path[|path| - 1]] == path[|path| - |b|..];
      b
  }

  /**
   * `path.basename` of a file name with POSIX separators: the last segment
   * once trailing slashes are dropped, so `a/b/` gives `b` and `/` gives
   * the empty name.
   */
  function Basename(path: string): (b: string)
    ensures '/' !in b
    ensures var t := TrimSlashes(path);
      |b| <= |t| && t[|t| - |b|..] == b && (b == t || t[|t| - |b| - 1] == '/')
    ensures b == "" <==> TrimSlashes(path) == ""
  {
    LastSegment(TrimSlashes(path))
  }

  /** A trailing slash does not change the base name. */
  lemma BasenameTrailingSlash(path: string)
    ensures Basename(path + "/") == Basename(path)
  {
    var p := path + "/";
    assert p[..|p| - 1] == path;
    assert TrimSlashes(p) == TrimSlashes(path);
  }

  /** No ignore entry before position `i` threw or matched. */
  predicate PassedBefore(basename: string, ignore: seq<string>, matches: (string, string) -> Option<bool>, i: nat)
    requires i <= |ignore|
  {
    forall k :: 0 <= k < i ==> matches(basename, ignore[k]) == Some(false)
  }

  lemma PassedShift(basename: string, ignore: seq<string>, matches: (string, string) -> Option<bool>, i: nat)
    requires 0 < |ignore| && i < |ignore|
    requires matches(basename, ignore[0]) == Some(false)
    requires PassedBefore(basename, ignore[1..], matches, i)
    ensures PassedBefore(basename, ignore, matches, i + 1)
  {
    forall k | 0 <= k < i + 1
      ensures matches(basename, ignore[k]) == Some(false)
    {
      if k > 0 {
        assert ignore[k] == ignore[1..][k - 1];
      }
    }
  }

  /**
   * The ignore list, entry by entry. `matches(basename, entry)` stands for
   * `basename.match(entry) != null`: `None` when `entry` is not a valid
   * regular expression, in which case the loop throws a SyntaxError.
   * The result is the first entry that matches (`Success(Some(entry))`),
   * no match at all (`Success(None)`), or the first entry that threw
   * (`Failure(entry)`), whichever comes first.
   */
  function IgnoredBy(basename: string, ignore: seq<string>, matches: (string, string) -> Option<bool>): (r: Result<Option<string>, string>)
    ensures r == Success(None) <==> PassedBefore(basename, ignore, matches, |ignore|)
    ensures r.Success? && r.value.Some? ==>
      exists i :: 0 <= i < |ignore| && ignore[i] == r.value.value
        && matches(basename, ignore[i]) == Some(true) && PassedBefore(basename, ignore, matches, i)
    ensures r.Failure? ==>
      exists i :: 0 <= i < |ignore| && ignore[i] == r.error
        && matches(basename, ignore[i]).None? && PassedBefore(basename, ignore, matches, i)
  {
    if |ignore| == 0 then Success(None)
    else match matches(basename, ignore[0])
      case None =>
        assert PassedBefore(basename, ignore, matches, 0);
        Failure(ignore[0])
      case Some(true) =>
        assert PassedBefore(basename, ignore, matches, 0);
        Success(Some(ignore[0]))
      case Some(false) =>
        var r := IgnoredBy(basename, ignore[1..], matches);
        PassedUnshift(basename, ignore, matches);
        if r == Success(None) then
          PassedShift(basename, ignore, matches, |ignore| - 1);
          r
        else if r.Success? then
          var i :| 0 <= i < |ignore[1..]| && ignore[1..][i] == r.value.value
            && matches(basename, ignore[1..][i]) == Some(true) && PassedBefore(basename, ignore[1..], matches, i);
          PassedShift(basename, ignore, matches, i);
          assert ignore[i + 1] == ignore[1..][i];
          r
        else
          var i :| 0 <= i < |ignore[1..]| && ignore[1..][i] == r.error
            && matches(basename, ignore[1..][i]).None? && PassedBefore(basename, ignore[1..], matches, i);
          PassedShift(basename, ignore, matches, i);
          assert ignore[i + 1] == ignore[1..][i];
          r
  }

  lemma PassedUnshift(basename: string, ignore: seq<string>, matches: (string, string) -> Option<bool>)
    requires 0 < |ignore|
    ensures PassedBefore(basename, ignore, matches, |ignore|) ==> PassedBefore(basename, ignore[1..], matches, |ignore| - 1)
  {
    if PassedBefore(basename, ignore, matches, |ignore|) {
      forall k | 0 <= k < |ignore| - 1
        ensures matches(basename, ignore[1..][k]) == Some(false)
      {
        assert ignore[1..][k] == ignore[k + 1];
      }
    }
  }

  /** What follows the random letters: `-<basename>` for a named file, `.php` for an untitled one. */
  function TempTail(basename: Option<string>): string {
    match basename
    case Some(b) => "-" + b
    case None => ".php"
  }

  /**
   * The temporary file: in the temporary directory, `temp-`, at most ten
   * random lower-case letters, then the tail, so a named file keeps its
   * own base name (and extension) at the end.
   */
  function TempName(tmpDir: string, random: string, basename: Option<string>): (name: string)
    ensures |name| >= |tmpDir + "/temp-"| + |TempTail(basename)|
    ensures name[..|tmpDir + "/temp-"|] == tmpDir + "/temp-"
    ensures name[|name| - |TempTail(basename)|..] == TempTail(basename)
    ensures var letters := name[|tmpDir + "/temp-"|..|name| - |TempTail(basename)|];
      |letters| <= 10 && forall i :: 0 <= i < |letters| ==> IsLowerLetter(letters[i])
  {
    var stem := tmpDir + "/temp-";
    var name := stem + RandomPart(random) + TempTail(basename);
    assert name == stem + (RandomPart(random) + TempTail(basename));
    assert name[|stem|..|name| - |TempTail(basename)|] == RandomPart(random);
    name
  }

  // ---------------------------------------------------------------- the command

  /**
   * The formatter command: the PHP binary, then the quoted phar, the stored
   * flags and the quoted temporary file; with a configuration file, the
   * binary, then only the quoted phar, the `--config=` option and the file.
   */
  function FormatCommand(phpBin: string, pharPath: string, args: seq<string>, tmpFile: string, ini: Option<string>): (cmd: string)
    ensures ini.None? || ini == Some("") ==>
      cmd == phpBin + " " + Join([Quote(pharPath)] + GetArgs(args, tmpFile), " ")
    ensures ini.Some? && ini.value != "" ==>
      cmd == phpBin + " " + Quote(pharPath) + " --config=" + ini.value + " " + Quote(tmpFile)
  {
    var full := [Quote(pharPath)] + GetArgs(args, tmpFile);
    if ini.None? || ini.value == "" then phpBin + " " + Join(full, " ")
    else
      assert full[0] == Quote(pharPath) && full[|full| - 1] == Quote(tmpFile);
      phpBin + " " + full[0] + " --config=" + ini.value + " " + full[|full| - 1]
  }

  /** With a configuration file the stored flags do not reach the command at all. */
  lemma IniOverridesFlags(phpBin: string, pharPath: string, a: seq<string>, b: seq<string>, tmpFile: string, ini: string)
    requires ini != ""
    ensures FormatCommand(phpBin, pharPath, a, tmpFile, Some(ini)) == FormatCommand(phpBin, pharPath, b, tmpFile, Some(ini))
  {
  }

  /** Without one, the command is the phar, every stored flag in order, and the file, space-separated. */
  lemma CommandCarriesFlags(phpBin: string, pharPath: string, args: seq<string>, tmpFile: string)
    ensures FormatCommand(phpBin, pharPath, args, tmpFile, None)
      == phpBin + " " + Quote(pharPath) + " " + Join(args + [Quote(tmpFile)], " ")
  {
    JoinCons(Quote(pharPath), args + [Quote(tmpFile)], " ");
    assert [Quote(pharPath)] + GetArgs(args, tmpFile) == [Quote(pharPath)] + (args + [Quote(tmpFile)]);
  }

  // ---------------------------------------------------------------- format

  /** `getPharPath`: phpfmt v1 with `use_old_phpfmt`, v2 otherwise. */
  function PharPath(c: PHPFmtConfig, env: Environment): (phar: string)
    ensures phar == env.pharPaths.0 || phar == env.pharPaths.1
    ensures env.pharPaths.0 != env.pharPaths.1 ==> (phar == env.pharPaths.0 <==> c.useOldPhpfmt)
  {
    if c.useOldPhpfmt then env.pharPaths.0 else env.pharPaths.1
  }

  /** The file-name part of the run, after the version check. */
  function RunFile(c: PHPFmtConfig, args: seq<string>, env: Environment, ini: Option<string>, tmpFile: string): (run: Run)
    ensures run.tempFile.Some? <==> env.writeOk
    ensures run.unlinked <==> run.result.Success?
    ensures run.result.Success? ==> Some(run.result.value) == env.readBack
    ensures run.args == args && run.probed && run.ignoredBy.None?
    ensures run.result.Failure? && run.result.error.PHPFmtError? ==> StartsWith(run.result.error.message, Prefix)
    ensures run.result.Success? <==> env.writeOk && env.lintOk && env.execOk && env.readBack.Some?
    ensures run.result == Failure(PHPFmtSkipError) <==> env.writeOk && !env.lintOk
    ensures !env.writeOk ==> run.result == Failure(Raise("Cannot create tmp file in \"" + env.tmpDir + "\""))
    ensures env.writeOk && env.lintOk && !env.execOk ==> run.result == Failure(Raise("Execute phpfmt failed"))
    ensures run.command.Some? <==> env.writeOk && env.lintOk
    ensures run.command.Some? ==> run.command.value == FormatCommand(c.phpBin, PharPath(c, env), args, tmpFile, ini)
    ensures run.tempFile.Some? ==> run.tempFile.value == tmpFile
  {
    if !env.writeOk then
      Run(Failure(Raise("Cannot create tmp file in \"" + env.tmpDir + "\"")), args, true, None, None, None, false)
    else if !env.lintOk then
      Run(Failure(PHPFmtSkipError), args, true, None, Some(tmpFile), None, false)
    else
      var cmd := FormatCommand(c.phpBin, PharPath(c, env), args, tmpFile, ini);
      if !env.execOk then
        Run(Failure(Raise("Execute phpfmt failed")), args, true, None, Some(tmpFile), Some(cmd), false)
      else match env.readBack
        case None => Run(Failure(ForeignError("readFile")), args, true, None, Some(tmpFile), Some(cmd), false)
        case Some(formatted) => Run(Success(formatted), args, true, None, Some(tmpFile), Some(cmd), true)
  }

  /** The basename `format` tests against the ignore list; none for an untitled editor. */
  function Subject(env: Environment): (name: Option<string>)
    ensures name.Some? <==> env.editorFile.Some? && env.editorFile.value != ""
  {
    if env.editorFile.Some? && env.editorFile.value != "" then Some(Basename(env.editorFile.value)) else None
  }

  /** The ignore test of `format`: a file without a name is never ignored. */
  function IgnoreCheck(ignore: seq<string>, env: Environment, matches: (string, string) -> Option<bool>): Result<Option<string>, string> {
    if Subject(env).Some? then IgnoredBy(Subject(env).value, ignore, matches) else Success(None)
  }

  /**
   * After the version check: the ignore list, then the temporary file. An
   * ignore entry that is not a valid regular expression throws before any
   * file is written, and `format` rejects with that foreign error.
   */
  function RunAfterProbe(c: PHPFmtConfig, args: seq<string>, env: Environment, matches: (string, string) -> Option<bool>): (run: Run)
    ensures run.args == args && run.probed
    ensures run.ignoredBy.Some? ==> run.result == Success("") && run.tempFile.None? && run.command.None?
    ensures run.unlinked <==> run.result.Success? && run.ignoredBy.None?
    ensures run.tempFile.Some? ==> run.ignoredBy.None?
    ensures run.result.Failure? && run.result.error.PHPFmtError? ==> StartsWith(run.result.error.message, Prefix)
    ensures (env.editorFile.Some? && env.editorFile.value != ""
      && IgnoredBy(Basename(env.editorFile.value), c.ignore, matches).Failure?) ==>
      run.result.Failure? && run.result.error.ForeignError? && run.tempFile.None? && run.command.None?
    ensures IgnoreCheck(c.ignore, env, matches).Failure? ==>
      run == Run(Failure(ForeignError("SyntaxError: " + IgnoreCheck(c.ignore, env, matches).error)), args, true, None, None, None, false)
    ensures IgnoreCheck(c.ignore, env, matches).Success? && IgnoreCheck(c.ignore, env, matches).value.Some? ==>
      run == Run(Success(""), args, true, IgnoreCheck(c.ignore, env, matches).value, None, None, false)
    ensures run.ignoredBy.Some? ==> IgnoreCheck(c.ignore, env, matches) == Success(run.ignoredBy)
    ensures IgnoreCheck(c.ignore, env, matches) == Success(None) ==>
      run == RunFile(c, args, env, IniPath(env.editorFile, env.workspaceFolders, env.foundIni), TempName(env.tmpDir, env.random, Subject(env)))
  {
    var ini := IniPath(env.editorFile, env.workspaceFolders, env.foundIni);
    if env.editorFile.Some? && env.editorFile.value != "" then
      var basename := Basename(env.editorFile.value);
      match IgnoredBy(basename, c.ignore, matches)
      case Failure(entry) => Run(Failure(ForeignError("SyntaxError: " + entry)), args, true, None, None, None, false)
      case Success(Some(entry)) => Run(Success(""), args, true, Some(entry), None, None, false)
      case Success(None) => RunFile(c, args, env, ini, TempName(env.tmpDir, env.random, Some(basename)))
    else
      RunFile(c, args, env, ini, TempName(env.tmpDir, env.random, None))
  }

  /**
   * One call of `format` on the formatter object `st`. `run.args` is what
   * the object stores afterwards.
   */
  function Format(st: PHPFmt, env: Environment, matches: (string, string) -> Option<bool>): (run: Run)
    ensures Validate(st.config, env.listing, env.knownPasses).Failure? ==>
      run.result == Failure(Validate(st.config, env.listing, env.knownPasses).error) && run.args == st.args && !run.probed
    ensures run.probed ==> IndentStep(st.config, st.args, env.indent).Success? && run.args == IndentStep(st.config, st.args, env.indent).value
    ensures !run.probed ==> run.args == st.args && run.result.Failure? && run.tempFile.None?
    ensures run.result.Failure? && run.result.error.PHPFmtError? ==> StartsWith(run.result.error.message, Prefix)
    ensures run.unlinked <==> run.result.Success? && run.ignoredBy.None?
    ensures run.tempFile.Some? ==> run.probed && run.ignoredBy.None?
    ensures (Validate(st.config, env.listing, env.knownPasses).Success?
      && IndentStep(st.config, st.args, env.indent).Failure?) ==>
      run.result == Failure(IndentStep(st.config, st.args, env.indent).error) && !run.probed
    ensures run.probed ==> Validate(st.config, env.listing, env.knownPasses).Success?
    ensures (run.probed && ProbeVersion(env.probe, st.config.useOldPhpfmt).Failure?) ==>
      run.result == Failure(Raise(ProbeVersion(env.probe, st.config.useOldPhpfmt).error))
      && run.tempFile.None? && run.command.None? && run.ignoredBy.None?
    ensures (run.probed && ProbeVersion(env.probe, st.config.useOldPhpfmt).Success?) ==>
      run == RunAfterProbe(st.config, run.args, env, matches)
    ensures run.tempFile.Some? || run.ignoredBy.Some? ==> ProbeVersion(env.probe, st.config.useOldPhpfmt).Success?
    ensures run.ignoredBy.Some? ==> IgnoreCheck(st.config.ignore, env, matches) == Success(run.ignoredBy)
  {
    match Validate(st.config, env.listing, env.knownPasses)
    case Failure(e) => Run(Failure(e), st.args, false, None, None, None, false)
    case Success(_) =>
      match IndentStep(st.config, st.args, env.indent)
      case Failure(e) => Run(Failure(e), st.args, false, None, None, None, false)
      case Success(args) =>
        match ProbeVersion(env.probe, st.config.useOldPhpfmt)
        case Failure(message) => Run(Failure(Raise(message)), args, true, None, None, None, false)
        case Success(_) => RunAfterProbe(st.config, args, env, matches)
  }

  /** The state after a call: the stored flags may have grown. */
  function After(st: PHPFmt, env: Environment, matches: (string, string) -> Option<bool>): PHPFmt {
    PHPFmt(st.config, Format(st, env, matches).args)
  }

  // ---------------------------------------------------------------- properties of format

  /** A PSR-2 conflict is reported before PHP is ever probed, and nothing is written. */
  lemma Psr2BeforeProbe(st: PHPFmt, env: Environment, matches: (string, string) -> Option<bool>)
    requires Validate(st.config, env.listing, env.knownPasses).Success?
    requires !st.config.detectIndent && st.config.psr2 && st.config.indentWithSpace != IndentWidth(4)
    ensures var run := Format(st, env, matches);
      run.result == Failure(Raise(Psr2IndentMessage)) && !run.probed && run.tempFile.None?
  {
  }

  /**
   * A named file whose basename an ignore entry matches, once the settings,
   * the indentation and the PHP version have passed, comes back as the empty
   * text with no temporary file and no formatter run.
   */
  lemma IgnoredFile(st: PHPFmt, env: Environment, matches: (string, string) -> Option<bool>, entry: string)
    requires Validate(st.config, env.listing, env.knownPasses).Success?
    requires IndentStep(st.config, st.args, env.indent).Success?
    requires ProbeVersion(env.probe, st.config.useOldPhpfmt).Success?
    requires env.editorFile.Some? && env.editorFile.value != ""
    requires IgnoredBy(Basename(env.editorFile.value), st.config.ignore, matches) == Success(Some(entry))
    ensures var run := Format(st, env, matches);
      run.ignoredBy == Some(entry) && run.result == Success("") && run.tempFile.None? && run.command.None?
      && entry in st.config.ignore
  {
    var args := IndentStep(st.config, st.args, env.indent).value;
    assert Format(st, env, matches) == RunAfterProbe(st.config, args, env, matches);
  }

  /**
   * Conversely, a file is reported as ignored only when every earlier step
   * passed and an entry of the list matches its basename.
   */
  lemma OnlyListedIgnored(st: PHPFmt, env: Environment, matches: (string, string) -> Option<bool>)
    requires Format(st, env, matches).ignoredBy.Some?
    ensures Validate(st.config, env.listing, env.knownPasses).Success?
    ensures IndentStep(st.config, st.args, env.indent).Success?
    ensures ProbeVersion(env.probe, st.config.useOldPhpfmt).Success?
    ensures env.editorFile.Some? && env.editorFile.value != ""
    ensures IgnoredBy(Basename(env.editorFile.value), st.config.ignore, matches) == Success(Format(st, env, matches).ignoredBy)
  {
  }

  /**
   * For the usual `php -v` banner, the version gates formatting: a version
   * outside the window fails with nothing written and nothing run, and one
   * inside it goes on to the ignore list and the temporary file.
   */
  lemma BannerGatesFormat(st: PHPFmt, env: Environment, matches: (string, string) -> Option<bool>, v: seq<nat>, rest: string)
    requires Validate(st.config, env.listing, env.knownPasses).Success?
    requires IndentStep(st.config, st.args, env.indent).Success?
    requires 1 <= |v| <= 4 && (|rest| > 0 ==> !IsVersionChar(rest[0]))
    requires env.probe == ProbeExited(0, "PHP " + RenderVersion(v) + rest)
    ensures var run := Format(st, env, matches);
      !InWindow(v, st.config.useOldPhpfmt) ==> run.result.Failure? && run.tempFile.None? && run.command.None?
    ensures InWindow(v, st.config.useOldPhpfmt) ==>
      Format(st, env, matches) == RunAfterProbe(st.config, IndentStep(st.config, st.args, env.indent).value, env, matches)
  {
    ProbeBanner(v, rest, st.config.useOldPhpfmt);
  }

  /**
   * A temporary file that was written is removed only when formatting
   * succeeded: after a lint, command or read failure it stays behind.
   */
  lemma TempFileKeptOnFailure(st: PHPFmt, env: Environment, matches: (string, string) -> Option<bool>)
    requires Format(st, env, matches).tempFile.Some?
    ensures var run := Format(st, env, matches);
      run.unlinked <==> run.result.Success?
  {
  }

  /** A successful format of a file that is not ignored returns what was read back from the temporary file. */
  lemma FormattedIsReadBack(st: PHPFmt, env: Environment, matches: (string, string) -> Option<bool>)
    requires Format(st, env, matches).result.Success? && Format(st, env, matches).ignoredBy.None?
    ensures Some(Format(st, env, matches).result.value) == env.readBack
    ensures Format(st, env, matches).command.Some?
  {
    var args := IndentStep(st.config, st.args, env.indent).value;
    var ini := IniPath(env.editorFile, env.workspaceFolders, env.foundIni);
    assert Format(st, env, matches) == RunAfterProbe(st.config, args, env, matches);
  }

  /**
   * With `detect_indent`, every format that gets past the version check and
   * finds no indentation appends one more bare indent flag to the stored
   * flags; only `loadSettings` clears them.
   */
  lemma DetectAccumulates(st: PHPFmt, env: Environment, matches: (string, string) -> Option<bool>)
    requires st.config.detectIndent && env.indent.Undetermined?
    requires Format(st, env, matches).probed
    ensures After(st, env, matches).args == st.args + [IndentFlagName]
    ensures After(After(st, env, matches), env, matches).args == st.args + [IndentFlagName, IndentFlagName]
  {
    var st1 := After(st, env, matches);
    assert Validate(st1.config, env.listing, env.knownPasses) == Validate(st.config, env.listing, env.knownPasses);
    assert ProbeVersion(env.probe, st1.config.useOldPhpfmt) == ProbeVersion(env.probe, st.config.useOldPhpfmt);
    assert Format(st1, env, matches).probed;
  }

  /** Reloading the settings drops whatever earlier formats appended. */
  lemma LoadForgets(st: PHPFmt, env: Environment, matches: (string, string) -> Option<bool>)
    ensures Load(After(st, env, matches).config).args == LoadSettings(st.config)
  {
  }
}

=== FILE: provider.dfy ===
/**
 * The commands and edit providers of src/PHPFmtProvider.ts: the quick-pick
 * toggles that rewrite settings, and the document and range formatting
 * providers that turn a `format` outcome into edits and a status. The user's
 * quick-pick answers and the formatter are inputs.
 */
module Provider {
  import opened Strings
  import opened Wrappers
  import opened Config
  import opened Catalog
  import opened Errors
  import opened Pipeline
  import Widget
  import opened Versions

  // ---------------------------------------------------------------- quick picks

  datatype PickItem = PickItem(text: string, description: string)

  const AllLabel := "All"

  /** `getTransformationItems`: one item per listed pass, the key as the label. */
  function Items(listing: seq<TransformationItem>): (items: seq<PickItem>)
    ensures |items| == |listing|
    ensures forall i :: 0 <= i < |listing| ==> items[i] == PickItem(listing[i].key, listing[i].description)
  {
    seq(|listing|, i requires 0 <= i < |listing| => PickItem(listing[i].key, listing[i].description))
  }

  /** The toggle commands put an "All" item in front of the passes. */
  function WithAll(listing: seq<TransformationItem>): seq<PickItem> {
    [PickItem(AllLabel, "Choose all of following")] + Items(listing)
  }

  function Labels(items: seq<PickItem>): (labels: seq<string>)
    ensures |labels| == |items|
    ensures forall i :: 0 <= i < |items| ==> labels[i] == items[i].text
  {
    seq(|items|, i requires 0 <= i < |items| => items[i].text)
  }

  /** The labels that are not "All", in order. */
  function OtherLabels(items: seq<PickItem>): (labels: seq<string>)
    ensures forall x :: x in labels <==> x != AllLabel && x in Labels(items)
  {
    if |items| == 0 then []
    else
      var rest := OtherLabels(items[1..]);
      assert Labels(items) == [items[0].text] + Labels(items[1..]);
      if items[0].text != AllLabel then [items[0].text] + rest else rest
  }

  /** Choosing "All" selects every listed pass, and nothing but listed passes. */
  lemma ChooseAllIsListing(listing: seq<TransformationItem>)
    requires AllLabel !in Keys(listing)
    ensures OtherLabels(WithAll(listing)) == Keys(listing)
  {
    assert WithAll(listing)[1..] == Items(listing);
    KeysAreLabels(listing);
  }

  lemma {:induction false} KeysAreLabels(listing: seq<TransformationItem>)
    requires AllLabel !in Keys(listing)
    ensures OtherLabels(Items(listing)) == Keys(listing)
  {
    if |listing| > 0 {
      assert Items(listing)[1..] == Items(listing[1..]);
      assert Keys(listing) == [listing[0].key] + Keys(listing[1..]);
      KeysAreLabels(listing[1..]);
    }
  }

  /** The Enable/Disable prompt marks the current state. */
  function StatePrompt(on: bool): (items: seq<PickItem>)
    ensures |items| == 2 && items[0].text == "Enable" && items[1].text == "Disable"
    ensures (items[0].description == "Current") <==> on
    ensures (items[1].description == "Current") <==> !on
  {
    [PickItem("Enable", if on then "Current" else ""), PickItem("Disable", if !on then "Current" else "")]
  }

  /** A settings write, or none when the user dismissed the prompt. */
  datatype Update<T> = NoUpdate | UpdateTo(value: T)

  /** Where `showUpdateConfigQuickPick` writes: Global only when picked, Workspace otherwise, even when dismissed. */
  datatype Target = Global | Workspace

  function TargetOf(pick: Option<string>): (t: Target)
    ensures t == Global <==> pick == Some("Global")
  {
    if pick == Some("Global") then Global else Workspace
  }

  /** `value.filter(v => v !== result.label)`. */
  function Without(value: seq<string>, name: string): (r: seq<string>)
    ensures name !in r
    ensures forall x :: x != name ==> (x in r <==> x in value)
    ensures name !in value ==> r == value
  {
    if |value| == 0 then []
    else
      var rest := Without(value[1..], name);
      assert forall x :: x in value <==> x == value[0] || x in value[1..];
      if value[0] == name then rest
      else
        assert value == [value[0]] + value[1..];
        [value[0]] + rest
  }

  /**
   * The pass-list toggle (`passes` or `exclude`). `current` is the setting
   * (`undefined` is `None`), `pick` the chosen item's label and `decision`
   * the Enable/Disable answer. Dismissing the first prompt writes nothing;
   * otherwise the setting is written, possibly unchanged.
   */
  function ToggleList(listing: seq<TransformationItem>, current: Option<seq<string>>, pick: Option<string>, decision: Option<string>): (u: Update<Option<seq<string>>>)
    ensures pick.None? <==> u.NoUpdate?
    ensures pick == Some(AllLabel) ==> u == UpdateTo(Some(OtherLabels(WithAll(listing))))
    ensures pick.Some? && pick.value != AllLabel && current.None? ==> u == UpdateTo(None)
    ensures pick.Some? && pick.value != AllLabel && current.Some? && decision == Some("Enable") ==>
      u.UpdateTo? && u.value.Some? && pick.value in u.value.value
      && forall x :: x != pick.value ==> (x in u.value.value <==> x in current.value)
    ensures pick.Some? && pick.value != AllLabel && current.Some? && decision == Some("Enable") && pick.value !in current.value ==>
      u == UpdateTo(Some(current.value + [pick.value]))
    ensures pick.Some? && pick.value != AllLabel && current.Some? && decision == Some("Enable") && pick.value in current.value ==>
      u == UpdateTo(current)
    ensures pick.Some? && pick.value != AllLabel && current.Some? && decision == Some("Disable") && pick.value !in current.value ==>
      u == UpdateTo(current)
    ensures pick.Some? && pick.value != AllLabel && current.Some? && decision == Some("Disable") ==>
      u.UpdateTo? && u.value.Some? && pick.value !in u.value.value
      && forall x :: x != pick.value ==> (x in u.value.value <==> x in current.value)
    ensures pick.Some? && pick.value != AllLabel && decision != Some("Enable") && decision != Some("Disable") ==>
      u == UpdateTo(current)
  {
    match pick
    case None => NoUpdate
    case Some(name) =>
      if name == AllLabel then UpdateTo(Some(OtherLabels(WithAll(listing))))
      else
        var enabled := current.Some? && name in current.value;
        if decision == Some("Enable") && !enabled then
          UpdateTo(if current.Some? then Some(current.value + [name]) else None)
        else if decision == Some("Disable") && enabled then
          UpdateTo(Some(Without(current.value, name)))
        else
          UpdateTo(current)
  }

  /** Enabling a pass that was off and then disabling it restores the setting. */
  lemma EnableThenDisable(listing: seq<TransformationItem>, current: seq<string>, name: string)
    requires name != AllLabel && name !in current
    ensures var on := ToggleList(listing, Some(current), Some(name), Some("Enable"));
      on.UpdateTo? && on.value.Some?
      && ToggleList(listing, on.value, Some(name), Some("Disable")) == UpdateTo(Some(current))
  {
    var grown := current + [name];
    assert Without(grown, name) == current by {
      WithoutAppended(current, name);
    }
  }

  lemma {:induction false} WithoutAppended(value: seq<string>, name: string)
    requires name !in value
    ensures Without(value + [name], name) == value
  {
    if |value| > 0 {
      assert (value + [name])[1..] == value[1..] + [name];
      WithoutAppended(value[1..], name);
    } else {
      assert [name][1..] == [];
    }
  }

  /** Enabling is idempotent: a second Enable of the same pass writes the setting unchanged. */
  lemma EnableIdempotent(listing: seq<TransformationItem>, current: seq<string>, name: string)
    requires name != AllLabel
    ensures var once := ToggleList(listing, Some(current), Some(name), Some("Enable"));
      once.UpdateTo? && ToggleList(listing, once.value, Some(name), Some("Enable")) == once
  {
  }

  /** The boolean toggles write `true` exactly for "Enable". */
  function ToggleBoolean(decision: Option<string>): (u: Update<bool>)
    ensures decision.None? <==> u.NoUpdate?
    ensures u.UpdateTo? ==> (u.value <==> decision == Some("Enable"))
  {
    match decision
    case None => NoUpdate
    case Some(name) => UpdateTo(name == "Enable")
  }

  const IndentChoices: seq<string> := ["tabs", "2", "4", "6", "8"]

  /** The indentation toggle: `tabs` writes `false`, a number writes that number. */
  function ToggleIndent(pick: Option<string>): (u: Update<IndentSetting>)
    requires pick.Some? ==> pick.value in IndentChoices
    ensures pick.None? <==> u.NoUpdate?
    ensures pick == Some("tabs") ==> u == UpdateTo(IndentFlag(false))
    ensures pick.Some? && pick.value != "tabs" ==>
      u.UpdateTo? && u.value.IndentWidth? && u.value.width >= 0 && NatToString(u.value.width) == pick.value
  {
    match pick
    case None => NoUpdate
    case Some(choice) =>
      if choice == "tabs" then UpdateTo(IndentFlag(false))
      else UpdateTo(IndentWidth(DigitValue(choice[0])))
  }

  /**
   * Of the indentation choices, only "4" satisfies PSR-2: with `psr2` on and
   * no detection, every other choice makes the next format fail.
   */
  lemma IndentChoiceUnderPsr2(c: PHPFmtConfig, choice: string, args: seq<string>, info: IndentInfo)
    requires choice in IndentChoices
    requires c.psr2 && !c.detectIndent
    ensures var c2 := c.(indentWithSpace := ToggleIndent(Some(choice)).value);
      IndentStep(c2, args, info).Failure? <==> choice != "4"
  {
  }

  // ---------------------------------------------------------------- formatting providers

  /** What a provider call returns and does: its edits, the status it sets, and the error it shows and logs. */
  datatype Response = Response(edits: seq<string>, status: Option<Widget.Status>, shown: Option<string>)

  /** The message of a thrown error, as `err.message` reads it. */
  function Message(e: FormatError): string {
    match e
    case PHPFmtError(m) => m
    case PHPFmtSkipError => Prefix + "PHPFmtSkipError"
    case ForeignError(what) => what
  }

  /** The shared catch block: Error status, and the message unless formatting was skipped. */
  function Failed(e: FormatError): (r: Response)
    ensures r.edits == [] && r.status == Some(Widget.Error)
    ensures r.shown.None? <==> e.PHPFmtSkipError?
  {
    Response([], Some(Widget.Error), if e.PHPFmtSkipError? then None else Some(Message(e)))
  }

  /** The document provider: one edit with the formatted text when it is non-empty and differs. */
  function DocumentFormat(original: string, outcome: Result<string, FormatError>): (r: Response)
    ensures |r.edits| <= 1
    ensures |r.edits| == 1 <==> outcome.Success? && outcome.value != "" && outcome.value != original
    ensures |r.edits| == 1 ==> r.edits[0] == outcome.value
    ensures outcome.Success? ==> r.status == Some(Widget.Success) && r.shown.None?
    ensures outcome.Failure? ==> r == Failed(outcome.error)
  {
    match outcome
    case Failure(e) => Failed(e)
    case Success(text) =>
      Response(if text != "" && text != original then [text] else [], Some(Widget.Success), None)
  }

  /**
   * A file the ignore list matches, once the earlier steps have passed, has
   * its Ignore status replaced by Success at once, and no edit is made.
   */
  lemma IgnoredShowsSuccess(st: PHPFmt, env: Environment, matches: (string, string) -> Option<bool>, entry: string, original: string)
    requires Validate(st.config, env.listing, env.knownPasses).Success?
    requires IndentStep(st.config, st.args, env.indent).Success?
    requires ProbeVersion(env.probe, st.config.useOldPhpfmt).Success?
    requires env.editorFile.Some? && env.editorFile.value != ""
    requires IgnoredBy(Basename(env.editorFile.value), st.config.ignore, matches) == Success(Some(entry))
    ensures DocumentFormat(original, Format(st, env, matches).result) == Response([], Some(Widget.Success), None)
  {
    IgnoredFile(st, env, matches, entry);
  }

  const OpenTag := "<?php"
  const Wrapper := "<?php\n"

  /** `/^\s*<\?php/i`: the text opens with a PHP tag, in any letter case, after white space. */
  predicate OpensWithTag(s: string) {
    StartsWithNoCase(s[LeadingSpaces(s)..], "<?php")
  }

  /** `text.replace(/^<\?php\r?\n/, '')`: the tag line the range provider added, exactly as written. */
  function Unwrap(t: string): (r: string)
    ensures StartsWith(t, Wrapper) ==> t == Wrapper + r
    ensures StartsWith(t, "<?php\r\n") ==> t == "<?php\r\n" + r
    ensures !StartsWith(t, Wrapper) && !StartsWith(t, "<?php\r\n") ==> r == t
  {
    if StartsWith(t, Wrapper) then
      assert t == t[..6] + t[6..];
      assert t[5] == Wrapper[5];
      t[6..]
    else if StartsWith(t, "<?php\r\n") then
      assert t == t[..7] + t[7..];
      t[7..]
    else t
  }

  lemma UnwrapWrap(s: string)
    ensures Unwrap(Wrapper + s) == s
  {
    assert (Wrapper + s)[..|Wrapper|] == Wrapper;
    assert (Wrapper + s)[6..] == s;
  }

  /** The text the range provider hands to `format`, and whether it added the tag line. */
  function RangeInput(original: string): (r: (string, bool))
    ensures r.1 <==> !OpensWithTag(original)
    ensures r.0 == (if r.1 then Wrapper + original else original)
  {
    if !OpensWithTag(original) then (Wrapper + original, true) else (original, false)
  }

  /**
   * The range provider as written: a blank range is left alone before any
   * status change; a range without a PHP tag is formatted with one added and
   * removed again; and the edit test compares the result with the text
   * handed to the formatter, that is with the tag line still on it.
   */
  function RangeFormatAsWritten(original: string, format: string -> Result<string, FormatError>): (r: Response)
    ensures IsBlank(original) ==> r == Response([], None, None)
    ensures !IsBlank(original) ==> r.status.Some?
    ensures |r.edits| <= 1
    ensures !IsBlank(original) ==>
      var (input, wrapped) := RangeInput(original);
      var outcome := Unwrapped(format(input), wrapped);
      (outcome.Failure? ==> r == Failed(outcome.error))
      && (outcome.Success? ==>
            r.status == Some(Widget.Success) && r.shown.None?
            && (|r.edits| == 1 <==> outcome.value != "" && outcome.value != input)
            && (|r.edits| == 1 ==> r.edits[0] == outcome.value))
  {
    if IsBlank(original) then Response([], None, None)
    else
      var (input, wrapped) := RangeInput(original);
      match format(input)
      case Failure(e) => Failed(e)
      case Success(t) =>
        var text := if wrapped then Unwrap(t) else t;
        Response(if text != "" && text != input then [text] else [], Some(Widget.Success), None)
  }

  /** A formatter that changes nothing. */
  function Unchanged(s: string): Result<string, FormatError> {
    Success(s)
  }

  /**
   * With a formatter that changes nothing, a range without a PHP tag still
   * gets an edit: the unwrapped text is compared with the wrapped one.
   */
  lemma RangeNoOpEditAsWritten()
    ensures RangeFormatAsWritten("$a = 1;", Unchanged) == Response(["$a = 1;"], Some(Widget.Success), None)
  {
    var original := "$a = 1;";
    assert original[LeadingSpaces(original)..] == original;
    assert !StartsWithNoCase(original, "<?php") by {
      assert AsciiLower(original[0]) != "<?php"[0];
    }
    UnwrapWrap(original);
  }

  /**
   * The range provider with the edit test made against the selected text
   * itself, as the document provider does it.
   */
  function RangeFormat(original: string, format: string -> Result<string, FormatError>): (r: Response)
    ensures IsBlank(original) ==> r == Response([], None, None)
    ensures !IsBlank(original) ==> r.status.Some?
    ensures |r.edits| <= 1
    ensures |r.edits| == 1 ==> r.edits[0] != "" && r.edits[0] != original
    ensures !IsBlank(original) ==>
      r == DocumentFormat(original, Unwrapped(format(RangeInput(original).0), RangeInput(original).1))
  {
    if IsBlank(original) then Response([], None, None)
    else
      var (input, wrapped) := RangeInput(original);
      DocumentFormat(original, Unwrapped(format(input), wrapped))
  }

  function Unwrapped(outcome: Result<string, FormatError>, wrapped: bool): Result<string, FormatError> {
    match outcome
    case Failure(e) => Failure(e)
    case Success(t) => Success(if wrapped then Unwrap(t) else t)
  }

  /**
   * The two edit tests differ only when the tag line was added: for a blank
   * range or one that already opens with a PHP tag, the provider as written
   * and the corrected one give the same response.
   */
  lemma RangeAgreesWhenTagged(original: string, format: string -> Result<string, FormatError>)
    requires IsBlank(original) || OpensWithTag(original)
    ensures RangeFormatAsWritten(original, format) == RangeFormat(original, format)
  {
  }

  /** A formatter that changes nothing yields no range edit at all. */
  lemma RangeUnchangedNoEdit(original: string)
    ensures RangeFormat(original, Unchanged).edits == []
  {
    if !IsBlank(original) && !OpensWithTag(original) {
      UnwrapWrap(original);
    }
  }
}

=== FILE: roundtrip.dfy ===
/**
 * Proofs that reading back the flags `LoadSettings` builds gives exactly the
 * settings they came from.
 */
module FlagRoundTrip {
  import opened Strings
  import opened Wrappers
  import opened Config
  import opened Flags
  import opened FlagDecoding

  lemma {:induction false} DecodeRendered(ks: seq<FlagKind>)
    requires forall i :: 0 <= i < |ks| ==> !ks[i].Other?
    ensures DecodeFlags(RenderAll(ks)) == ReadKinds(NoSwitches, ks)
  {
    if |ks| > 0 {
      var last := |ks| - 1;
      DecodeRendered(ks[..last]);
      assert RenderAll(ks)[..last] == RenderAll(ks[..last]);
      KindRender(ks[last]);
    }
  }

  lemma {:induction false} ReadKindsAppend(sw: Switches, a: seq<FlagKind>, b: seq<FlagKind>)
    ensures ReadKinds(sw, a + b) == ReadKinds(ReadKinds(sw, a), b)
    decreases |b|
  {
    if |b| == 0 {
      assert a + b == a;
    } else {
      ReadKindsAppend(sw, a, b[..|b| - 1]);
      assert (a + b)[..|a + b| - 1] == a + b[..|b| - 1];
    }
  }

  lemma {:induction false} PresentSnoc(slots: seq<Push>)
    requires |slots| > 0
    ensures Present(slots) == Present(slots[..|slots| - 1])
      + (if slots[|slots| - 1].on then [slots[|slots| - 1].kind] else [])
  {
    if |slots| > 1 {
      PresentSnoc(slots[1..]);
      assert slots[1..][..|slots[1..]| - 1] == slots[..|slots| - 1][1..];
    }
  }

  lemma {:induction false} ReadPresent(sw: Switches, slots: seq<Push>)
    ensures ReadKinds(sw, Present(slots)) == ReadSlots(sw, slots)
  {
    if |slots| > 0 {
      var init := slots[..|slots| - 1];
      ReadPresent(sw, init);
      PresentSnoc(slots);
      var tail := if slots[|slots| - 1].on then [slots[|slots| - 1].kind] else [];
      ReadKindsAppend(sw, Present(init), tail);
      if tail != [] {
        assert tail[..0] == [];
      }
    }
  }

  lemma ReadWidth(sw: Switches, n: int)
    requires n > 0
    ensures ReadKind(sw, IndentWidthText(IntToString(n))) == sw.(indent := IndentOf(n))
  {
    ParseNatToString(n);
  }

  /** Splitting the comma-joined names gives the names back when none holds a comma. */
  lemma SplitNames(names: seq<string>)
    requires NoComma(names) && |names| > 0
    ensures Split(Join(names, ","), ',') == names
  {
    SplitJoin(names, ',');
  }

  lemma ReadIndentFlag(c: PHPFmtConfig)
    requires c.indentWithSpace.IndentFlag?
    ensures ReadSlot(Partial(c, 4), IndentSlot(c)) == Partial(c, 5)
  {
  }

  lemma ReadNoWidth(c: PHPFmtConfig)
    requires c.indentWithSpace.IndentWidth? && (c.detectIndent || c.indentWithSpace.width <= 0)
    ensures ReadSlot(Partial(c, 4), IndentSlot(c)) == Partial(c, 5)
  {
  }

  lemma ReadIndentWidth(c: PHPFmtConfig)
    requires c.indentWithSpace.IndentWidth? && !c.detectIndent && c.indentWithSpace.width > 0
    ensures ReadSlot(Partial(c, 4), IndentSlot(c)) == Partial(c, 5)
  {
    ReadWidth(Partial(c, 4), c.indentWithSpace.width);
  }

  lemma StepIndent(c: PHPFmtConfig)
    ensures ReadSlot(Partial(c, 4), Slots(c)[4]) == Partial(c, 5)
  {
    assert Slots(c)[4] == IndentSlot(c);
    if c.indentWithSpace.IndentFlag? {
      ReadIndentFlag(c);
    } else if c.detectIndent || c.indentWithSpace.width <= 0 {
      ReadNoWidth(c);
    } else {
      ReadIndentWidth(c);
    }
  }

  lemma StepPasses(c: PHPFmtConfig)
    requires NoComma(c.passes)
    ensures ReadSlot(Partial(c, 7), Slots(c)[7]) == Partial(c, 8)
  {
    if |c.passes| > 0 {
      SplitNames(c.passes);
    }
  }

  lemma StepExclude(c: PHPFmtConfig)
    requires NoComma(c.exclude)
    ensures ReadSlot(Partial(c, 8), Slots(c)[8]) == Partial(c, 9)
  {
    if |c.exclude| > 0 {
      SplitNames(c.exclude);
    }
  }

  /** A boolean switch: its position holds its flag iff the setting is on. */
  lemma StepSwitch(c: PHPFmtConfig, i: nat, on: bool, k: FlagKind)
    requires i < 12
    requires Slots(c)[i] == Push(on, k)
    requires on ==> ReadKind(Partial(c, i), k) == Partial(c, i + 1)
    requires !on ==> Partial(c, i) == Partial(c, i + 1)
    ensures ReadSlot(Partial(c, i), Slots(c)[i]) == Partial(c, i + 1)
  {
  }

  lemma StepPsr1(c: PHPFmtConfig)
    ensures ReadSlot(Partial(c, 0), Slots(c)[0]) == Partial(c, 1)
  {
    StepSwitch(c, 0, c.psr1, Psr1);
  }

  lemma StepPsr1Naming(c: PHPFmtConfig)
    ensures ReadSlot(Partial(c, 1), Slots(c)[1]) == Partial(c, 2)
  {
    StepSwitch(c, 1, c.psr1Naming, Psr1Naming);
  }

  lemma StepPsr2(c: PHPFmtConfig)
    ensures ReadSlot(Partial(c, 2), Slots(c)[2]) == Partial(c, 3)
  {
    StepSwitch(c, 2, c.psr2, Psr2);
  }

  lemma StepWp(c: PHPFmtConfig)
    ensures ReadSlot(Partial(c, 3), Slots(c)[3]) == Partial(c, 4)
  {
    StepSwitch(c, 3, c.wp, Wp);
  }

  lemma StepAutoAlign(c: PHPFmtConfig)
    ensures ReadSlot(Partial(c, 5), Slots(c)[5]) == Partial(c, 6)
  {
    StepSwitch(c, 5, c.enableAutoAlign, AutoAlign);
  }

  lemma StepVisibilityOrder(c: PHPFmtConfig)
    ensures ReadSlot(Partial(c, 6), Slots(c)[6]) == Partial(c, 7)
  {
    StepSwitch(c, 6, c.visibilityOrder, VisibilityOrder);
  }

  lemma StepSmartLinebreak(c: PHPFmtConfig)
    ensures ReadSlot(Partial(c, 9), Slots(c)[9]) == Partial(c, 10)
  {
    StepSwitch(c, 9, c.smartLinebreakAfterCurly, SmartLinebreak);
  }

  lemma StepYoda(c: PHPFmtConfig)
    ensures ReadSlot(Partial(c, 10), Slots(c)[10]) == Partial(c, 11)
  {
    StepSwitch(c, 10, c.yoda, Yoda);
  }

  lemma StepCakephp(c: PHPFmtConfig)
    ensures ReadSlot(Partial(c, 11), Slots(c)[11]) == Partial(c, 12)
  {
    StepSwitch(c, 11, c.cakephp, Cakephp);
  }

  lemma StepsAt0(c: PHPFmtConfig, i: nat)
    requires i == 0 || i == 1
    ensures ReadSlot(Partial(c, i), Slots(c)[i]) == Partial(c, i + 1)
  {
    if i == 0 {
      StepPsr1(c);
    } else {
      StepPsr1Naming(c);
    }
  }

  lemma StepsAt2(c: PHPFmtConfig, i: nat)
    requires i == 2 || i == 3
    ensures ReadSlot(Partial(c, i), Slots(c)[i]) == Partial(c, i + 1)
  {
    if i == 2 {
      StepPsr2(c);
    } else {
      StepWp(c);
    }
  }

  lemma StepsAt4(c: PHPFmtConfig, i: nat)
    requires i == 4 || i == 5
    ensures ReadSlot(Partial(c, i), Slots(c)[i]) == Partial(c, i + 1)
  {
    if i == 4 {
      StepIndent(c);
    } else {
      StepAutoAlign(c);
    }
  }

  lemma StepsAt6(c: PHPFmtConfig, i: nat)
    requires i == 6 || i == 7
    requires NoComma(c.passes) && NoComma(c.exclude)
    ensures ReadSlot(Partial(c, i), Slots(c)[i]) == Partial(c, i + 1)
  {
    if i == 6 {
      StepVisibilityOrder(c);
    } else {
      StepPasses(c);
    }
  }

  lemma StepsAt8(c: PHPFmtConfig, i: nat)
    requires i == 8 || i == 9
    requires NoComma(c.passes) && NoComma(c.exclude)
    ensures ReadSlot(Partial(c, i), Slots(c)[i]) == Partial(c, i + 1)
  {
    if i == 8 {
      StepExclude(c);
    } else {
      StepSmartLinebreak(c);
    }
  }

  lemma StepsAt10(c: PHPFmtConfig, i: nat)
    requires i == 10 || i == 11
    ensures ReadSlot(Partial(c, i), Slots(c)[i]) == Partial(c, i + 1)
  {
    if i == 10 {
      StepYoda(c);
    } else {
      StepCakephp(c);
    }
  }

  lemma StepsLow(c: PHPFmtConfig, i: nat)
    requires 0 <= i < 6
    ensures ReadSlot(Partial(c, i), Slots(c)[i]) == Partial(c, i + 1)
  {
    if i < 2 {
      StepsAt0(c, i);
    } else if i < 4 {
      StepsAt2(c, i);
    } else {
      StepsAt4(c, i);
    }
  }

  lemma StepsHigh(c: PHPFmtConfig, i: nat)
    requires 6 <= i < 12
    requires NoComma(c.passes) && NoComma(c.exclude)
    ensures ReadSlot(Partial(c, i), Slots(c)[i]) == Partial(c, i + 1)
  {
    if i < 8 {
      StepsAt6(c, i);
    } else if i < 10 {
      StepsAt8(c, i);
    } else {
      StepsAt10(c, i);
    }
  }

  /** Reading position `i` of `c`'s flags turns `Partial(c, i)` into `Partial(c, i + 1)`. */
  lemma ReadStep(c: PHPFmtConfig, i: nat)
    requires i < 12
    requires NoComma(c.passes) && NoComma(c.exclude)
    ensures ReadSlot(Partial(c, i), Slots(c)[i]) == Partial(c, i + 1)
  {
    if i < 6 {
      StepsLow(c, i);
    } else {
      StepsHigh(c, i);
    }
  }

  lemma {:induction false} ReadPrefix(c: PHPFmtConfig, i: nat)
    requires i <= 12
    requires NoComma(c.passes) && NoComma(c.exclude)
    ensures ReadSlots(NoSwitches, Slots(c)[..i]) == Partial(c, i)
  {
    if i > 0 {
      ReadPrefix(c, i - 1);
      assert Slots(c)[..i][..i - 1] == Slots(c)[..i - 1];
      ReadStep(c, i - 1);
    }
  }

  /**
   * Reading the flags back gives exactly the settings they came from: each
   * boolean flag is present iff its setting is true, the indentation as the
   * rules say, the pass and exclude lists themselves (when their names hold
   * no comma), and no flag besides.
   */
  lemma LoadSettingsDecodes(c: PHPFmtConfig)
    requires c.customArguments == ""
    requires NoComma(c.passes) && NoComma(c.exclude)
    ensures DecodeFlags(LoadSettings(c)) == Requested(c)
  {
    PlanKnown(c);
    DecodeRendered(Plan(c));
    ReadPresent(NoSwitches, Slots(c));
    ReadPrefix(c, 12);
    assert Slots(c)[..12] == Slots(c);
  }
}

=== FILE: strings.dfy ===
/**
 * The JavaScript string operations the extension relies on, restated over
 * `seq<char>`: `trim`, the regex class `\s`, `split` on one character,
 * `join`, `startsWith`, and the decimal rendering of a non-negative number.
 */
module Strings {

  /** JavaScript white space plus line terminators: the set `trim` removes and `\s` matches. */
  predicate IsSpace(c: char) {
    || c == ' ' || c == '\t' || c == '\n' || c == '\r'
    || c == '\U{000B}' || c == '\U{000C}' || c == '\U{00A0}' || c == '\U{1680}'
    || ('\U{2000}' <= c <= '\U{200A}')
    || c == '\U{2028}' || c == '\U{2029}' || c == '\U{202F}' || c == '\U{205F}'
    || c == '\U{3000}' || c == '\U{FEFF}'
  }

  /** True when every character is white space, i.e. `s.replace(/\s+/g, '')` is empty. */
  predicate IsBlank(s: string) {
    forall i :: 0 <= i < |s| ==> IsSpace(s[i])
  }

  predicate StartsWith(s: string, prefix: string) {
    |prefix| <= |s| && s[..|prefix|] == prefix
  }

  /** ASCII lower-casing, the folding a case-insensitive regex applies to ASCII letters. */
  function AsciiLower(c: char): char {
    if 'A' <= c <= 'Z' then (c as int + 32) as char else c
  }

  /** `s` starts with `prefix` when ASCII letters are compared without case; `prefix` is lower case. */
  predicate StartsWithNoCase(s: string, prefix: string) {
    |prefix| <= |s| && forall i :: 0 <= i < |prefix| ==> AsciiLower(s[i]) == prefix[i]
  }

  /** `"` + s + `"`, the quoting the extension puts around paths on a command line. */
  function Quote(s: string): (r: string)
    ensures |r| == |s| + 2 && r[0] == '"' && r[|r| - 1] == '"' && r[1..|r| - 1] == s
  {
    "\"" + s + "\""
  }

  // ---------------------------------------------------------------- trim

  /** Number of white-space characters at the start of `s`. */
  function LeadingSpaces(s: string): (n: nat)
    ensures n <= |s|
    ensures IsBlank(s[..n])
    ensures n < |s| ==> !IsSpace(s[n])
  {
    if |s| > 0 && IsSpace(s[0]) then
      var n := 1 + LeadingSpaces(s[1..]);
      assert s[..n] == [s[0]] + s[1..][..n - 1];
      n
    else 0
  }

  /** Number of white-space characters at the end of `s`. */
  function TrailingSpaces(s: string): (n: nat)
    ensures n <= |s|
    ensures IsBlank(s[|s| - n..])
    ensures n < |s| ==> !IsSpace(s[|s| - n - 1])
  {
    if |s| > 0 && IsSpace(s[|s| - 1]) then
      var n := 1 + TrailingSpaces(s[..|s| - 1]);
      assert s[|s| - n..] == s[..|s| - 1][|s| - n..] + [s[|s| - 1]];
      n
    else 0
  }

  /**
   * `String.prototype.trim`: `s` with its white-space prefix and suffix
   * removed. The result is the part of `s` between its white-space margins
   * and neither starts nor ends with white space.
   */
  function Trim(s: string): (r: string)
    ensures |r| <= |s|
    ensures r == [] <==> IsBlank(s)
    ensures |r| > 0 ==> !IsSpace(r[0]) && !IsSpace(r[|r| - 1])
    ensures !IsBlank(s) ==> (LeadingSpaces(s) < |s| - TrailingSpaces(s)
      && r == s[LeadingSpaces(s)..|s| - TrailingSpaces(s)])
  {
    var a := LeadingSpaces(s);
    if a == |s| then
      assert s[..a] == s;
      []
    else
      var b := TrailingSpaces(s);
      assert a < |s| - b;
      assert !IsSpace(s[a]);
      s[a..|s| - b]
  }

  /** Trimming leaves a string alone exactly when its ends are not white space. */
  lemma TrimKeeps(s: string)
    requires |s| > 0 ==> !IsSpace(s[0]) && !IsSpace(s[|s| - 1])
    ensures Trim(s) == s
  {
    if |s| > 0 {
      assert LeadingSpaces(s) == 0;
      assert TrailingSpaces(s) == 0;
      assert s[0..|s|] == s;
    }
  }

  lemma {:induction false} LeadingOver(before: string, rest: string)
    requires IsBlank(before) && |rest| > 0 && !IsSpace(rest[0])
    ensures LeadingSpaces(before + rest) == |before|
  {
    if |before| == 0 {
      assert before + rest == rest;
    } else {
      assert (before + rest)[1..] == before[1..] + rest;
      LeadingOver(before[1..], rest);
    }
  }

  lemma {:induction false} TrailingOver(rest: string, after: string)
    requires IsBlank(after) && |rest| > 0 && !IsSpace(rest[|rest| - 1])
    ensures TrailingSpaces(rest + after) == |after|
  {
    if |after| == 0 {
      assert rest + after == rest;
    } else {
      var x := rest + after;
      assert x[..|x| - 1] == rest + after[..|after| - 1];
      TrailingOver(rest, after[..|after| - 1]);
    }
  }

  /** Trimming strips blank margins and nothing else. */
  lemma TrimMargins(before: string, s: string, after: string)
    requires IsBlank(before) && IsBlank(after)
    requires |s| > 0 && !IsSpace(s[0]) && !IsSpace(s[|s| - 1])
    ensures Trim(before + s + after) == s
  {
    var x := before + s + after;
    assert x == before + (s + after);
    LeadingOver(before, s + after);
    TrailingOver(before + s, after);
    assert x[|before|..|x| - |after|] == s;
  }

  lemma TrimIdempotent(s: string)
    ensures Trim(Trim(s)) == Trim(s)
  {
    TrimKeeps(Trim(s));
  }

  // ---------------------------------------------------------------- join / split

  /** `Array.prototype.join(sep)`. */
  function Join(parts: seq<string>, sep: string): (r: string)
    ensures |parts| == 1 ==> r == parts[0]
  {
    if |parts| == 0 then ""
    else if |parts| == 1 then parts[0]
    else parts[0] + sep + Join(parts[1..], sep)
  }

  lemma JoinCons(x: string, rest: seq<string>, sep: string)
    requires |rest| > 0
    ensures Join([x] + rest, sep) == x + sep + Join(rest, sep)
  {
    assert ([x] + rest)[1..] == rest;
  }

  /** The first character of a join is the first character of its first part. */
  lemma {:induction false} JoinHead(parts: seq<string>, sep: string)
    requires |parts| > 0 && |parts[0]| > 0
    ensures |Join(parts, sep)| > 0 && Join(parts, sep)[0] == parts[0][0]
  {
  }

  /** The last character of a join is the last character of its last part. */
  lemma {:induction false} JoinLast(parts: seq<string>, sep: string)
    requires |parts| > 0 && |parts[|parts| - 1]| > 0
    ensures |Join(parts, sep)| > 0
    ensures Join(parts, sep)[|Join(parts, sep)| - 1] == parts[|parts| - 1][|parts[|parts| - 1]| - 1]
  {
    if |parts| > 1 {
      JoinLast(parts[1..], sep);
    }
  }

  /**
   * `String.prototype.split(sep)` for a one-character separator: the pieces
   * between the occurrences of `sep`. There is always at least one piece, no
   * piece contains the separator, and joining the pieces back with the
   * separator gives `s`.
   */
  function Split(s: string, sep: char): (parts: seq<string>)
    ensures |parts| >= 1
    ensures forall i :: 0 <= i < |parts| ==> sep !in parts[i]
    ensures Join(parts, [sep]) == s
    decreases |s|
  {
    if |s| == 0 then [""]
    else if s[0] == sep then
      var rest := Split(s[1..], sep);
      JoinCons("", rest, [sep]);
      assert s == [sep] + s[1..];
      [""] + rest
    else
      var rest := Split(s[1..], sep);
      var parts := [[s[0]] + rest[0]] + rest[1..];
      assert s == [s[0]] + s[1..];
      if |rest| == 1 then parts
      else
        JoinCons([s[0]] + rest[0], rest[1..], [sep]);
        JoinCons(rest[0], rest[1..], [sep]);
        assert rest == [rest[0]] + rest[1..];
        parts
  }

  lemma {:induction false} SplitNoSeparator(a: string, sep: char)
    requires sep !in a
    ensures Split(a, sep) == [a]
    decreases |a|
  {
    if |a| > 0 {
      SplitNoSeparator(a[1..], sep);
      assert [a[0]] + a[1..] == a;
    }
  }

  lemma {:induction false} SplitAfterPiece(a: string, b: string, sep: char)
    requires sep !in a
    ensures Split(a + [sep] + b, sep) == [a] + Split(b, sep)
    decreases |a|
  {
    var s := a + [sep] + b;
    if |a| == 0 {
      assert s[1..] == b;
    } else {
      assert s[1..] == a[1..] + [sep] + b;
      SplitAfterPiece(a[1..], b, sep);
      assert [a[0]] + a[1..] == a;
    }
  }

  /** Splitting a join undoes it when no piece contains the separator. */
  lemma {:induction false} SplitJoin(parts: seq<string>, sep: char)
    requires |parts| >= 1
    requires forall i :: 0 <= i < |parts| ==> sep !in parts[i]
    ensures Split(Join(parts, [sep]), sep) == parts
    decreases |parts|
  {
    if |parts| == 1 {
      SplitNoSeparator(parts[0], sep);
    } else {
      SplitJoin(parts[1..], sep);
      SplitAfterPiece(parts[0], Join(parts[1..], [sep]), sep);
      assert [parts[0]] + parts[1..] == parts;
    }
  }

  /** The pieces that are non-empty, in order (JavaScript's truthiness filter on strings). */
  function NonEmpty(parts: seq<string>): (r: seq<string>)
    ensures |r| <= |parts|
    ensures forall i :: 0 <= i < |r| ==> r[i] != "" && r[i] in parts
    ensures forall x :: x in parts && x != "" ==> x in r
  {
    if |parts| == 0 then []
    else if parts[0] == "" then NonEmpty(parts[1..])
    else [parts[0]] + NonEmpty(parts[1..])
  }

  lemma {:induction false} NonEmptyKeeps(parts: seq<string>)
    requires forall i :: 0 <= i < |parts| ==> parts[i] != ""
    ensures NonEmpty(parts) == parts
  {
    if |parts| > 0 {
      NonEmptyKeeps(parts[1..]);
      assert [parts[0]] + parts[1..] == parts;
    }
  }

  // ---------------------------------------------------------------- decimal numbers

  predicate IsDigit(c: char) { '0' <= c <= '9' }

  predicate IsDigits(s: string) {
    |s| > 0 && forall i :: 0 <= i < |s| ==> IsDigit(s[i])
  }

  function DigitChar(d: nat): (c: char)
    requires d < 10
    ensures IsDigit(c)
  {
    ['0', '1', '2', '3', '4', '5', '6', '7', '8', '9'][d]
  }

  function DigitValue(c: char): nat
    requires IsDigit(c)
  {
    (c as int - '0' as int) as nat
  }

  /** Decimal rendering of a natural number, as template literals produce it. */
  function NatToString(n: nat): (s: string)
    ensures IsDigits(s)
    ensures |s| > 1 ==> s[0] != '0'
  {
    if n < 10 then [DigitChar(n)]
    else NatToString(n / 10) + [DigitChar(n % 10)]
  }

  /** The value of a string of decimal digits. */
  function ParseDigits(s: string): nat
    requires forall i :: 0 <= i < |s| ==> IsDigit(s[i])
  {
    if |s| == 0 then 0
    else 10 * ParseDigits(s[..|s| - 1]) + DigitValue(s[|s| - 1])
  }

  lemma {:induction false} ParseNatToString(n: nat)
    ensures ParseDigits(NatToString(n)) == n
  {
    var s := NatToString(n);
    if n >= 10 {
      ParseNatToString(n / 10);
      assert s[..|s| - 1] == NatToString(n / 10);
    }
  }

  /** Decimal rendering of an integer, with a leading minus sign when negative. */
  function IntToString(n: int): (s: string)
    ensures n >= 0 ==> s == NatToString(n)
    ensures n < 0 ==> s == "-" + NatToString(-n)
  {
    if n < 0 then "-" + NatToString(-n) else NatToString(n)
  }
}

=== FILE: versions.dfy ===
/**
 * The PHP version check of `PHPFmt.format` (src/PHPFmt.ts): the version
 * token is taken from the output of `php -v` with `/PHP ([\d.]+)/i`, parsed
 * the way the `compare-versions` package parses it (one to four numeric
 * components), compared component-wise with missing components read as zero,
 * and checked against the supported window.
 */
module Versions {
  import opened Strings
  import opened Wrappers

  // ---------------------------------------------------------------- the version token

  /** The characters of the regex class `[\d.]`. */
  predicate IsVersionChar(c: char) {
    IsDigit(c) || c == '.'
  }

  /** Length of the run of version characters that starts at `i`. */
  function RunFrom(s: string, i: nat): (n: nat)
    requires i <= |s|
    ensures i + n <= |s|
    ensures forall k :: i <= k < i + n ==> IsVersionChar(s[k])
    ensures i + n < |s| ==> !IsVersionChar(s[i + n])
    decreases |s| - i
  {
    if i < |s| && IsVersionChar(s[i]) then 1 + RunFrom(s, i + 1) else 0
  }

  /** `PHP ` in any letter case, then at least one version character, starts at `i`. */
  predicate MatchesAt(s: string, i: nat) {
    i + 4 < |s| && StartsWithNoCase(s[i..], "php ") && IsVersionChar(s[i + 4])
  }

  /** The leftmost position at or after `from` where the pattern matches. */
  function FirstMatch(s: string, from: nat): (r: Option<nat>)
    requires from <= |s|
    ensures r.Some? ==> from <= r.value < |s| && MatchesAt(s, r.value)
    ensures forall k :: from <= k < (if r.Some? then r.value else |s|) ==> !MatchesAt(s, k)
    decreases |s| - from
  {
    if from == |s| then None
    else if MatchesAt(s, from) then Some(from)
    else FirstMatch(s, from + 1)
  }

  /**
   * `t` is the token the regex captures at `j`: `j` is the leftmost match,
   * and `t` is the whole run of version characters after `PHP `.
   */
  predicate TokenAt(s: string, j: nat, t: string) {
    && j < |s| && MatchesAt(s, j)
    && (forall k :: 0 <= k < j ==> !MatchesAt(s, k))
    && j + 4 + |t| <= |s| && t == s[j + 4..j + 4 + |t|]
    && (j + 4 + |t| < |s| ==> !IsVersionChar(s[j + 4 + |t|]))
  }

  /**
   * The first capture group of `/PHP ([\d.]+)/i.exec(stdout)`: the longest
   * run of digits and dots after the leftmost `PHP ` that is followed by one.
   */
  function FindVersion(s: string): (r: Option<string>)
    ensures r.None? <==> forall k :: 0 <= k < |s| ==> !MatchesAt(s, k)
    ensures r.Some? ==> exists j :: TokenAt(s, j, r.value)
    ensures r.Some? ==> |r.value| > 0 && forall i :: 0 <= i < |r.value| ==> IsVersionChar(r.value[i])
  {
    match FirstMatch(s, 0)
    case None => None
    case Some(j) =>
      var t := s[j + 4..j + 4 + RunFrom(s, j + 4)];
      assert TokenAt(s, j, t);
      Some(t)
  }

  lemma {:induction false} RunOver(s: string, i: nat, t: string)
    requires i + |t| <= |s| && s[i..i + |t|] == t
    requires forall k :: 0 <= k < |t| ==> IsVersionChar(t[k])
    requires i + |t| < |s| ==> !IsVersionChar(s[i + |t|])
    ensures RunFrom(s, i) == |t|
    decreases |t|
  {
    if |t| > 0 {
      assert s[i] == t[0];
      assert s[i + 1..i + 1 + |t[1..]|] == t[1..];
      RunOver(s, i + 1, t[1..]);
    }
  }

  /** Output that opens with `PHP <version>` yields exactly that version token. */
  lemma FindVersionAtStart(t: string, rest: string)
    requires |t| > 0 && forall k :: 0 <= k < |t| ==> IsVersionChar(t[k])
    requires |rest| > 0 ==> !IsVersionChar(rest[0])
    ensures FindVersion("PHP " + t + rest) == Some(t)
  {
    var s := "PHP " + t + rest;
    OpensWithPhp(t, rest);
    assert FirstMatch(s, 0) == Some(0);
    assert s[4..4 + |t|] == t;
    if |rest| > 0 {
      assert s[4 + |t|] == rest[0];
    }
    RunOver(s, 4, t);
  }

  lemma OpensWithPhp(t: string, rest: string)
    requires |t| > 0 && IsVersionChar(t[0])
    ensures MatchesAt("PHP " + t + rest, 0)
  {
    var s := "PHP " + t + rest;
    assert s[4] == t[0];
    assert s[0] == 'P' && s[1] == 'H' && s[2] == 'P' && s[3] == ' ';
    assert s[0..] == s;
  }

  // ---------------------------------------------------------------- parsing

  /**
   * A version string as `compare-versions` accepts it when it holds only
   * digits and dots: one to four non-empty numeric components. Anything else
   * makes `compare` throw.
   */
  function ParseVersion(t: string): (r: Option<seq<nat>>)
    ensures r.Some? ==> 1 <= |r.value| <= 4 && |r.value| == |Split(t, '.')|
    ensures r.Some? <==> |Split(t, '.')| <= 4 && forall i :: 0 <= i < |Split(t, '.')| ==> IsDigits(Split(t, '.')[i])
  {
    var parts := Split(t, '.');
    if |parts| <= 4 && forall i :: 0 <= i < |parts| ==> IsDigits(parts[i]) then
      Some(seq(|parts|, i requires 0 <= i < |parts| => ParseDigits(parts[i])))
    else None
  }

  /** The dotted decimal rendering of a version. */
  function RenderVersion(v: seq<nat>): string {
    Join(seq(|v|, i requires 0 <= i < |v| => NatToString(v[i])), ".")
  }

  /** Parsing undoes rendering for every version of one to four components. */
  lemma ParseRender(v: seq<nat>)
    requires 1 <= |v| <= 4
    ensures ParseVersion(RenderVersion(v)) == Some(v)
  {
    var parts := seq(|v|, i requires 0 <= i < |v| => NatToString(v[i]));
    forall i | 0 <= i < |parts|
      ensures '.' !in parts[i] && IsDigits(parts[i])
    {
      assert IsDigits(NatToString(v[i]));
    }
    assert "." == ['.'];
    SplitJoin(parts, '.');
    assert Split(RenderVersion(v), '.') == parts;
    var r := seq(|parts|, i requires 0 <= i < |parts| => ParseDigits(parts[i]));
    forall i | 0 <= i < |v|
      ensures r[i] == v[i]
    {
      ParseNatToString(v[i]);
    }
    assert r == v;
    assert ParseVersion(RenderVersion(v)) == Some(r);
  }

  // ---------------------------------------------------------------- ordering

  /** Component `i`, or zero past the end. */
  function At(v: seq<nat>, i: nat): nat {
    if i < |v| then v[i] else 0
  }

  function Width(a: seq<nat>, b: seq<nat>): nat {
    if |a| < |b| then |b| else |a|
  }

  /** Compares components `i` onwards: -1, 0 or 1 by the first difference. */
  function CmpFrom(a: seq<nat>, b: seq<nat>, i: nat): (r: int)
    ensures -1 <= r <= 1
    ensures r == 0 <==> forall k :: i <= k < Width(a, b) ==> At(a, k) == At(b, k)
    decreases Width(a, b) - i
  {
    if i >= Width(a, b) then 0
    else if At(a, i) < At(b, i) then -1
    else if At(a, i) > At(b, i) then 1
    else CmpFrom(a, b, i + 1)
  }

  /** `compareVersions(a, b)`: -1, 0 or 1. */
  function Cmp(a: seq<nat>, b: seq<nat>): (r: int)
    ensures -1 <= r <= 1
    ensures r == 0 <==> forall k :: 0 <= k < Width(a, b) ==> At(a, k) == At(b, k)
  {
    CmpFrom(a, b, 0)
  }

  /** One step of the comparison; also holds past both ends, where every component is zero. */
  lemma CmpStep(a: seq<nat>, b: seq<nat>, i: nat)
    ensures CmpFrom(a, b, i) == if At(a, i) < At(b, i) then -1
      else if At(a, i) > At(b, i) then 1 else CmpFrom(a, b, i + 1)
  {
  }

  lemma {:induction false} CmpFromSwap(a: seq<nat>, b: seq<nat>, i: nat)
    ensures CmpFrom(b, a, i) == -CmpFrom(a, b, i)
    decreases Width(a, b) - i
  {
    if i < Width(a, b) {
      CmpFromSwap(a, b, i + 1);
    }
  }

  lemma CmpSwap(a: seq<nat>, b: seq<nat>)
    ensures Cmp(b, a) == -Cmp(a, b)
  {
    CmpFromSwap(a, b, 0);
  }

  lemma {:induction false} CmpFromTrans(a: seq<nat>, b: seq<nat>, c: seq<nat>, i: nat)
    requires CmpFrom(a, b, i) <= 0 && CmpFrom(b, c, i) <= 0
    ensures CmpFrom(a, c, i) <= 0
    decreases |a| + |b| + |c| - i
  {
    if i < |a| + |b| + |c| {
      CmpStep(a, b, i);
      CmpStep(b, c, i);
      CmpStep(a, c, i);
      if At(a, i) == At(b, i) && At(b, i) == At(c, i) {
        CmpFromTrans(a, b, c, i + 1);
      }
    }
  }

  /** The version order is transitive. */
  lemma CmpTrans(a: seq<nat>, b: seq<nat>, c: seq<nat>)
    requires Cmp(a, b) <= 0 && Cmp(b, c) <= 0
    ensures Cmp(a, c) <= 0
  {
    CmpFromTrans(a, b, c, 0);
  }

  /** Missing components count as zero: `5.6` and `5.6.0` compare equal. */
  lemma CmpZeroPadding(v: seq<nat>)
    ensures Cmp(v, v + [0]) == 0
  {
    forall k | 0 <= k < Width(v, v + [0])
      ensures At(v, k) == At(v + [0], k)
    {
    }
  }

  // ---------------------------------------------------------------- the window

  const OldestSupported: seq<nat> := [5, 6, 0]
  const NewestForOldPhpfmt: seq<nat> := [8, 0, 0]

  /**
   * The accepted versions: at least 5.6.0, and with `use_old_phpfmt` also at
   * most 8.0.0.
   */
  function InWindow(v: seq<nat>, useOldPhpfmt: bool): (ok: bool)
    ensures Cmp(v, OldestSupported) < 0 ==> !ok
    ensures useOldPhpfmt && Cmp(v, NewestForOldPhpfmt) > 0 ==> !ok
    ensures !useOldPhpfmt ==> (ok <==> Cmp(v, OldestSupported) >= 0)
  {
    && !(Cmp(v, OldestSupported) < 0)
    && (useOldPhpfmt ==> !(Cmp(v, NewestForOldPhpfmt) > 0))
  }

  /** The old-phpfmt window lies inside the current one. */
  lemma WindowModes(v: seq<nat>)
    ensures InWindow(v, true) ==> InWindow(v, false)
  {
  }

  /** Without `use_old_phpfmt` the window is closed upwards: anything newer than an accepted version is accepted. */
  lemma WindowUpward(a: seq<nat>, b: seq<nat>)
    requires InWindow(a, false) && Cmp(a, b) <= 0
    ensures InWindow(b, false)
  {
    CmpSwap(a, OldestSupported);
    CmpTrans(OldestSupported, a, b);
    CmpSwap(b, OldestSupported);
  }

  /** With `use_old_phpfmt` the window is an interval: anything between two accepted versions is accepted. */
  lemma WindowConvex(a: seq<nat>, b: seq<nat>, c: seq<nat>)
    requires InWindow(a, true) && InWindow(c, true)
    requires Cmp(a, b) <= 0 && Cmp(b, c) <= 0
    ensures InWindow(b, true)
  {
    CmpSwap(a, OldestSupported);
    CmpTrans(OldestSupported, a, b);
    CmpSwap(b, OldestSupported);
    CmpTrans(b, c, NewestForOldPhpfmt);
  }

  /** The outcome of running `php -v`: the call failed, or it exited with a code and an output. */
  datatype Probe = ProbeFailed | ProbeExited(code: int, stdout: string)

  /**
   * The version check of `format`, as the error message it raises (without
   * the `phpfmt: ` prefix) or the accepted version. A failed call and a token
   * that `compare` refuses both surface as "Error getting php version",
   * because the catch block wraps every error that is not its own.
   */
  function ProbeVersion(p: Probe, useOldPhpfmt: bool): (r: Result<seq<nat>, string>)
    ensures p.ProbeFailed? ==> r == Failure("Error getting php version")
    ensures p.ProbeExited? && p.code != 0 ==> r == Failure("\"php -v\" returns non-zero code")
    ensures p.ProbeExited? && p.code == 0 && FindVersion(p.stdout).None? ==> r == Failure("Failed to parse php version")
    ensures (p.ProbeExited? && p.code == 0 && FindVersion(p.stdout).Some?
      && ParseVersion(FindVersion(p.stdout).value).None?) ==> r == Failure("Error getting php version")
    ensures (p.ProbeExited? && p.code == 0 && FindVersion(p.stdout).Some?
      && ParseVersion(FindVersion(p.stdout).value).Some?) ==>
      var v := ParseVersion(FindVersion(p.stdout).value).value;
      r == if InWindow(v, useOldPhpfmt) then Success(v)
        else if useOldPhpfmt then Failure("PHP version < 5.6 or > 8.0")
        else Failure("PHP version < 5.6")
    ensures r.Success? ==> InWindow(r.value, useOldPhpfmt) && 1 <= |r.value| <= 4
  {
    match p
    case ProbeFailed => Failure("Error getting php version")
    case ProbeExited(code, stdout) =>
      if code != 0 then Failure("\"php -v\" returns non-zero code")
      else match FindVersion(stdout)
        case None => Failure("Failed to parse php version")
        case Some(token) =>
          match ParseVersion(token)
          case None => Failure("Error getting php version")
          case Some(v) =>
            if useOldPhpfmt && (Cmp(v, OldestSupported) < 0 || Cmp(v, NewestForOldPhpfmt) > 0) then
              Failure("PHP version < 5.6 or > 8.0")
            else if !useOldPhpfmt && Cmp(v, OldestSupported) < 0 then
              Failure("PHP version < 5.6")
            else Success(v)
  }

  /**
   * For the usual `php -v` banner `PHP <version> (cli) ...`, the check
   * accepts exactly the versions inside the window, and reports the version
   * it read.
   */
  lemma ProbeBanner(v: seq<nat>, rest: string, useOldPhpfmt: bool)
    requires 1 <= |v| <= 4
    requires |rest| > 0 ==> !IsVersionChar(rest[0])
    ensures var r := ProbeVersion(ProbeExited(0, "PHP " + RenderVersion(v) + rest), useOldPhpfmt);
      (r.Success? <==> InWindow(v, useOldPhpfmt)) && (r.Success? ==> r.value == v)
  {
    var t := RenderVersion(v);
    var parts := seq(|v|, i requires 0 <= i < |v| => NatToString(v[i]));
    assert IsDigits(parts[0]);
    JoinHead(parts, ".");
    forall k | 0 <= k < |t|
      ensures IsVersionChar(t[k])
    {
      JoinChars(parts, ".", k);
    }
    FindVersionAtStart(t, rest);
    ParseRender(v);
  }

  /** Every character of a join comes from a part or from the separator. */
  lemma {:induction false} JoinChars(parts: seq<string>, sep: string, k: nat)
    requires k < |Join(parts, sep)|
    requires forall i :: 0 <= i < |parts| ==> IsDigits(parts[i])
    requires sep == "."
    ensures IsVersionChar(Join(parts, sep)[k])
    decreases |parts|
  {
    if |parts| == 1 {
      assert IsDigit(parts[0][k]);
    } else if |parts| > 1 {
      var rest := Join(parts[1..], sep);
      assert Join(parts, sep) == parts[0] + sep + rest;
      if k < |parts[0]| {
        assert IsDigit(parts[0][k]);
      } else if k > |parts[0]| {
        JoinChars(parts[1..], sep, k - |parts[0]| - 1);
      }
    }
  }
}

=== FILE: widget.dfy ===
/**
 * The status-bar item and the output channel of the extension
 * (src/Widget.ts). The widget is a value: its log level, the item's text,
 * background colour and visibility, and the lines written to the channel.
 * The clock (`new Date().toLocaleString()`) and `JSON.stringify` are
 * parameters.
 */
module Widget {
  import opened Strings
  import opened Wrappers

  // ---------------------------------------------------------------- the status item

  datatype Status = Ready | Success | Ignore | Warn | Error | Disabled

  /**
   * The codicon each status shows: a non-empty name without a space or a
   * closing parenthesis, so `$(<icon>)` reads back as exactly that icon.
   */
  function Icon(s: Status): (icon: string)
    ensures |icon| > 0 && ' ' !in icon && ')' !in icon
  {
    match s
    case Ready => "check-all"
    case Success => "check"
    case Ignore => "x"
    case Warn => "warning"
    case Error => "alert"
    case Disabled => "circle-slash"
  }

  /** Reading a codicon name back as a status. */
  function StatusOfIcon(icon: string): (r: Option<Status>)
    ensures r.Some? ==> Icon(r.value) == icon
  {
    if icon == "check-all" then Some(Ready)
    else if icon == "check" then Some(Status.Success)
    else if icon == "x" then Some(Ignore)
    else if icon == "warning" then Some(Warn)
    else if icon == "alert" then Some(Error)
    else if icon == "circle-slash" then Some(Disabled)
    else None
  }

  /** Every status has its own icon. */
  lemma IconRoundTrip(s: Status)
    ensures StatusOfIcon(Icon(s)) == Some(s)
  {
  }

  const WarningBackground := "statusBarItem.warningBackground"
  const ErrorBackground := "statusBarItem.errorBackground"
  /** The theme colour id of every other status, spelt as the source spells it. */
  const DefaultBackground := "statusBarItem.fourgroundBackground"

  /** The background: the warning colour for Ignore and Warn, the error colour for Error. */
  function Colour(s: Status): (id: string)
    ensures id == WarningBackground <==> s == Ignore || s == Warn
    ensures id == ErrorBackground <==> s == Error
    ensures id == DefaultBackground <==> !(s == Ignore || s == Warn || s == Error)
  {
    match s
    case Ignore => WarningBackground
    case Warn => WarningBackground
    case Error => ErrorBackground
    case _ => DefaultBackground
  }

  const Title := "phpfmt"

  /** `$(<icon>) phpfmt`. */
  function StatusText(s: Status): (text: string)
    ensures |text| == |Icon(s)| + 2 + |") " + Title|
    ensures text[..2] == "$("
    ensures text[2..|text| - |") " + Title|] == Icon(s)
    ensures text[|text| - |") " + Title|..] == ") " + Title
  {
    var text := "$(" + Icon(s) + ") " + Title;
    assert text == "$(" + (Icon(s) + (") " + Title));
    assert text[2..] == Icon(s) + ") " + Title;
    assert text[2..|text| - |") " + Title|] == text[2..][..|Icon(s)|];
    text
  }

  /** The item's text tells which status it shows. */
  lemma StatusTextInjective(a: Status, b: Status)
    requires StatusText(a) == StatusText(b)
    ensures a == b
  {
    IconRoundTrip(a);
    IconRoundTrip(b);
  }

  // ---------------------------------------------------------------- the widget value

  datatype LogLevel = INFO | WARN | ERROR | NONE

  function LevelName(l: LogLevel): string {
    match l
    case INFO => "INFO"
    case WARN => "WARN"
    case ERROR => "ERROR"
    case NONE => "NONE"
  }

  datatype Widget = Widget(
    level: LogLevel,
    text: string,
    background: Option<string>,
    visible: bool,
    lines: seq<string>)

  /** `updateStatusBarItem`: the status's text and colour, and the item is shown. */
  function Update(w: Widget, s: Status): (r: Widget)
    ensures r.visible && r.text == StatusText(s) && r.background == Some(Colour(s))
    ensures r.level == w.level && r.lines == w.lines
  {
    w.(text := StatusText(s), background := Some(Colour(s)), visible := true)
  }

  /**
   * `toggleStatusBarItem` for the active editor's language, if there is an
   * editor: PHP shows the item as Ready, any other language hides it, and
   * no editor changes nothing.
   */
  function Toggle(w: Widget, languageId: Option<string>): (r: Widget)
    ensures languageId.None? ==> r == w
    ensures languageId == Some("php") ==> r == Update(w, Ready)
    ensures languageId.Some? && languageId.value != "php" ==> r == w.(visible := false)
  {
    match languageId
    case None => w
    case Some(id) => if id == "php" then Update(w, Ready) else w.(visible := false)
  }

  /** The constructor: level INFO, the bare title, hidden, then toggled for the editor. */
  function Init(languageId: Option<string>): (r: Widget)
    ensures r.level == INFO && r.lines == []
    ensures r.visible <==> languageId == Some("php")
    ensures r.visible ==> r.text == StatusText(Ready)
    ensures !r.visible ==> r.text == Title && r.background.None?
  {
    Toggle(Widget(INFO, Title, None, false, []), languageId)
  }

  function SetOutputLevel(w: Widget, l: LogLevel): (r: Widget)
    ensures r.level == l && r.(level := w.level) == w
  {
    w.(level := l)
  }

  // ---------------------------------------------------------------- logging

  /** The optional second argument of the log calls. */
  datatype Payload =
    | NoData                       // `undefined`
    | Text(s: string)              // a string
    | ErrorValue(message: string)  // an `Error` instance
    | Other(truthy: bool)          // any other value, with its JavaScript truthiness

  predicate Truthy(d: Payload) {
    match d
    case NoData => false
    case Text(s) => s != ""
    case ErrorValue(_) => true
    case Other(t) => t
  }

  /** How strict a level is, and how severe a message at that level is. */
  function Severity(l: LogLevel): nat {
    match l
    case INFO => 0
    case WARN => 1
    case ERROR => 2
    case NONE => 3
  }

  /** A message at `at` reaches the channel under `level`. */
  predicate Shown(level: LogLevel, at: LogLevel) {
    at != NONE && Severity(level) <= Severity(at)
  }

  /** `${now} [LEVEL] message`. */
  function LogLine(now: string, at: LogLevel, message: string): (line: string)
    ensures StartsWith(line, now + " [")
    ensures line[|now + " ["|..] == LevelName(at) + "] " + message
  {
    now + " [" + LevelName(at) + "] " + message
  }

  /** `logInfo` and `logWarning` log their data as JSON when it is truthy. */
  function DataLines(data: Payload, stringify: Payload -> string): (r: seq<string>)
    ensures |r| <= 1 && (|r| == 1 <==> Truthy(data))
    ensures |r| == 1 ==> r[0] == stringify(data)
  {
    if Truthy(data) then [stringify(data)] else []
  }

  function LogInfo(w: Widget, now: string, message: string, data: Payload, stringify: Payload -> string): (r: Widget)
    ensures r.(lines := w.lines) == w
    ensures !Shown(w.level, INFO) ==> r == w
    ensures Shown(w.level, INFO) ==>
      r.lines == w.lines + [LogLine(now, INFO, message)] + DataLines(data, stringify)
  {
    if w.level in {NONE, WARN, ERROR} then w
    else w.(lines := w.lines + [LogLine(now, INFO, message)] + DataLines(data, stringify))
  }

  function LogWarning(w: Widget, now: string, message: string, data: Payload, stringify: Payload -> string): (r: Widget)
    ensures r.(lines := w.lines) == w
    ensures !Shown(w.level, WARN) ==> r == w
    ensures Shown(w.level, WARN) ==>
      r.lines == w.lines + [LogLine(now, WARN, message)] + DataLines(data, stringify)
  {
    if w.level in {NONE, ERROR} then w
    else w.(lines := w.lines + [LogLine(now, WARN, message)] + DataLines(data, stringify))
  }

  /**
   * What `logError` writes after its own line: a string verbatim (even an
   * empty one), an `Error`'s message as a second ERROR line when it has one,
   * and any other truthy value as JSON.
   */
  function ErrorLines(now: string, error: Payload, stringify: Payload -> string): (r: seq<string>)
    ensures |r| <= 1
    ensures error.Text? ==> r == [error.s]
    ensures error.ErrorValue? ==> (r == [] <==> error.message == "")
    ensures error.NoData? || error == Other(false) ==> r == []
  {
    match error
    case Text(s) => [s]
    case ErrorValue(m) => if m != "" then [LogLine(now, ERROR, m)] else []
    case Other(t) => if t then [stringify(error)] else []
    case NoData => []
  }

  function LogError(w: Widget, now: string, message: string, error: Payload, stringify: Payload -> string): (r: Widget)
    ensures r.(lines := w.lines) == w
    ensures !Shown(w.level, ERROR) ==> r == w
    ensures Shown(w.level, ERROR) ==>
      r.lines == w.lines + [LogLine(now, ERROR, message)] + ErrorLines(now, error, stringify)
  {
    if w.level in {NONE} then w
    else w.(lines := w.lines + [LogLine(now, ERROR, message)] + ErrorLines(now, error, stringify))
  }

  /** The level is a threshold: what shows under a level also shows under every less strict one. */
  lemma ThresholdMonotone(strict: LogLevel, lax: LogLevel, at: LogLevel)
    requires Severity(lax) <= Severity(strict) && Shown(strict, at)
    ensures Shown(lax, at)
  {
  }

  /** Every level but NONE shows errors; only INFO shows information. */
  lemma WhatEachLevelShows(level: LogLevel)
    ensures Shown(level, ERROR) <==> level != NONE
    ensures Shown(level, WARN) <==> level == INFO || level == WARN
    ensures Shown(level, INFO) <==> level == INFO
  {
  }

  /** Logging never touches the status item. */
  lemma LoggingLeavesItem(w: Widget, now: string, message: string, data: Payload, stringify: Payload -> string)
    ensures var r := LogError(LogWarning(LogInfo(w, now, message, data, stringify), now, message, data, stringify), now, message, data, stringify);
      r.text == w.text && r.background == w.background && r.visible == w.visible && r.level == w.level
      && r.lines[..|w.lines|] == w.lines
  {
  }
}

=== FILE: wrappers.dfy ===
/**
 * Failure-compatible wrappers shared by the model: `Option` for JavaScript's
 * `undefined`/`null` and `Result` for a value or a thrown error.
 */
module Wrappers {

  datatype Option<+T> = None | Some(value: T) {
    predicate IsFailure() { None? }

    function PropagateFailure<U>(): Option<U>
      requires None?
    {
      None
    }

    function Extract(): T
      requires Some?
    {
      value
    }
  }

  datatype Result<+R, +E> = Success(value: R) | Failure(error: E) {
    predicate IsFailure() { Failure? }

    function PropagateFailure<U>(): Result<U, E>
      requires Failure?
    {
      Failure(error)
    }

    function Extract(): R
      requires Success?
    {
      value
    }
  }
}
